=== FILE: README.md ===
# polkadot-news: forum signals, rankings and report selection in Dafny

This project models the data-processing core of polkadot-news, a set of Python
tools that read the Polkadot community forum and the on-chain governance
analysis and turn them into reports and newsletters. The model is a set of
pure functions over immutable records and sequences:

- **Forum analyzer** (`ForumAnalyzer`, `TextSignals`, `Timeline`). This covers:
  - HTML tag stripping, per-occurrence `@mention` counting and keyword filtering;
  - per-topic ingestion of tags, user activity, mentions, keywords and governance titles;
  - category activity and the hot-topic heat score;
  - the active, influential, keyword and tag rankings;
  - the daily activity timeline and the final analysis record.
- **Integration** (`Values`, `Integration`). This covers:
  - a JSON-like value tree with NumPy scalar variants;
  - `safe_get`;
  - the two `convert_numpy_types` variants;
  - the correlation blocks of the integrated report: keyword matching, forum pairing and risk grouping;
  - the newsletter's selection of posts, proposals and keywords.
- **Simplified analyzer** (`SimpleAnalyzer`): user activity, the detail-topic prefix and `analyze_data`.
- **Digest scheduling** (`Digest`): mailing defaults, schedule selection, the setup menus and the `send` command.

Shared pieces:

- `Common`: Option, Min/Max, Sum and a multiset-specified Filter.
- `Text`: ASCII character classes, lower-casing, substring search and decimal rendering and parsing.
- `Counters`: an insertion-ordered counter, i.e. a Python `dict`/`Counter` whose iteration order is insertion order.
- `Ranking`: a stable descending insertion sort and top-N, which is Python's `sorted(..., reverse=True)[:n]` and `Counter.most_common(n)`.

Some behaviour comes from outside these files, and the model takes it as a parameter:

- `tokenize`: NLTK's `word_tokenize`;
- `stop`: the English stopword set;
- `daysSince`: the ISO timestamp parse and the clock;
- `parseDay`: the ISO parse followed by pandas day flooring;
- `order`: Python set iteration order;
- `render`: `str()` of a value;
- `hoursSince`: `strptime` and the clock.

A missing JSON key is an `Option` field or the default the code applies.

## Model

| member | source | states |
|---|---|---|
| `TextSignals.StripTagsClean` | polkadot_community_analyzer.py:142-143 | after replacing every `<[^>]+>` span with a space, no such span is left |
| `TextSignals.StripTagsIdempotent` | polkadot_community_analyzer.py:142-143 | stripping tags twice gives the same text as stripping once |
| `TextSignals.StripTagsFixed` | polkadot_community_analyzer.py:143 | text without a tag span is left unchanged |
| `TextSignals.MentionsComplete` | polkadot_community_analyzer.py:146 | the left-to-right `@(\w+)` scan, which skips each matched name, equals the per-position definition: the maximal word run after every `@` that is followed by a word character, in order |
| `TextSignals.PostMentions` | polkadot_community_analyzer.py:140-148 | a post's mentions are the per-position mentions of its tag-stripped HTML; every name is a non-empty run of word characters |
| `TextSignals.Normalise` | polkadot_community_analyzer.py:156 | the normalised text has the same length, only word and space characters, letters lower-cased and no upper-case letter |
| `TextSignals.KeywordTokens` | polkadot_community_analyzer.py:161-175 | a token is kept, once per occurrence, iff it is not a stopword, is longer than 3, and is a technical term or longer than 4 |
| `TextSignals.ShortTokensDropped` | polkadot_community_analyzer.py:163 | no token of length 3 or less is counted, including the listed "xcm" |
| `TextSignals.FourCharTerms` | polkadot_community_analyzer.py:163-175 | the only 4-character tokens ever counted are "ausd" and "web3" |
| `TextSignals.ExtractKeywords` | polkadot_community_analyzer.py:153-176 | each counted token adds its occurrence count to the keyword counter; entries stay distinct; new keys are counted words |
| `TextSignals.KeywordsCommute` | polkadot_community_analyzer.py:153-176 | keyword counts are additive: two texts give the same counts in either order |
| `TextSignals.AnalyzePost` | polkadot_community_analyzer.py:138-151 | a post adds its per-occurrence mentions and its counted keywords to the two counters, keeping them distinct |
| `ForumData.Authors` | polkadot_community_analyzer.py:110-113 | the credited names are the posts' non-empty usernames, once per post |
| `ForumData.DisplayName` | polkadot_community_analyzer.py:350 | a category's name, or "Category " followed by its id in decimal when it has none |
| `Counters.Add` | polkadot_community_analyzer.py:102 | `c[k] += 1` raises k's count by one and leaves every other count, and the order of existing keys, unchanged |
| `Counters.AddAll` | polkadot_community_analyzer.py:101-102 | counting a list adds each element's multiplicity; the total grows by the list length |
| `Counters.AddAllKeys` | polkadot_community_analyzer.py:101-102 | after counting a list, the keys are exactly the earlier keys plus the list's elements |
| `ForumData.CountAuthors` | main.py:70-74 | each non-empty username gains its number of posts, an empty one gains nothing, and the total grows by the number of named posts |
| `Counters.AddAllAppend` | polkadot_community_analyzer.py:147-148 | counting two lists one after the other equals counting their concatenation |
| `Counters.Put` | main.py:149 | assigning a key sets its value, keeps every other value and keeps an existing key's position |
| `ForumAnalyzer.AnalyzePosts` | polkadot_community_analyzer.py:110-116 | the mentions and keywords of a batch of posts are the counters extended with all their mentions and keywords |
| `ForumAnalyzer.IngestPosts` | polkadot_community_analyzer.py:104-128 | each post with a non-empty username adds 1 to that user; mentions and keywords grow by the posts' signals; posts are appended; the topic is recorded as a governance discussion iff its lower-cased title contains one of the five keywords; tags and topic lists are untouched |
| `ForumAnalyzer.IngestTopic` | polkadot_community_analyzer.py:99-128 | each tag adds 1 to its count, duplicates included; with no posts nothing else changes and no governance record is made; otherwise as `IngestPosts` |
| `ForumAnalyzer.TopicUrl` | polkadot_community_analyzer.py:127 | a topic URL is the forum base, "/t/", then the id in decimal |
| `ForumAnalyzer.TopicsToAnalyze` | polkadot_community_analyzer.py:220-232 | the truthy-id topics among the `max_topics_details` most engaging (views + 5·posts, stable descending), each exactly as often as it is in that slice; in non-increasing engagement, equal engagement in input order; a truthy-id topic left out means the input was longer than the limit and its engagement is no greater than that of any topic kept |
| `ForumAnalyzer.CategoryRowOf` | polkadot_community_analyzer.py:337-354 | a row carries the id, the name or "Category {id}", the number of the category's topics, the sum of their posts_count and the last activity |
| `ForumAnalyzer.CategoryRows` | polkadot_community_analyzer.py:336-354 | one row per category with a truthy id, in category order |
| `ForumAnalyzer.CategoryActivity` | polkadot_community_analyzer.py:356-358 | the rows, permuted into non-increasing topic_count + post_count order, rows of equal activity keeping their input order |
| `ForumAnalyzer.CategoryActivityRows` | polkadot_community_analyzer.py:332-358 | every truthy-id category has its row in the result, and every row comes from such a category |
| `ForumAnalyzer.RecencyFromDays` | polkadot_community_analyzer.py:381-382 | recency is max(1, 30 − days)/30: at least 1/30, at most 1 for past timestamps and above 1 for future ones |
| `ForumAnalyzer.Recency` | polkadot_community_analyzer.py:376-386 | a missing or unparsable timestamp gives 0.5, otherwise the day-based recency |
| `ForumAnalyzer.Heat` | polkadot_community_analyzer.py:389 | heat is non-negative for non-negative views, posts and recency |
| `ForumAnalyzer.HeatMonotone` | polkadot_community_analyzer.py:389 | more views or posts never lower the heat |
| `ForumAnalyzer.HotTopicOf` | polkadot_community_analyzer.py:372-400 | a hot-topic entry carries id, views and posts, the heat 0.3·views + 2.5·posts + 0.2·posts·recency, the title or "Untitled", and the topic URL |
| `ForumAnalyzer.HotCandidates` | polkadot_community_analyzer.py:366-369 | one entry per unpinned topic, in topic order |
| `ForumAnalyzer.HotTopics` | polkadot_community_analyzer.py:360-404 | at most 50 candidates in non-increasing heat; any omitted candidate has heat no greater than the last one listed; for every heat, the list holds no more candidates of that heat than the input, and exactly as many when nothing was cut or the heat is above the last listed |
| `ForumAnalyzer.PinnedExcluded` | polkadot_community_analyzer.py:367-369 | every hot topic comes from an unpinned topic |
| `ForumAnalyzer.HotTopicsStable` | polkadot_community_analyzer.py:403-404 | the returned top-50 list is a prefix of the stable sort: for each heat, its candidates keep their input order, and the listed ones are the first of that heat in input order |
| `ForumAnalyzer.ActiveUsers` | polkadot_community_analyzer.py:406-411 | the top 50 users by post count, non-increasing, drawn from the activity counter; a user left out means 50 are listed and their count is no greater than the 50th; for each count the listed entries are the first ones of the counter with that count, in counter order, and all of them when the count is above the last listed one or nothing is cut |
| `ForumAnalyzer.InfluenceOf` | polkadot_community_analyzer.py:421-433 | a user's influence is 3·mentions + posts, with missing counts 0 |
| `ForumAnalyzer.ScoringUsers` | polkadot_community_analyzer.py:418-427 | exactly the users, in iteration order, whose influence is positive |
| `ForumAnalyzer.InfluentialUsers` | polkadot_community_analyzer.py:413-437 | min(50, number of scoring users) entries in non-increasing score, drawn from the scoring users' rows |
| `ForumAnalyzer.InfluentialRowsExact` | polkadot_community_analyzer.py:420-433 | each listed entry is a known user with positive score and the counts of both counters |
| `ForumAnalyzer.InfluentialCoversAll` | polkadot_community_analyzer.py:418-437 | with positive counters every known user scores, so the list has min(50, number of users) entries |
| `ForumAnalyzer.InfluentialOmitted` | polkadot_community_analyzer.py:435-437 | a scoring user left out implies 50 entries and a score no greater than the 50th |
| `ForumAnalyzer.TrendingKeywords` | polkadot_community_analyzer.py:439-443 | the top 100 keywords, non-increasing, drawn from the keyword counter; a keyword left out means 100 are listed and its count is no greater than the 100th; for each count the listed entries are the first ones of the counter with that count, in counter order, and all of them when the count is above the last listed one or nothing is cut |
| `ForumAnalyzer.PopularTags` | polkadot_community_analyzer.py:445-449 | the top 50 tags, non-increasing, drawn from the tag counter, each paired with its own count; a tag left out means 50 are listed and its count is no greater than the 50th; for each count the listed entries are the first ones of the counter with that count, in counter order, and all of them when the count is above the last listed one or nothing is cut |
| `ForumAnalyzer.GovernanceDiscussions` | polkadot_community_analyzer.py:451-455 | the governance records permuted into non-increasing views + 5·posts order, records of equal engagement keeping their input order |
| `ForumAnalyzer.Analyze` | polkadot_community_analyzer.py:238-330 | no result iff there are no topics or no posts; the metrics are the list lengths and distinct-key counts; each section is the ranking or timeline computed from the collected data; a timeline is present iff some post timestamp parses |
| `Ranking.SortDesc` | polkadot_community_analyzer.py:357 | sorting gives a non-increasing permutation of the input |
| `Ranking.SortDescStable` | polkadot_community_analyzer.py:403 | the sort is stable: elements with equal keys keep their relative order |
| `Ranking.TopN` | polkadot_community_analyzer.py:403-404 | the first min(n, len) of the stable descending sort: a sub-multiset, sorted, whose omitted elements have keys no greater than the last; per key it holds no more elements than the input, and all of them when nothing is cut or the key is above the last |
| `Ranking.TakeStable` | polkadot_community_analyzer.py:403-404 | a prefix of a stably sorted list keeps, for every key, the first elements of that key in order |
| `Ranking.TopFiltered` | polkadot_community_analyzer.py:220-225 | the elements passing a test among the top n (the top n taken first): each passing element exactly as often as it is among the top n of the stable descending sort and no failing one, sorted; for each key the kept passing elements are the first ones of the input with that key (stable ties); a passing element left out means the input was longer than n and its key is no greater than any listed one |
| `Ranking.OmittedBelowLast` | polkadot_community_analyzer.py:404 | an element missing from the top n means the list is full and the element's key is no greater than the last listed |
| `Ranking.MostCommon` | polkadot_community_analyzer.py:442 | `most_common(n)`: min(n, size) counter entries in non-increasing count, ties in insertion order (for each count, the listed entries are the first ones in the counter, and all of them when nothing is cut or the count is above the last listed); an entry left out means n are listed and its count is no greater than the last |
| `Ranking.MostCommonCounts` | main.py:142 | each listed entry's count is that key's count |
| `Ranking.MostCommonOmitted` | polkadot_community_analyzer.py:448 | an entry left out has a count no greater than the last listed |
| `Timeline.Bump` | polkadot_community_analyzer.py:482 | counting one more timestamp on a day keeps the list ascending, adds 1 on that day only and adds the day |
| `Timeline.DailyCounts` | polkadot_governance_integration.py:229-246 | per-day counts: days strictly ascending, counts at least 1, each day's count its multiplicity, summing to the number of days |
| `Timeline.ParsedDays` | polkadot_governance_integration.py:214-227 | one day per post whose created_at parses, and for every day exactly as many copies as posts parsing to it |
| `Timeline.DaysOn` | polkadot_governance_integration.py:214-227 | the multiplicity of a day among the parsed days is the number of posts that parse to it |
| `Timeline.ActivityTimeline` | polkadot_community_analyzer.py:457-488 | None iff no post timestamp parses; otherwise ascending distinct days with positive counts summing to the number of parsed posts, each day's count the number of posts parsing to it |
| `Values.Lookup` | polkadot_governance_integration.py:139-140 | a present dict key yields a value that some field with that key holds |
| `Values.Step` | polkadot_governance_integration.py:139-144 | a step succeeds iff the value is a dict with the key, or a list or tuple with an int key in 0 ≤ i < len |
| `Values.SafeGet` | polkadot_governance_integration.py:131-147 | no keys gives the data; a failed step gives the default; a successful step continues on the child |
| `Values.SafeGetAppend` | polkadot_governance_integration.py:136-145 | a lookup of a + b is the lookup of b on the value reached by a, or the default |
| `Values.NoNegativeIndex` | polkadot_governance_integration.py:141 | a negative index never resolves, unlike Python indexing |
| `Values.NoStringIndex` | polkadot_governance_integration.py:141-144 | a string key on a list gives the default instead of raising |
| `Values.ArrayToList` | numpy_json_utils.py:47-48 | an array becomes a list of the same length with plain scalars |
| `Values.Convert` | numpy_json_utils.py:27-52 | dicts keep their keys, lists stay lists and tuples stay tuples of the same length; NumPy scalars become the equal plain values, arrays become lists, the rest is unchanged; no NumPy value remains |
| `Values.ConvertElementwise` | numpy_json_utils.py:37-42 | each item and each dict value is converted in place |
| `Values.ConvertFixed` | numpy_json_utils.py:51-52 | a value without NumPy parts is unchanged |
| `Values.ConvertIdempotent` | numpy_json_utils.py:27-52 | converting twice equals converting once |
| `Values.ConvertToLists` | polkadot_governance_integration.py:347-362 | the report's variant: tuples become lists, NumPy numbers become plain, NumPy booleans are kept |
| `Values.ConvertToListsElementwise` | polkadot_governance_integration.py:357-360 | each item and each dict value is converted in place |
| `Values.ConvertToListsFixed` | polkadot_governance_integration.py:361-362 | a value without tuples and with only NumPy booleans is unchanged |
| `Values.ConvertToListsIdempotent` | polkadot_governance_integration.py:347-367 | converting twice equals converting once |
| `Values.ConvertersDifferOnBool` | numpy_json_utils.py:49-50 | the utility variant turns a NumPy boolean into a plain one; the report variant leaves it as is |
| `Values.IntOrZero` | polkadot_governance_integration.py:716-721 | `int(value)` with a failed conversion giving 0: ints kept, booleans 0/1, floats truncated, decimal strings parsed |
| `Values.IntOrZeroOfDecimal` | polkadot_governance_integration.py:719 | a decimal string converts to its integer |
| `Text.ParseIntOfDecimal` | polkadot_governance_integration.py:719 | `int()` reads back every rendered decimal integer |
| `Text.ContainsIffOccurs` | polkadot_governance_integration.py:540 | Python's substring test holds iff the keyword occurs at some position of the text |
| `Integration.ItemAt` | polkadot_governance_integration.py:521 | `kw[i]` yields a list or tuple item, a string character or an int-keyed dict entry, and raises otherwise |
| `Integration.ReportKeywords` | polkadot_governance_integration.py:516-521 | as written: a first item that is a dict gives each item's `word` (failing iff some item is not a dict), a first item that is a tuple gives each item's element 0 (failing iff some item has none); an empty list, or a first item that is neither, yields no words at all |
| `Integration.ReportKeywordsLost` | polkadot_governance_integration.py:359-367 | after the tuple-to-list conversion, a non-dict keyword list yields no words |
| `Integration.ReportKeywordsExample` | polkadot_governance_integration.py:516-521 | a converted ("polkadot", 7) pair yields no word as written and "polkadot" when corrected |
| `Integration.ReportKeywordsFixed` | polkadot_governance_integration.py:516-521 | corrected: dict items give their `word` one per item, list- or tuple-shaped pairs give element 0 of every item, each failing iff some item lacks it; an empty list or another shape yields no words |
| `Integration.ReportKeywordsFixedSurvivesConversion` | polkadot_governance_integration.py:359-367 | with the correction, tuple pairs give their converted first elements after conversion |
| `Integration.KeywordStrings` | polkadot_governance_integration.py:539-540 | `keyword.lower()` succeeds iff every keyword is a string |
| `Integration.ProposalText` | polkadot_governance_integration.py:529-536 | the proposal text starts with "section method", missing parts empty |
| `Integration.RefMatches` | polkadot_governance_integration.py:527-545 | a referendum without a decoded call has no matches, and one has at most one match per keyword |
| `Integration.RefMatchesIff` | polkadot_governance_integration.py:538-545 | a match for a referendum is emitted iff it has a decoded call and the lower-cased keyword occurs in its lower-cased proposal text |
| `Integration.KeywordMatchesIff` | polkadot_governance_integration.py:525-545 | a match is in the list iff some decoded referendum's text mentions one of the keywords |
| `Integration.KeywordMatchesAppend` | polkadot_governance_integration.py:527 | matches come referendum by referendum |
| `Integration.NoKeywordsNoMatches` | polkadot_governance_integration.py:539 | no keywords, no matches |
| `Integration.KeywordCorrelations` | polkadot_governance_integration.py:514-545 | the block with the corrected keyword list: no matches without decoded referenda; otherwise exactly the keyword matches, and it fails iff a keyword is not a string |
| `Integration.KeywordCorrelationsAsWritten` | polkadot_governance_integration.py:516-545 | as written, converted pair keywords give no words and so no matches |
| `Integration.PairOf` | polkadot_governance_integration.py:500-506 | a pair carries the referendum id and the topic title, with posts_count and views defaulting to 0 and url to "" |
| `Integration.RefPairs` | polkadot_governance_integration.py:497-506 | one pair per attached forum topic, in order; none without forum data |
| `Integration.ForumPairs` | polkadot_governance_integration.py:494-506 | exactly as many pairs as attached forum topics |
| `Integration.ForumPairsAppend` | polkadot_governance_integration.py:496 | pairs come referendum by referendum |
| `Integration.AddToGroup` | polkadot_governance_integration.py:445-447 | a referendum is appended to its level's group and no other group changes |
| `Integration.RiskGroupsExact` | polkadot_governance_integration.py:441-447 | each level's group is exactly the referenda of that level, in input order |
| `Integration.ListedGroups` | polkadot_governance_integration.py:451-456 | the groups of critical, high, medium and low in that order, each exactly the referenda of its level; a level appears iff some referendum has it |
| `Integration.HighRiskRefs` | polkadot_governance_integration.py:459 | the critical referenda followed by the high ones, each in input order |
| `Integration.Replies` | polkadot_governance_integration.py:661 | replies are max(0, posts_count − 1) for numbers and booleans, never negative; other kinds raise |
| `Integration.PostInfoOf` | polkadot_governance_integration.py:655-665 | each field is looked up with its default, replies is `posts_count - 1` of the looked-up count, and the entry exists iff replies can be computed |
| `Integration.PostInfos` | polkadot_governance_integration.py:654-668 | entries that raise are skipped: the result is exactly the entries of the topics whose entry succeeds, one each, in input order |
| `Integration.ImportantPosts` | polkadot_governance_integration.py:646-669 | exactly the successful entries of the first 10 hot topics, one each, in order; replies never negative |
| `Integration.HighRiskItems` | polkadot_governance_integration.py:679-707 | one item per referendum whose safe risk level is "high" or "critical", built from that referendum, in input order |
| `Integration.TreasuryCandidates` | polkadot_governance_integration.py:712-725 | one candidate per dict-shaped proposal, in input order, valued by `int(value)` of its data or 0 |
| `Integration.TreasuryItems` | polkadot_governance_integration.py:727-753 | the renderable candidates among the 3 most valuable (stable descending), each exactly as often as it is among those 3; in non-increasing value, equal values in input order; a renderable candidate left out means there were more than 3 and its value is no greater than any listed one |
| `Integration.FirstFive` | polkadot_governance_integration.py:757 | the first five of the high-risk items followed by the treasury items |
| `Integration.GovernanceProposals` | polkadot_governance_integration.py:671-757 | high-risk referenda first, in order, then the treasury items, min(5, total) in all |
| `Integration.GovernanceProposalsSources` | polkadot_governance_integration.py:676-757 | every selected item is a high-risk referendum or a valued treasury proposal from the input |
| `Integration.TreasuryCrowdedOut` | polkadot_governance_integration.py:757 | five or more high-risk referenda leave no room for treasury items |
| `Integration.PairEntry` | polkadot_governance_integration.py:790-791 | `{"word": kw[0], "count": kw[1]}` exists iff both indexings succeed |
| `Integration.NewsletterKeywords` | polkadot_governance_integration.py:779-797 | as written: at most 15 items; a keyword-dict first item keeps the first 15 items unchanged; a tuple first item of 2 or more turns the first 15 into `{word: kw[0], count: kw[1]}`, or leaves `[]` when one of them raises; any other first item turns each into `{word: str(kw), count: 1}` |
| `Integration.NewsletterKeywordsFixed` | polkadot_governance_integration.py:785-795 | corrected: the dict branch is unchanged, list- or tuple-shaped pairs become `{word: kw[0], count: kw[1]}` (or `[]` when one raises), and other shapes are rendered with `str` |
| `Integration.NewsletterKeywordsLost` | polkadot_governance_integration.py:779-797 | as written, converted pairs (lists) fall to the `str` branch: each of the first 15 becomes `{word: str(kw), count: 1}`, while the corrected version normalises list pairs like tuples |
| `Integration.NewsletterKeywordsExample` | polkadot_governance_integration.py:788-795 | a converted ("polkadot", 7) pair becomes the word "['polkadot', 7]" with count 1 as written, and "polkadot" with count 7 when corrected |
| `SimpleAnalyzer.RecordPosts` | main.py:66-74 | posts are appended and each non-empty username gains 1 per post; the activity total grows by the number of such posts; no posts, no change |
| `SimpleAnalyzer.RecordPostsConsistent` | main.py:70-74 | the activity total always equals the number of collected posts with a username |
| `SimpleAnalyzer.AuthorsCount` | main.py:71-74 | one credit per post with a non-empty username |
| `SimpleAnalyzer.DetailTopics` | main.py:113 | exactly the first `max_topics_details` topics in fetch order |
| `SimpleAnalyzer.DetailIds` | main.py:113-120 | exactly the truthy ids of those leading topics, one per topic, in order |
| `SimpleAnalyzer.IdsOf` | main.py:113-117 | the truthy ids of the given topics, one per topic with a truthy id, in order, and every such id is listed |
| `SimpleAnalyzer.CategoryCounts` | main.py:145-149 | one distinct entry per display name of a truthy-id category |
| `SimpleAnalyzer.CategoryCountsLast` | main.py:145-149 | a name's value is the topic count of the last truthy category with that name |
| `SimpleAnalyzer.TopUsers` | main.py:142 | at most 10 users in non-increasing post count, each with their activity and none repeated, ties in first-seen order; a user left out means 10 are listed and their count is no greater than the 10th |
| `SimpleAnalyzer.TopCategories` | main.py:151 | at most 10 categories in non-increasing topic count, each with its count and none repeated, ties in first-seen order; a category left out means 10 are listed and its count is no greater than the 10th |
| `SimpleAnalyzer.AnalyzeData` | main.py:129-172 | None iff no topics or no posts; otherwise totals equal the list lengths and distinct users, and the two rankings are those of the collected activity and categories |
| `Digest.WeeklyDay` | polkadot_community_digest.py:249-257 | `days[send_day]` for 0 ≤ send_day < 7, otherwise "monday" |
| `Digest.PaddedHour` | polkadot_community_digest.py:252 | `{hour:02d}`: hours 0-9 get a leading zero, two-digit hours are their digits |
| `Digest.TimeString` | polkadot_community_digest.py:258 | the time string is the padded hour followed by ":00" |
| `Digest.TimeStringHour` | polkadot_community_digest.py:252 | a time string's two leading digits read back as the hour |
| `Digest.Schedule` | polkadot_community_digest.py:240-271 | corrected: defaults weekly, hour 8, day 0, date 1; an unknown frequency registers nothing; a known one raises iff `.at` rejects the hour, otherwise registers a daily, weekday or monthly job at that hour |
| `Digest.ScheduleAsWritten` | polkadot_community_digest.py:240-271 | as written: monthly always raises; daily and weekly register iff `.at` accepts the hour, and then the same job as the corrected version |
| `Digest.MonthlyRaises` | polkadot_community_digest.py:261-264 | a monthly section raises as written and registers a day-1, 08:00 job when corrected |
| `Digest.DefaultDays` | polkadot_community_digest.py:67-73 | a missing mailing section runs on Monday, but the default file's send_day 1 runs on Tuesday |
| `Digest.FrequencyChoice` | polkadot_community_digest.py:307-313 | '1' is daily, '3' monthly, everything else (including the empty default '2') weekly |
| `Digest.DayChoice` | polkadot_community_digest.py:318-328 | '1'..'7' pick days 0..6, anything else 0 |
| `Digest.IntAnswer` | polkadot_community_digest.py:315 | an empty answer gives the default, otherwise `int()` of the answer |
| `Text.ParseIntPlain` | polkadot_community_digest.py:342-344 | `int()` of a digit string is its decimal value |
| `Text.ParseIntNegative` | polkadot_community_digest.py:342-344 | `int()` of a minus sign followed by a digit string is the negated value |
| `Text.ParseIntGrouped` | polkadot_community_digest.py:342-344 | `int()` accepts an underscore between digits |
| `Text.ParseIntBadGroups` | polkadot_community_digest.py:342-344 | `int()` rejects doubled, leading and trailing underscores |
| `Digest.MailingSetup` | polkadot_community_digest.py:304-346 | the written section holds the chosen frequency and hour; weekly uses the chosen day and date 1, monthly day 0 and the chosen date, daily 0 and 1; it fails iff an `int()` does |
| `Digest.SetupSchedules` | polkadot_community_digest.py:340-346 | a section written by the setup schedules iff its hour is in 0-23, weekly on the chosen day; a monthly one raises as written |
| `Digest.SendCommand` | polkadot_community_digest.py:418-433 | corrected (every step completes): it runs at most once, first, and iff last_run is missing, empty or more than 24 hours old; the newsletter is then generated and sent exactly once; nothing runs when last_run does not parse |
| `Digest.SendCommandAsWritten` | polkadot_community_digest.py:104-169 | as written the command never completes and nothing is sent: it raises in its first step, inside the analysis when last_run is missing, empty or stale and inside the newsletter generation when it is fresh, and no step at all runs when last_run does not parse; the one step reached is the first step of the corrected command |
| `Digest.SendStaleRaises` | polkadot_community_digest.py:418-433 | with no last_run, the as-written command raises after starting the analysis, while the corrected one analyses, generates and sends |
| `Digest.SendFreshRaises` | polkadot_community_digest.py:153-169 | with a last_run one hour old, the as-written command raises while generating the newsletter, while the corrected one generates and sends |
| `Digest.FreshAnalysisMonotone` | polkadot_community_digest.py:425 | an older last_run never turns the re-analysis off |

## Left out

- HTTP fetching, request pacing, file output, Markdown/HTML rendering, email, templates and visualisations: they are I/O. The fetched JSON is an input.
- `datetime.fromisoformat`, `strptime`, `datetime.now`, pandas day flooring, NLTK tokenising and the stopword list come from outside the modelled files, so they are parameters. Character classes and lower-casing are ASCII.
- ForumAnalyzer.InfluentialUsers: ties are broken by Python's set iteration order, which is unspecified. That order is the parameter `order`, so the contract says nothing about tie order.
- The report's strict lookups (`ref["data"]["index"]`, `ref["risk_analysis"]["risk_level"]`, `forum_topic["title"]`) raise on malformed referenda. Referenda are typed records that always carry these fields, so the raising path is not modelled.
- Timeline.ActivityTimeline: a failure inside pandas is not modelled. The integration copy catches it and returns None (polkadot_governance_integration.py:231-250). The analyzer copy has no try around the same lines (polkadot_community_analyzer.py:478-482), so there the failure raises out of `analyze()`.
- The analyzer's conversion loops at polkadot_community_analyzer.py:269-316 are left out. On Python values they return their input unchanged.
- `analysis_date`, `analysis_timestamp` and the simplified analyzer's average post length are left out: they are clock readings and float rounding.
- The DOT conversion and `:.2f` formatting of treasury values are float formatting. Only the effect on selection is modelled.
- Integration.TreasuryItems: does not model `float(value)` overflowing on integers above about 1e308, which would make Python skip the item.
- Values.IntOrZero: treats every NumPy array as 0, although `int()` accepts a one-element array. Non-ASCII digits are not modelled.
- Integration.Replies: treats NumPy arrays as raising, although a one-element array would be accepted.
- Integration.ItemAt: does not index NumPy arrays; indexing them is treated as raising.
- NumPy arrays hold only numbers, booleans and nested rows. Object arrays are not modelled.
- ForumAnalyzer.Heat: uses exact reals, while Python uses floats. Float rounding can create or break ties between heats, e.g. 10·0.3 is not exactly 3.0, so the model's tie order can differ from the source's.
- ForumAnalyzer.HotTopicOf: a missing or null id is 0, giving the URL `/t/0`, where Python keeps None and builds `/t/None`. A title that is present but null is "Untitled" here, where Python keeps None.
- Ingestion assumes the topic detail's views and posts_count are present, as integers.
- Digest: left out are the `schedule` library's loop, the analysis-settings prompts, the output-directory prompt and the commands other than `send`, which call the same steps unconditionally. Strings `int()` rejects surface as a failed setup. A `last_run` that `strptime` cannot parse is the None result of `Digest.SendCommand`. The `schedule` library is not part of this model: `Digest.AtAccepts` states its hour check.
- `PolkadotCommunityDigest.run_analysis`, `generate_newsletter` and `send_newsletter` are modelled only as the steps RunAnalysis, GenerateNewsletter and SendNewsletter. The first missing method each of the first two calls, `analyze_data` at line 128 and `preview_newsletter` at line 162, gives a Findings row below. The later calls to methods that do not exist are not modelled separately. These are `export_report` and `create_governance_summary` on the analyzer, and `load_subscribers`, `generate_newsletter_content`, `send_email` and `send_newsletter` on the forum mailer. Neither are the `analyze`, `newsletter` and `run` commands, which call the same steps unconditionally.
- The governance analyzer's risk computation is not part of this model: `risk_level` is an input.

## Findings

| source | as written | input that shows it | evidently intended | confidence | as-written member | corrected member |
|---|---|---|---|---|---|---|
| polkadot_governance_integration.py:516-521 | the report first converts tuples to lists (lines 359-360, 367), then takes element 0 only from tuple-shaped keywords | trending_keywords = [("polkadot", 7)] gives no words, so no keyword match is ever reported | pair-shaped keywords (now lists) yield their first element | not executed | Integration.ReportKeywords, Integration.ReportKeywordsExample | Integration.ReportKeywordsFixed |
| polkadot_governance_integration.py:785-795 | the newsletter gets the forum report after the same tuple-to-list conversion (lines 289-295), and handles only tuple-shaped pairs | trending_keywords = [("polkadot", 7)] becomes {word: "['polkadot', 7]", count: 1} | list-shaped pairs become {word: kw[0], count: kw[1]} | not executed | Integration.NewsletterKeywords, Integration.NewsletterKeywordsExample | Integration.NewsletterKeywordsFixed |
| polkadot_community_digest.py:261-264 | the monthly branch calls `schedule.every().month`, but the `schedule` library's jobs have no `month` unit, so the attribute lookup raises | a configuration with frequency "monthly", which the setup offers as choice 3 | a job on day `send_date` of each month at `send_hour`, as the log line says | not executed | Digest.ScheduleAsWritten, Digest.MonthlyRaises | Digest.Schedule |
| polkadot_community_digest.py:127-128 | `run_analysis` calls `self.analyzer.analyze_data()`, but the community analyzer defines `analyze` (polkadot_community_analyzer.py:238) and no `analyze_data`, so the lookup raises `AttributeError` after the data is collected | `send` with no last_run recorded, as on a first run, or one more than 24 hours old | the analysis runs through `analyze()` and the newsletter is then generated and sent | not executed | Digest.SendCommandAsWritten, Digest.SendStaleRaises | Digest.SendCommand |
| polkadot_community_digest.py:158-162 | `generate_newsletter` builds a `PolkadotForumMailer` and calls its `preview_newsletter`, but that class defines only its constructor, `_load_config` and `_create_default_template` (polkadot_forum_mailer.py:40-272), so the lookup raises `AttributeError`; `send_newsletter` likewise calls mailer methods that do not exist | `send` with a last_run less than 24 hours old | the preview is written and the newsletter is then sent | not executed | Digest.SendCommandAsWritten, Digest.SendFreshRaises | Digest.SendCommand |

=== FILE: common.dfy ===
/** Small shared definitions: an optional value and integer helpers. */
module Common {

  /** A value that may be absent: a missing JSON key, a failed parse, a `None` result. */
  datatype Option<+T> = None | Some(value: T) {

    /** The wrapped value, or `default` when absent (Python's `d.get(key, default)`). */
    function GetOr(default: T): T {
      match this
      case Some(v) => v
      case None => default
    }
  }

  function Min(a: int, b: int): int {
    if a <= b then a else b
  }

  function Max(a: int, b: int): int {
    if a >= b then a else b
  }

  /** Python's `int(x)` on a float: truncation toward zero. */
  function Truncate(r: real): (n: int)
    ensures r >= 0.0 ==> n as real <= r < n as real + 1.0
    ensures r < 0.0 ==> n as real - 1.0 < r <= n as real
  {
    if r >= 0.0 then r.Floor else -((-r).Floor)
  }

  /** Sum of a sequence of integers. */
  function Sum(s: seq<int>): int {
    if |s| == 0 then 0 else s[0] + Sum(s[1..])
  }

  lemma {:induction false} SumAppend(a: seq<int>, b: seq<int>)
    ensures Sum(a + b) == Sum(a) + Sum(b)
  {
    if |a| == 0 {
      assert a + b == b;
    } else {
      assert (a + b)[1..] == a[1..] + b;
      SumAppend(a[1..], b);
    }
  }

  /** No element occurs twice. */
  predicate NoDup<T(==)>(s: seq<T>) {
    forall i, j :: 0 <= i < j < |s| ==> s[i] != s[j]
  }

  /** A duplicate-free sequence has as many elements as its set of elements. */
  lemma {:induction false} NoDupCard<T>(s: seq<T>)
    requires NoDup(s)
    ensures |set x | x in s| == |s|
  {
    if |s| > 0 {
      NoDupCard(s[1..]);
      assert (set x | x in s) == (set x | x in s[1..]) + {s[0]};
      assert s[0] !in s[1..];
    }
  }

  /** The elements satisfying `p`, in order (a list comprehension with an `if`). */
  function Filter<T(!new)>(s: seq<T>, p: T -> bool): (r: seq<T>)
    ensures |r| <= |s|
    ensures forall i :: 0 <= i < |r| ==> p(r[i])
    ensures forall x :: multiset(r)[x] == if p(x) then multiset(s)[x] else 0
  {
    if |s| == 0 then
      []
    else
      var rest := Filter(s[1..], p);
      assert s == [s[0]] + s[1..];
      if p(s[0]) then [s[0]] + rest else rest
  }

  /** Filtering distributes over concatenation. */
  lemma {:induction false} FilterAppend<T(!new)>(a: seq<T>, b: seq<T>, p: T -> bool)
    ensures Filter(a + b, p) == Filter(a, p) + Filter(b, p)
  {
    if |a| == 0 {
      assert a + b == b;
    } else {
      assert (a + b)[0] == a[0];
      assert (a + b)[1..] == a[1..] + b;
      FilterAppend(a[1..], b, p);
    }
  }

  /** Filtering a list with one more element at the end. */
  lemma FilterSnoc<T(!new)>(a: seq<T>, x: T, p: T -> bool)
    ensures Filter(a + [x], p) == Filter(a, p) + (if p(x) then [x] else [])
  {
    FilterAppend(a, [x], p);
    FilterSingle(x, p);
  }

  lemma FilterSingle<T(!new)>(x: T, p: T -> bool)
    ensures Filter([x], p) == if p(x) then [x] else []
  {
    assert [x][1..] == [];
  }

  /** The elements of a sub-multiset of `s` are elements of `s`. */
  lemma SubMultisetIn<T>(r: seq<T>, s: seq<T>)
    requires multiset(r) <= multiset(s)
    ensures forall i :: 0 <= i < |r| ==> r[i] in s
  {
    forall i | 0 <= i < |r| ensures r[i] in s {
      assert r[i] in multiset(r);
    }
  }

  /** The elements on which `f` gives a result. */
  function Succeeds<A, B>(f: A -> Option<B>): A -> bool {
    (x: A) => f(x).Some?
  }

  /** The results of `f` on the elements where it succeeds, in order (a loop that skips failures). */
  function Collect<A(!new), B>(xs: seq<A>, f: A -> Option<B>): (r: seq<B>)
    ensures |r| == |Filter(xs, Succeeds(f))|
    ensures forall k :: 0 <= k < |r| ==> Some(r[k]) == f(Filter(xs, Succeeds(f))[k])
    ensures |r| <= |xs|
    ensures forall k :: 0 <= k < |r| ==> exists i :: 0 <= i < |xs| && f(xs[i]) == Some(r[k])
    ensures (forall i :: 0 <= i < |xs| ==> f(xs[i]).Some?) ==>
              |r| == |xs| && forall i :: 0 <= i < |xs| ==> Some(r[i]) == f(xs[i])
  {
    var ys := Filter(xs, Succeeds(f));
    assert forall y :: y in ys ==> f(y).Some? by {
      forall y | y in ys ensures f(y).Some? {
        FilterIn(xs, Succeeds(f), y);
      }
    }
    var r := Results(ys, f);
    assert forall k :: 0 <= k < |r| ==> exists i :: 0 <= i < |xs| && f(xs[i]) == Some(r[k]) by {
      forall k | 0 <= k < |r| ensures exists i :: 0 <= i < |xs| && f(xs[i]) == Some(r[k]) {
        FilterIn(xs, Succeeds(f), ys[k]);
        var i :| 0 <= i < |xs| && xs[i] == ys[k];
      }
    }
    assert (forall i :: 0 <= i < |xs| ==> f(xs[i]).Some?) ==> ys == xs by {
      if forall i :: 0 <= i < |xs| ==> f(xs[i]).Some? {
        FilterAll(xs, Succeeds(f));
      }
    }
    r
  }

  /** The results of `f` on elements where it is known to succeed. */
  function Results<A, B>(ys: seq<A>, f: A -> Option<B>): (r: seq<B>)
    requires forall y :: y in ys ==> f(y).Some?
    ensures |r| == |ys|
    ensures forall k :: 0 <= k < |ys| ==> Some(r[k]) == f(ys[k])
  {
    if |ys| == 0 then [] else [f(ys[0]).value] + Results(ys[1..], f)
  }

  /** Filtering with a predicate every element satisfies changes nothing. */
  lemma {:induction false} FilterAll<T(!new)>(s: seq<T>, p: T -> bool)
    requires forall x :: x in s ==> p(x)
    ensures Filter(s, p) == s
  {
    if |s| > 0 {
      assert forall x :: x in s[1..] ==> x in s;
      FilterAll(s[1..], p);
      assert s == [s[0]] + s[1..];
    }
  }

  /** `f` applied to each element, in order (a list comprehension). */
  function Map<A, B>(xs: seq<A>, f: A -> B): (r: seq<B>)
    ensures |r| == |xs|
    ensures forall i :: 0 <= i < |xs| ==> r[i] == f(xs[i])
  {
    if |xs| == 0 then [] else [f(xs[0])] + Map(xs[1..], f)
  }

  /** An element occurring `n` times gives at least `n` equal images. */
  lemma {:induction false} MapCount<A, B>(xs: seq<A>, f: A -> B, x: A)
    ensures multiset(Map(xs, f))[f(x)] >= multiset(xs)[x]
  {
    if |xs| > 0 {
      assert Map(xs, f) == [f(xs[0])] + Map(xs[1..], f);
      assert xs == [xs[0]] + xs[1..];
      MapCount(xs[1..], f, x);
    }
  }

  /** An element of a filtered sequence is an element satisfying the filter. */
  lemma FilterIn<T(!new)>(s: seq<T>, p: T -> bool, x: T)
    requires x in Filter(s, p)
    ensures x in s && p(x)
  {
    assert x in multiset(Filter(s, p));
  }

  /** An element satisfying the filter is kept. */
  lemma InFilter<T(!new)>(s: seq<T>, p: T -> bool, x: T)
    requires x in s && p(x)
    ensures x in Filter(s, p)
  {
    assert x in multiset(s);
    assert x in multiset(Filter(s, p));
  }
}

=== FILE: counters.dfy ===
/**
 Insertion-ordered counters: Python's `Counter`, `defaultdict(int)` and plain
 `dict` from names to counts. A counter is a list of entries with distinct
 keys in first-insertion order, which is the order `items()` and
 `most_common` see before sorting.
 */
module Counters {

  datatype Entry = Entry(key: string, count: nat)

  type Counter = seq<Entry>

  /** No key appears twice. */
  ghost predicate Distinct(c: Counter) {
    |c| == 0 || (c[0].key !in Keys(c[1..]) && Distinct(c[1..]))
  }

  /** Every stored count is at least 1, as for a counter built only by increments. */
  ghost predicate Positive(c: Counter) {
    forall i :: 0 <= i < |c| ==> c[i].count >= 1
  }

  function Keys(c: Counter): set<string> {
    if |c| == 0 then {} else {c[0].key} + Keys(c[1..])
  }

  /** `c.get(k, 0)`: the count stored for `k`, or 0. */
  function Get(c: Counter, k: string): nat {
    if |c| == 0 then 0 else if c[0].key == k then c[0].count else Get(c[1..], k)
  }

  /** The sum of all counts (`sum(c.values())`). */
  function Total(c: Counter): int {
    if |c| == 0 then 0 else c[0].count + Total(c[1..])
  }

  /** `Keys` holds exactly the keys of the entries. */
  lemma {:induction false} KeysAt(c: Counter, k: string)
    ensures k in Keys(c) <==> exists i :: 0 <= i < |c| && c[i].key == k
  {
    if |c| > 0 {
      KeysAt(c[1..], k);
      if k in Keys(c[1..]) {
        var i :| 0 <= i < |c[1..]| && c[1..][i].key == k;
        assert c[i + 1].key == k;
      }
      if exists i :: 0 <= i < |c| && c[i].key == k {
        var i :| 0 <= i < |c| && c[i].key == k;
        if i > 0 {
          assert c[1..][i - 1].key == k;
        }
      }
    }
  }

  lemma {:induction false} GetAbsent(c: Counter, k: string)
    requires k !in Keys(c)
    ensures Get(c, k) == 0
  {
    if |c| > 0 {
      GetAbsent(c[1..], k);
    }
  }

  /** `c[k] += 1`: bump an existing entry in place, or append a new entry with count 1. */
  function Add(c: Counter, k: string): (r: Counter)
    ensures Get(r, k) == Get(c, k) + 1
    ensures forall j :: j != k ==> Get(r, j) == Get(c, j)
    ensures Keys(r) == Keys(c) + {k}
    ensures Total(r) == Total(c) + 1
    ensures |r| == if k in Keys(c) then |c| else |c| + 1
    ensures forall i :: 0 <= i < |c| ==> r[i].key == c[i].key
    ensures Distinct(c) ==> Distinct(r)
    ensures Positive(c) ==> Positive(r)
  {
    if |c| == 0 then
      [Entry(k, 1)]
    else if c[0].key == k then
      [Entry(k, c[0].count + 1)] + c[1..]
    else
      var t := Add(c[1..], k);
      var r := [c[0]] + t;
      assert r[1..] == t;
      r
  }

  /** Increment once per element of `ks`, left to right (`for k in ks: c[k] += 1`). */
  function AddAll(c: Counter, ks: seq<string>): (r: Counter)
    ensures forall k :: Get(r, k) == Get(c, k) + multiset(ks)[k]
    ensures Total(r) == Total(c) + |ks|
    decreases |ks|
  {
    if |ks| == 0 then
      c
    else
      var a := Add(c, ks[0]);
      var r := AddAll(a, ks[1..]);
      assert multiset(ks) == multiset{ks[0]} + multiset(ks[1..]) by {
        assert ks == [ks[0]] + ks[1..];
      }
      forall k ensures Get(r, k) == Get(c, k) + multiset(ks)[k] {
        assert Get(r, k) == Get(a, k) + multiset(ks[1..])[k];
      }
      r
  }

  /** Adding a list adds exactly its elements as keys. */
  lemma {:induction false} AddAllKeys(c: Counter, ks: seq<string>)
    ensures forall x :: x in Keys(AddAll(c, ks)) <==> x in Keys(c) || x in ks
    decreases |ks|
  {
    if |ks| > 0 {
      var a := Add(c, ks[0]);
      var r := AddAll(a, ks[1..]);
      assert AddAll(c, ks) == r;
      AddAllKeys(a, ks[1..]);
      assert ks == [ks[0]] + ks[1..];
      forall x ensures x in Keys(r) <==> x in Keys(c) || x in ks {
        assert x in Keys(r) <==> x in Keys(a) || x in ks[1..];
        assert x in Keys(a) <==> x in Keys(c) || x == ks[0];
        assert x in ks <==> x == ks[0] || x in ks[1..];
      }
    }
  }

  /** Adding a list keeps the keys distinct and the counts positive. */
  lemma {:induction false} AddAllKeeps(c: Counter, ks: seq<string>)
    ensures Distinct(c) ==> Distinct(AddAll(c, ks))
    ensures Positive(c) ==> Positive(AddAll(c, ks))
    decreases |ks|
  {
    if |ks| > 0 {
      AddAllKeeps(Add(c, ks[0]), ks[1..]);
    }
  }

  /** `d[k] = v`: overwrite the value of an existing key in place, or append. */
  function Put(c: Counter, k: string, v: nat): (r: Counter)
    ensures Get(r, k) == v
    ensures forall j :: j != k ==> Get(r, j) == Get(c, j)
    ensures Keys(r) == Keys(c) + {k}
    ensures |r| == if k in Keys(c) then |c| else |c| + 1
    ensures forall i :: 0 <= i < |c| ==> r[i].key == c[i].key
    ensures Distinct(c) ==> Distinct(r)
  {
    if |c| == 0 then
      [Entry(k, v)]
    else if c[0].key == k then
      [Entry(k, v)] + c[1..]
    else
      var t := Put(c[1..], k, v);
      var r := [c[0]] + t;
      assert r[1..] == t;
      r
  }

  /** In a counter without repeated keys, the number of entries is the number of keys. */
  lemma {:induction false} DistinctSize(c: Counter)
    requires Distinct(c)
    ensures |Keys(c)| == |c|
  {
    if |c| > 0 {
      DistinctSize(c[1..]);
    }
  }

  /** In a counter without repeated keys, the entry at position `i` holds `Get` of its key. */
  lemma {:induction false} GetAtIndex(c: Counter, i: int)
    requires Distinct(c) && 0 <= i < |c|
    ensures Get(c, c[i].key) == c[i].count
  {
    if i > 0 {
      assert c[1..][i - 1] == c[i];
      KeysAt(c[1..], c[i].key);
      GetAtIndex(c[1..], i - 1);
    }
  }

  /** Adding two lists one after the other is adding their concatenation. */
  lemma {:induction false} AddAllAppend(c: Counter, a: seq<string>, b: seq<string>)
    ensures AddAll(AddAll(c, a), b) == AddAll(c, a + b)
    decreases |a|
  {
    if |a| > 0 {
      assert (a + b)[0] == a[0];
      assert (a + b)[1..] == a[1..] + b;
      AddAllAppend(Add(c, a[0]), a[1..], b);
    } else {
      assert a + b == b;
    }
  }
}

=== FILE: digest.dfy ===
/**
 The scheduling rules of the community digest: how the mailing settings
 become a schedule, the interactive setup's menu choices, and when the send
 command re-runs the analysis first.
 */
module Digest {
  import opened Common
  import opened Text

  /**
   The `mailing` section of the configuration file; a missing key is None.
   */
  datatype Mailing = Mailing(
    frequency: Option<string>,
    sendHour: Option<int>,
    sendDay: Option<int>,
    sendDate: Option<int>,
    testMode: Option<bool>)

  /** The mailing section of the default configuration file. */
  const DefaultMailing: Mailing := Mailing(Some("weekly"), Some(8), Some(1), Some(1), Some(false))

  /** An absent `mailing` section. */
  const NoMailing: Mailing := Mailing(None, None, None, None, None)

  const Days: seq<string> := ["monday", "tuesday", "wednesday", "thursday", "friday", "saturday", "sunday"]

  /** The weekday a weekly run is scheduled on: `days[send_day]` in range, "monday" otherwise. */
  function WeeklyDay(sendDay: int): (day: string)
    ensures 0 <= sendDay < 7 ==> day == Days[sendDay]
    ensures !(0 <= sendDay < 7) ==> day == "monday"
    ensures day in Days
  {
    if 0 <= sendDay < 7 then Days[sendDay] else "monday"
  }

  /** `f"{hour:02d}"`: zero-padded to two characters, the sign counting as one. */
  function PaddedHour(hour: int): (s: string)
    ensures |s| >= 2
    ensures 0 <= hour < 10 ==> s == ['0', DigitChar(hour)]
    ensures 10 <= hour < 100 ==> s == [DigitChar(hour / 10), DigitChar(hour % 10)]
  {
    if 0 <= hour < 10 then
      "0" + IntToDecimal(hour)
    else
      assert 10 <= hour < 100 ==> IntToDecimal(hour) == NatToDecimal(hour / 10) + [DigitChar(hour % 10)];
      IntToDecimal(hour)
  }

  /** `f"{send_hour:02d}:00"`. */
  function TimeString(hour: int): (s: string)
    ensures |s| >= 5 && s[|s| - 3..] == ":00"
    ensures 0 <= hour < 24 ==> |s| == 5 && s[..2] == PaddedHour(hour)
  {
    PaddedHour(hour) + ":00"
  }

  /** The hour of a well-formed time string reads back as the hour. */
  lemma TimeStringHour(hour: int)
    requires 0 <= hour < 24
    ensures DigitValue(TimeString(hour)[0]) * 10 + DigitValue(TimeString(hour)[1]) == hour
  {
  }

  datatype Job =
    | Daily(at: string, testMode: bool)
    | Weekly(day: string, at: string, testMode: bool)
    | Monthly(date: int, at: string, testMode: bool)

  /**
   What `schedule_runs` does: registers a job, returns False for an unknown
   frequency, or raises out of the `schedule` library.
   */
  datatype Registration = Registered(job: Job) | UnknownFrequency | Raises

  /**
   The `schedule` library's `.at("HH:MM")` on a daily or weekday job accepts
   exactly the hours 0 to 23 and raises otherwise (the library is not part of
   this model; this is its documented contract).
   */
  predicate AtAccepts(hour: int) {
    0 <= hour < 24
  }

  /**
   `schedule_runs` as written: the defaults are weekly, hour 8, day 0, date 1
   and no test mode; `.at` raises on an hour outside 0-23, and the monthly
   branch raises before registering anything, because the library's jobs
   have no `month` unit.
   */
  function ScheduleAsWritten(m: Mailing): (r: Registration)
    ensures m.frequency.GetOr("weekly") == "monthly" ==> r == Raises
    ensures m.frequency.GetOr("weekly") !in {"daily", "weekly", "monthly"} ==> r == UnknownFrequency
    ensures m.frequency.GetOr("weekly") in {"daily", "weekly"} ==> (r.Registered? <==> AtAccepts(m.sendHour.GetOr(8)))
    ensures m.frequency.GetOr("weekly") in {"daily", "weekly"} && !AtAccepts(m.sendHour.GetOr(8)) ==> r == Raises
    ensures r.Registered? ==> r.job == Schedule(m).job
  {
    var frequency := m.frequency.GetOr("weekly");
    if frequency == "monthly" then Raises else Schedule(m)
  }

  /**
   `schedule_runs` with the monthly branch doing what its log line says:
   a job on day `send_date` of each month at `send_hour`. Daily and weekly
   are as written.
   */
  function Schedule(m: Mailing): (r: Registration)
    ensures r.UnknownFrequency? <==> m.frequency.GetOr("weekly") !in {"daily", "weekly", "monthly"}
    ensures r.Raises? <==> m.frequency.GetOr("weekly") in {"daily", "weekly", "monthly"} && !AtAccepts(m.sendHour.GetOr(8))
    ensures r.Registered? ==> r.job.testMode == m.testMode.GetOr(false) && r.job.at == TimeString(m.sendHour.GetOr(8))
    ensures r.Registered? && m.frequency.GetOr("weekly") == "daily" ==> r.job.Daily?
    ensures r.Registered? && m.frequency.GetOr("weekly") == "weekly" ==> r.job.Weekly? && r.job.day == WeeklyDay(m.sendDay.GetOr(0))
    ensures r.Registered? && m.frequency.GetOr("weekly") == "monthly" ==> r.job.Monthly? && r.job.date == m.sendDate.GetOr(1)
  {
    var frequency := m.frequency.GetOr("weekly");
    var hour := m.sendHour.GetOr(8);
    var at := TimeString(hour);
    var test := m.testMode.GetOr(false);
    if frequency !in {"daily", "weekly", "monthly"} then UnknownFrequency
    else if !AtAccepts(hour) then Raises
    else if frequency == "daily" then Registered(Daily(at, test))
    else if frequency == "weekly" then Registered(Weekly(WeeklyDay(m.sendDay.GetOr(0)), at, test))
    else Registered(Monthly(m.sendDate.GetOr(1), at, test))
  }

  /** A monthly mailing section: as written it raises, corrected it registers. */
  lemma MonthlyRaises()
    ensures ScheduleAsWritten(Mailing(Some("monthly"), Some(8), Some(0), Some(1), Some(false))) == Raises
    ensures Schedule(Mailing(Some("monthly"), Some(8), Some(0), Some(1), Some(false))) == Registered(Monthly(1, "08:00", false))
  {
    assert DigitChar(8) == '8';
    assert IntToDecimal(8) == "8";
    assert TimeString(8) == "08:00";
  }

  /**
   The code's fallback day (0, Monday) and the default file's day (1,
   Tuesday) differ: a configuration without a mailing section runs on
   Monday, a freshly written default one on Tuesday.
   */
  lemma DefaultDays()
    ensures Schedule(NoMailing) == Registered(Weekly("monday", "08:00", false))
    ensures Schedule(DefaultMailing) == Registered(Weekly("tuesday", "08:00", false))
  {
    assert DigitChar(8) == '8';
    assert IntToDecimal(8) == "8";
    assert TimeString(8) == "08:00";
  }

  /** The frequency menu: '1', '2', '3' pick daily, weekly, monthly; an empty answer is '2'; anything else is weekly. */
  function FrequencyChoice(answer: string): (f: string)
    ensures f in {"daily", "weekly", "monthly"}
    ensures f == "daily" <==> answer == "1"
    ensures f == "monthly" <==> answer == "3"
  {
    var choice := if answer == "" then "2" else answer;
    if choice == "1" then "daily" else if choice == "2" then "weekly" else if choice == "3" then "monthly" else "weekly"
  }

  /** The weekday menu: '1'..'7' pick days 0..6; an empty answer is '1'; anything else is 0. */
  function DayChoice(answer: string): (d: int)
    ensures 0 <= d < 7
    ensures |answer| == 1 && '1' <= answer[0] <= '7' ==> d == answer[0] as int - '1' as int
    ensures !(|answer| == 1 && '1' <= answer[0] <= '7') ==> d == 0
  {
    var choice := if answer == "" then "1" else answer;
    if |choice| == 1 && '1' <= choice[0] <= '7' then choice[0] as int - '1' as int else 0
  }

  /** `int(input(...) or default)`: None where `int()` raises. */
  function IntAnswer(answer: string, default: int): (r: Option<int>)
    ensures answer == "" ==> r == Some(default)
    ensures answer != "" ==> r == ParseInt(answer)
  {
    if answer == "" then Some(default) else ParseInt(answer)
  }

  /**
   The mailing section written by `setup_interactive` from the answers to its
   prompts (frequency, hour, weekday, day of month, test mode); None where an
   `int()` conversion raises.
   */
  function MailingSetup(freqAnswer: string, hourAnswer: string, dayAnswer: string, dateAnswer: string, testAnswer: string): (r: Option<Mailing>)
    ensures r.Some? ==> r.value.frequency == Some(FrequencyChoice(freqAnswer))
    ensures r.Some? ==> r.value.sendHour == IntAnswer(hourAnswer, 8)
    ensures r.Some? ==> r.value.testMode == Some(Lower(testAnswer) == "y")
    ensures r.Some? && FrequencyChoice(freqAnswer) == "weekly" ==>
              r.value.sendDay == Some(DayChoice(dayAnswer)) && r.value.sendDate == Some(1)
    ensures r.Some? && FrequencyChoice(freqAnswer) == "monthly" ==>
              r.value.sendDay == Some(0) && r.value.sendDate == IntAnswer(dateAnswer, 1)
    ensures r.Some? && FrequencyChoice(freqAnswer) == "daily" ==> r.value.sendDay == Some(0) && r.value.sendDate == Some(1)
    ensures r.None? <==> IntAnswer(hourAnswer, 8).None? || (FrequencyChoice(freqAnswer) == "monthly" && IntAnswer(dateAnswer, 1).None?)
  {
    var frequency := FrequencyChoice(freqAnswer);
    var hour := IntAnswer(hourAnswer, 8);
    var date := if frequency == "monthly" then IntAnswer(dateAnswer, 1) else Some(1);
    var day := if frequency == "weekly" then DayChoice(dayAnswer) else 0;
    if hour.None? || date.None? then None
    else Some(Mailing(Some(frequency), hour, Some(day), date, Some(Lower(testAnswer) == "y")))
  }

  /**
   A mailing section written by the setup schedules exactly when its hour is
   one `.at` accepts, weekly on the chosen day; as written, a monthly section
   from the setup always raises.
   */
  lemma SetupSchedules(freqAnswer: string, hourAnswer: string, dayAnswer: string, dateAnswer: string, testAnswer: string)
    requires MailingSetup(freqAnswer, hourAnswer, dayAnswer, dateAnswer, testAnswer).Some?
    ensures var m := MailingSetup(freqAnswer, hourAnswer, dayAnswer, dateAnswer, testAnswer).value;
      Schedule(m).Registered? <==> AtAccepts(m.sendHour.value)
    ensures var m := MailingSetup(freqAnswer, hourAnswer, dayAnswer, dateAnswer, testAnswer).value;
      FrequencyChoice(freqAnswer) == "weekly" && Schedule(m).Registered? ==> Schedule(m).job.day == Days[DayChoice(dayAnswer)]
    ensures var m := MailingSetup(freqAnswer, hourAnswer, dayAnswer, dateAnswer, testAnswer).value;
      FrequencyChoice(freqAnswer) == "monthly" ==> ScheduleAsWritten(m) == Raises
  {
  }

  /** The steps the `send` command performs, in order. */
  datatype Action = RunAnalysis | GenerateNewsletter | SendNewsletter(test: bool)

  /**
   The send command's staleness rule: analyse again when `last_run` is
   missing or empty, or when more than 24 hours have passed since it.
   `hoursSince` is the elapsed time since a `last_run` timestamp, None where
   `strptime` raises.
   */
  predicate NeedsFreshAnalysis(lastRun: Option<string>, hoursSince: string -> Option<real>) {
    lastRun.None? || lastRun.value == "" || (hoursSince(lastRun.value).Some? && hoursSince(lastRun.value).value > 24.0)
  }

  /**
   The `send` command as intended, every step completing: the analysis when
   it is stale, then the newsletter is generated and sent. None when
   `last_run` is set but `strptime` raises, which ends the command before
   anything runs.
   */
  function SendCommand(lastRun: Option<string>, hoursSince: string -> Option<real>, test: bool): (r: Option<seq<Action>>)
    ensures r.None? <==> lastRun.Some? && lastRun.value != "" && hoursSince(lastRun.value).None?
    ensures r.Some? ==> 2 <= |r.value| <= 3 && r.value[|r.value| - 2..] == [GenerateNewsletter, SendNewsletter(test)]
    ensures r.Some? ==> (RunAnalysis in r.value <==> NeedsFreshAnalysis(lastRun, hoursSince))
    ensures r.Some? ==> multiset(r.value)[RunAnalysis] <= 1 && multiset(r.value)[GenerateNewsletter] == 1
    ensures r.Some? && RunAnalysis in r.value ==> r.value[0] == RunAnalysis
  {
    if lastRun.Some? && lastRun.value != "" && hoursSince(lastRun.value).None? then
      None
    else if NeedsFreshAnalysis(lastRun, hoursSince) then
      StaleSteps(test);
      Some(Stale(test))
    else
      FreshSteps(test);
      Some(Fresh(test))
  }

  /** The send command's steps when the analysis is fresh. */
  function Fresh(test: bool): seq<Action> {
    [GenerateNewsletter, SendNewsletter(test)]
  }

  /** The send command's steps when the analysis is stale. */
  function Stale(test: bool): seq<Action> {
    [RunAnalysis, GenerateNewsletter, SendNewsletter(test)]
  }

  /** The fresh steps end with the newsletter and hold no analysis. */
  lemma FreshSteps(test: bool)
    ensures var s := Fresh(test);
      |s| == 2 && s[|s| - 2..] == [GenerateNewsletter, SendNewsletter(test)] && RunAnalysis !in s
      && multiset(s)[RunAnalysis] == 0 && multiset(s)[GenerateNewsletter] == 1
  {
  }

  /** The stale steps are one analysis followed by the fresh steps. */
  lemma StaleSteps(test: bool)
    ensures var s := Stale(test);
      |s| == 3 && s[|s| - 2..] == [GenerateNewsletter, SendNewsletter(test)] && s[0] == RunAnalysis
      && multiset(s)[RunAnalysis] == 1 && multiset(s)[GenerateNewsletter] == 1
  {
    assert Stale(test)[1..] == Fresh(test);
    assert multiset(Stale(test)) == multiset{RunAnalysis} + multiset(Fresh(test));
  }

  /**
   How a command run ends: every step it reached, and whether it came back
   normally or with an exception.
   */
  datatype Outcome = Completed(steps: seq<Action>) | Raised(steps: seq<Action>)

  /**
   The `send` command as written: it never completes, and it raises
   `AttributeError` in the first step it starts. `run_analysis` calls
   `analyze_data()`, which the community analyzer does not have (it defines
   `analyze`). `generate_newsletter` calls `preview_newsletter()` on the forum
   mailer, which defines only its constructor, `_load_config` and
   `_create_default_template`. So a stale analysis ends the command inside
   the analysis, a fresh one ends it inside the newsletter generation, and
   nothing is ever sent.
   */
  function SendCommandAsWritten(lastRun: Option<string>, hoursSince: string -> Option<real>, test: bool): (r: Outcome)
    ensures r.Raised?
    ensures SendNewsletter(test) !in r.steps
    ensures SendCommand(lastRun, hoursSince, test).None? ==> r.steps == []
    ensures SendCommand(lastRun, hoursSince, test).Some? ==>
      |r.steps| == 1 && r.steps[0] == SendCommand(lastRun, hoursSince, test).value[0]
    ensures RunAnalysis in r.steps <==> SendCommand(lastRun, hoursSince, test).Some? && NeedsFreshAnalysis(lastRun, hoursSince)
    ensures GenerateNewsletter in r.steps <==> SendCommand(lastRun, hoursSince, test).Some? && !NeedsFreshAnalysis(lastRun, hoursSince)
  {
    if lastRun.Some? && lastRun.value != "" && hoursSince(lastRun.value).None? then
      Raised([])
    else if NeedsFreshAnalysis(lastRun, hoursSince) then
      assert SendCommand(lastRun, hoursSince, test) == Some(Stale(test));
      Raised([RunAnalysis])
    else
      assert SendCommand(lastRun, hoursSince, test) == Some(Fresh(test));
      Raised([GenerateNewsletter])
  }

  /**
   A first run, with no `last_run` recorded: as written the command raises
   inside the analysis, where the intended command analyses, generates and
   sends.
   */
  lemma SendStaleRaises(hoursSince: string -> Option<real>)
    ensures SendCommandAsWritten(None, hoursSince, false) == Raised([RunAnalysis])
    ensures SendCommand(None, hoursSince, false) == Some([RunAnalysis, GenerateNewsletter, SendNewsletter(false)])
  {
  }

  /**
   A `last_run` one hour old: as written the command raises while generating
   the newsletter preview, where the intended command generates and sends.
   */
  lemma SendFreshRaises(hoursSince: string -> Option<real>)
    requires hoursSince("2024-01-01 10:00:00") == Some(1.0)
    ensures SendCommandAsWritten(Some("2024-01-01 10:00:00"), hoursSince, true) == Raised([GenerateNewsletter])
    ensures SendCommand(Some("2024-01-01 10:00:00"), hoursSince, true) == Some([GenerateNewsletter, SendNewsletter(true)])
  {
  }

  /** Staleness is monotone: an older `last_run` never turns a re-analysis off. */
  lemma FreshAnalysisMonotone(lastRun: Option<string>, h1: string -> Option<real>, h2: string -> Option<real>)
    requires lastRun.Some? ==> h1(lastRun.value).Some? && h2(lastRun.value).Some? && h1(lastRun.value).value <= h2(lastRun.value).value
    ensures NeedsFreshAnalysis(lastRun, h1) ==> NeedsFreshAnalysis(lastRun, h2)
    ensures SendCommand(lastRun, h1, false).Some? && SendCommand(lastRun, h2, false).Some?
    ensures RunAnalysis in SendCommand(lastRun, h1, false).value ==> RunAnalysis in SendCommand(lastRun, h2, false).value
  {
  }
}

=== FILE: forum.dfy ===
/**
 The community analyzer: the state built while ingesting fetched forum JSON,
 and the rankings and summaries `analyze` derives from it.
 */
module ForumAnalyzer {
  import opened Common
  import opened Text
  import opened Counters
  import opened Ranking
  import opened ForumData
  import opened TextSignals
  import opened Timeline

  // ---------------------------------------------------------------------
  // Ingestion

  /** The detail JSON of one topic (`/t/{id}.json`). A missing title is None. */
  datatype TopicDetail = TopicDetail(
    title: Option<string>,
    createdAt: Option<string>,
    views: int,
    postsCount: int,
    tags: seq<string>,
    posts: seq<Post>)

  /** A topic whose title looks like governance business. */
  datatype GovernanceRecord = GovernanceRecord(
    id: int,
    title: Option<string>,
    createdAt: Option<string>,
    views: int,
    postsCount: int,
    url: string)

  /** Everything the analyzer accumulates before `analyze` runs. */
  datatype State = State(
    categories: seq<Category>,
    topics: seq<Topic>,
    categoryTopics: map<int, seq<Topic>>,
    posts: seq<Post>,
    userActivity: Counter,
    tagCounts: Counter,
    mentions: Counter,
    keywords: Counter,
    governance: seq<GovernanceRecord>)

  /** The counters hold each key once, with positive counts. */
  ghost predicate Valid(st: State) {
    Distinct(st.userActivity) && Positive(st.userActivity)
    && Distinct(st.tagCounts) && Positive(st.tagCounts)
    && Distinct(st.mentions) && Positive(st.mentions)
    && Distinct(st.keywords) && Positive(st.keywords)
  }

  /** The freshly constructed analyzer, with the categories and topic listings already fetched. */
  function Fresh(categories: seq<Category>, topics: seq<Topic>, categoryTopics: map<int, seq<Topic>>): (st: State)
    ensures Valid(st)
    ensures st.posts == [] && st.governance == []
    ensures Keys(st.userActivity) == {} && Keys(st.mentions) == {} && Keys(st.keywords) == {} && Keys(st.tagCounts) == {}
  {
    State(categories, topics, categoryTopics, [], [], [], [], [], [])
  }

  /** `f"{BASE_URL}/t/{topic_id}"`. */
  function TopicUrl(id: int): (u: string)
    ensures StartsWith(u, BaseUrl + "/t/")
    ensures u[|BaseUrl + "/t/"|..] == IntToDecimal(id)
  {
    var u := BaseUrl + "/t/" + IntToDecimal(id);
    assert u[..|BaseUrl + "/t/"|] == BaseUrl + "/t/";
    u
  }

  const GovernanceWords: seq<string> := ["proposal", "referendum", "vote", "governance", "treasury"]

  /** The lower-cased title contains one of the governance words. */
  predicate IsGovernanceTitle(title: string) {
    ContainsAny(GovernanceWords, Lower(title))
  }

  /** All mentions of a run of posts, post by post. */
  function AllMentions(posts: seq<Post>): seq<string> {
    if |posts| == 0 then [] else MentionsAt(StripTags(posts[0].cooked)) + AllMentions(posts[1..])
  }

  /** All counted keyword tokens of a run of posts, post by post. */
  function AllKeywords(posts: seq<Post>, tokenize: string -> seq<string>, stop: set<string>): (r: seq<string>)
    ensures forall i :: 0 <= i < |r| ==> Counted(r[i], stop)
  {
    if |posts| == 0 then []
    else KeywordTokens(tokenize(Normalise(StripTags(posts[0].cooked))), stop) + AllKeywords(posts[1..], tokenize, stop)
  }

  /**
   `analyze_post_content` on each post in turn. Reading post by post gives the
   same counters as adding all the mentions and all the keywords at once.
   */
  function AnalyzePosts(sig: Signals, posts: seq<Post>, tokenize: string -> seq<string>, stop: set<string>): (r: Signals)
    ensures r.mentions == AddAll(sig.mentions, AllMentions(posts))
    ensures r.keywords == AddAll(sig.keywords, AllKeywords(posts, tokenize, stop))
    decreases |posts|
  {
    if |posts| == 0 then
      sig
    else
      var next := AnalyzePost(sig, posts[0].cooked, tokenize, stop);
      var r := AnalyzePosts(next, posts[1..], tokenize, stop);
      MentionsComplete(StripTags(posts[0].cooked));
      AddAllAppend(sig.mentions, MentionsAt(StripTags(posts[0].cooked)), AllMentions(posts[1..]));
      AddAllAppend(sig.keywords, KeywordTokens(tokenize(Normalise(StripTags(posts[0].cooked))), stop), AllKeywords(posts[1..], tokenize, stop));
      r
  }

  /** The governance record `fetch_topic_details` appends for topic `id`. */
  function GovernanceRecordOf(id: int, d: TopicDetail): GovernanceRecord {
    GovernanceRecord(id, d.title, d.createdAt, d.views, d.postsCount, TopicUrl(id))
  }

  /** The part of `fetch_topic_details` that runs only when the topic has posts. */
  function IngestPosts(st: State, id: int, d: TopicDetail, tokenize: string -> seq<string>, stop: set<string>): (r: State)
    requires Valid(st)
    ensures Valid(r)
    ensures forall u :: u != "" ==> Get(r.userActivity, u) == Get(st.userActivity, u) + multiset(Usernames(d.posts))[u]
    ensures Get(r.userActivity, "") == Get(st.userActivity, "")
    ensures forall u :: Get(r.mentions, u) == Get(st.mentions, u) + multiset(AllMentions(d.posts))[u]
    ensures forall w :: Get(r.keywords, w) == Get(st.keywords, w) + multiset(AllKeywords(d.posts, tokenize, stop))[w]
    ensures r.posts == st.posts + d.posts
    ensures IsGovernanceTitle(d.title.GetOr("")) ==> r.governance == st.governance + [GovernanceRecordOf(id, d)]
    ensures !IsGovernanceTitle(d.title.GetOr("")) ==> r.governance == st.governance
    ensures r.tagCounts == st.tagCounts
    ensures r.categories == st.categories && r.topics == st.topics && r.categoryTopics == st.categoryTopics
  {
    var sig := AnalyzePosts(Signals(st.mentions, st.keywords), d.posts, tokenize, stop);
    var gov := if IsGovernanceTitle(d.title.GetOr("")) then st.governance + [GovernanceRecordOf(id, d)] else st.governance;
    var ua := CountAuthors(st.userActivity, d.posts);
    AddAllKeeps(st.mentions, AllMentions(d.posts));
    AddAllKeeps(st.keywords, AllKeywords(d.posts, tokenize, stop));
    st.(posts := st.posts + d.posts, userActivity := ua,
        mentions := sig.mentions, keywords := sig.keywords, governance := gov)
  }

  /**
   The data-processing half of `fetch_topic_details`: count the tags; when
   the topic has posts, append them, count each non-empty author once per
   post, analyze each post's text, and record the topic as a governance
   discussion when its lower-cased title contains a governance word.
   */
  function IngestTopic(st: State, id: int, d: TopicDetail, tokenize: string -> seq<string>, stop: set<string>): (r: State)
    requires Valid(st)
    ensures Valid(r)
    ensures forall t :: Get(r.tagCounts, t) == Get(st.tagCounts, t) + multiset(d.tags)[t]
    ensures forall u :: u != "" ==> Get(r.userActivity, u) == Get(st.userActivity, u) + multiset(Usernames(d.posts))[u]
    ensures Get(r.userActivity, "") == Get(st.userActivity, "")
    ensures forall u :: Get(r.mentions, u) == Get(st.mentions, u) + multiset(AllMentions(d.posts))[u]
    ensures forall w :: Get(r.keywords, w) == Get(st.keywords, w) + multiset(AllKeywords(d.posts, tokenize, stop))[w]
    ensures r.posts == st.posts + d.posts
    ensures |d.posts| > 0 && IsGovernanceTitle(d.title.GetOr("")) ==> r.governance == st.governance + [GovernanceRecordOf(id, d)]
    ensures !(|d.posts| > 0 && IsGovernanceTitle(d.title.GetOr(""))) ==> r.governance == st.governance
    ensures |d.posts| == 0 ==> r.userActivity == st.userActivity && r.mentions == st.mentions && r.keywords == st.keywords
    ensures r.categories == st.categories && r.topics == st.topics && r.categoryTopics == st.categoryTopics
  {
    var st' := st.(tagCounts := AddAll(st.tagCounts, d.tags));
    AddAllKeeps(st.tagCounts, d.tags);
    if |d.posts| == 0 then
      assert d.posts == [];
      st'
    else
      IngestPosts(st', id, d, tokenize, stop)
  }

  /** The ingestion key of `collect_data`: views plus five times the post count. */
  function EngagementKey(t: Topic): real {
    (t.views + t.postsCount * 5) as real
  }

  /**
   The topics `collect_data` fetches details for: the `maxDetails` most
   engaging ones (stable, descending), skipping those with a falsy id. A
   truthy-id topic is left out only when the slice was full and it engages
   no more than every topic fetched.
   */
  function TopicsToAnalyze(topics: seq<Topic>, maxDetails: nat): (r: seq<Topic>)
    ensures |r| <= maxDetails && |r| <= |topics|
    ensures forall i :: 0 <= i < |r| ==> r[i].id != 0 && r[i] in topics
    ensures SortedDesc(r, EngagementKey)
    ensures forall t :: t in topics && t.id != 0 && t !in r ==>
              maxDetails < |topics| && forall j :: 0 <= j < |r| ==> EngagementKey(t) <= EngagementKey(r[j])
    ensures multiset(r) <= multiset(topics)
    ensures KeyPrefixes(r, Filter(topics, HasId), EngagementKey)
    ensures forall t :: multiset(r)[t] == if HasId(t) then multiset(TopN(topics, EngagementKey, maxDetails))[t] else 0
  {
    TopFiltered(topics, EngagementKey, maxDetails, HasId)
  }


  // ---------------------------------------------------------------------
  // Category activity

  datatype CategoryRow = CategoryRow(id: int, name: string, topicCount: nat, postCount: int, lastActivity: string)

  /** The `posts_count` of each topic. */
  function PostCounts(ts: seq<Topic>): (r: seq<int>)
    ensures |r| == |ts| && forall i :: 0 <= i < |ts| ==> r[i] == ts[i].postsCount
  {
    seq(|ts|, i requires 0 <= i < |ts| => ts[i].postsCount)
  }

  /** The row for one category; a missing name becomes "Category {id}". */
  function CategoryRowOf(c: Category, categoryTopics: map<int, seq<Topic>>): (row: CategoryRow)
    ensures row.id == c.id && row.lastActivity == c.lastPostedAt
    ensures row.topicCount == |TopicsOf(categoryTopics, c.id)|
    ensures row.postCount == Sum(PostCounts(TopicsOf(categoryTopics, c.id)))
    ensures c.name.Some? ==> row.name == c.name.value
    ensures c.name.None? ==> row.name == "Category " + IntToDecimal(c.id)
  {
    var ts := TopicsOf(categoryTopics, c.id);
    CategoryRow(c.id, DisplayName(c), |ts|, Sum(PostCounts(ts)), c.lastPostedAt)
  }

  predicate CategoryHasId(c: Category) {
    c.id != 0
  }

  /** One row per category with a truthy id, in category order. */
  function CategoryRows(cats: seq<Category>, categoryTopics: map<int, seq<Topic>>): (r: seq<CategoryRow>)
    ensures |r| == |Filter(cats, CategoryHasId)|
    ensures forall i :: 0 <= i < |r| ==> r[i] == CategoryRowOf(Filter(cats, CategoryHasId)[i], categoryTopics)
  {
    Map(Filter(cats, CategoryHasId), RowFn(categoryTopics))
  }

  /** The row-building function for one category listing. */
  function RowFn(categoryTopics: map<int, seq<Topic>>): Category -> CategoryRow {
    c => CategoryRowOf(c, categoryTopics)
  }

  function ActivityKey(row: CategoryRow): real {
    (row.topicCount + row.postCount) as real
  }

  /** `_analyze_category_activity`: the rows sorted by topic count plus post count, largest first, stable. */
  function CategoryActivity(cats: seq<Category>, categoryTopics: map<int, seq<Topic>>): (r: seq<CategoryRow>)
    ensures SortedDesc(r, ActivityKey)
    ensures multiset(r) == multiset(CategoryRows(cats, categoryTopics))
    ensures forall k :: WithKey(r, ActivityKey, k) == WithKey(CategoryRows(cats, categoryTopics), ActivityKey, k)
  {
    SortDescStableAll(CategoryRows(cats, categoryTopics), ActivityKey);
    SortDesc(CategoryRows(cats, categoryTopics), ActivityKey)
  }

  /**
   Each category with a truthy id has exactly one row, holding its topic count
   and the sum of its topics' post counts; no other row exists.
   */
  lemma CategoryActivityRows(cats: seq<Category>, categoryTopics: map<int, seq<Topic>>, c: Category)
    ensures multiset(CategoryActivity(cats, categoryTopics))[CategoryRowOf(c, categoryTopics)]
            >= (if c.id != 0 then multiset(cats)[c] else 0)
    ensures forall row :: row in CategoryActivity(cats, categoryTopics) ==>
              exists c' :: c' in cats && c'.id != 0 && row == CategoryRowOf(c', categoryTopics)
  {
    var kept := Filter(cats, CategoryHasId);
    RowsSound(cats, categoryTopics);
    if c.id != 0 {
      MapCount(kept, RowFn(categoryTopics), c);
    }
  }

  /** Every row comes from a category with a truthy id. */
  lemma RowsSound(cats: seq<Category>, categoryTopics: map<int, seq<Topic>>)
    ensures forall row :: row in CategoryActivity(cats, categoryTopics) ==>
              exists c' :: c' in cats && c'.id != 0 && row == CategoryRowOf(c', categoryTopics)
  {
    var kept := Filter(cats, CategoryHasId);
    var rows := CategoryRows(cats, categoryTopics);
    var r := CategoryActivity(cats, categoryTopics);
    forall row | row in r ensures exists c' :: c' in cats && c'.id != 0 && row == CategoryRowOf(c', categoryTopics) {
      assert row in multiset(rows);
      var i :| 0 <= i < |rows| && rows[i] == row;
      assert kept[i] in multiset(kept);
      assert CategoryHasId(kept[i]);
    }
  }

  // ---------------------------------------------------------------------
  // Hot topics

  /** `max(1, 30 - days) / 30`: newer activity scores higher. */
  function RecencyFromDays(days: real): (r: real)
    ensures r >= 1.0 / 30.0
    ensures days >= 0.0 ==> r <= 1.0
    ensures days < 0.0 ==> r > 1.0
    ensures days <= 29.0 ==> r == (30.0 - days) / 30.0
    ensures days >= 29.0 ==> r == 1.0 / 30.0
  {
    (if 30.0 - days >= 1.0 then 30.0 - days else 1.0) / 30.0
  }

  /**
   The recency factor of a topic. `daysSince` turns a `last_posted_at` value
   into the days elapsed until now, or None where `fromisoformat` fails; an
   empty timestamp or a failed parse gives the middle value 0.5.
   */
  function Recency(lastPostedAt: string, daysSince: string -> Option<real>): (r: real)
    ensures lastPostedAt == "" || daysSince(lastPostedAt).None? ==> r == 0.5
    ensures lastPostedAt != "" && daysSince(lastPostedAt).Some? ==> r == RecencyFromDays(daysSince(lastPostedAt).value)
    ensures r >= 1.0 / 30.0
  {
    if lastPostedAt == "" then 0.5
    else match daysSince(lastPostedAt)
      case None => 0.5
      case Some(days) => RecencyFromDays(days)
  }

  /** `views * 0.3 + posts_count * 5 * 0.5 + posts_count * recency * 0.2`. */
  function Heat(views: int, postsCount: int, recency: real): (h: real)
    ensures views >= 0 && postsCount >= 0 && recency >= 0.0 ==> h >= 0.0
  {
    views as real * 0.3 + postsCount as real * 5.0 * 0.5 + postsCount as real * recency * 0.2
  }

  /** More views never lower the heat, nor do more posts at a non-negative recency. */
  lemma HeatMonotone(v1: int, v2: int, p1: int, p2: int, rec: real)
    requires v1 <= v2 && p1 <= p2 && rec >= 0.0
    ensures Heat(v1, p1, rec) <= Heat(v2, p2, rec)
  {
    var dp := (p2 - p1) as real;
    assert dp * rec >= 0.0;
    assert p2 as real * rec == p1 as real * rec + dp * rec;
    assert p2 as real * rec * 0.2 >= p1 as real * rec * 0.2;
    assert v2 as real * 0.3 >= v1 as real * 0.3;
    assert p2 as real * 5.0 * 0.5 >= p1 as real * 5.0 * 0.5;
  }

  datatype HotTopic = HotTopic(
    id: int,
    title: string,
    views: int,
    postsCount: int,
    lastPostedAt: string,
    createdAt: string,
    heat: real,
    url: string)

  /** The hot-topic entry of a topic; a missing title becomes "Untitled". */
  function HotTopicOf(t: Topic, daysSince: string -> Option<real>): (h: HotTopic)
    ensures h.id == t.id && h.views == t.views && h.postsCount == t.postsCount
    ensures h.heat == Heat(t.views, t.postsCount, Recency(t.lastPostedAt, daysSince))
    ensures h.title == if t.title.Some? then t.title.value else "Untitled"
    ensures h.url == TopicUrl(t.id)
  {
    HotTopic(t.id, t.title.GetOr("Untitled"), t.views, t.postsCount, t.lastPostedAt, t.createdAt,
      Heat(t.views, t.postsCount, Recency(t.lastPostedAt, daysSince)), TopicUrl(t.id))
  }

  predicate Unpinned(t: Topic) {
    !t.pinned
  }

  /** The entries of the unpinned topics, in topic order. */
  function HotCandidates(topics: seq<Topic>, daysSince: string -> Option<real>): (r: seq<HotTopic>)
    ensures |r| == |Filter(topics, Unpinned)|
    ensures forall i :: 0 <= i < |r| ==> r[i] == HotTopicOf(Filter(topics, Unpinned)[i], daysSince)
  {
    var kept := Filter(topics, Unpinned);
    seq(|kept|, i requires 0 <= i < |kept| => HotTopicOf(kept[i], daysSince))
  }

  function HeatKey(h: HotTopic): real {
    h.heat
  }

  /**
   `_identify_hot_topics`: the 50 unpinned topics with the highest heat,
   largest first, equal heats in topic order.
   */
  function HotTopics(topics: seq<Topic>, daysSince: string -> Option<real>): (r: seq<HotTopic>)
    ensures |r| == Min(50, |HotCandidates(topics, daysSince)|)
    ensures SortedDesc(r, HeatKey)
    ensures multiset(r) <= multiset(HotCandidates(topics, daysSince))
    ensures |r| > 0 ==> forall h :: h in HotCandidates(topics, daysSince) && h !in r ==> h.heat <= r[|r| - 1].heat
    ensures forall heat :: WithKey(r, HeatKey, heat) <= WithKey(HotCandidates(topics, daysSince), HeatKey, heat)
  {
    TopN(HotCandidates(topics, daysSince), HeatKey, 50)
  }

  /** A pinned topic's entry can only appear when an unpinned topic has exactly the same entry. */
  lemma PinnedExcluded(topics: seq<Topic>, daysSince: string -> Option<real>, h: HotTopic)
    requires h in HotTopics(topics, daysSince)
    ensures exists t :: t in topics && !t.pinned && h == HotTopicOf(t, daysSince)
  {
    var cands := HotCandidates(topics, daysSince);
    var kept := Filter(topics, Unpinned);
    assert h in multiset(HotTopics(topics, daysSince));
    assert h in multiset(cands);
    var i :| 0 <= i < |cands| && cands[i] == h;
    assert kept[i] in multiset(kept);
  }

  /**
   Stability of the hot-topic ranking: the listed topics of one heat are the
   first unpinned topics of that heat in topic order, and all of them when
   the heat lies above the last listed one or nothing was cut.
   */
  lemma HotTopicsStable(topics: seq<Topic>, daysSince: string -> Option<real>, heat: real)
    ensures WithKey(HotTopics(topics, daysSince), HeatKey, heat) <= WithKey(HotCandidates(topics, daysSince), HeatKey, heat)
    ensures var r := HotTopics(topics, daysSince);
      |r| == |HotCandidates(topics, daysSince)| || (|r| > 0 && heat > r[|r| - 1].heat) ==>
        WithKey(r, HeatKey, heat) == WithKey(HotCandidates(topics, daysSince), HeatKey, heat)
  {
    var cands := HotCandidates(topics, daysSince);
    assert HotTopics(topics, daysSince) == TopN(cands, HeatKey, 50);
  }

  // ---------------------------------------------------------------------
  // Users, keywords, tags

  /** `_identify_active_users`: the 50 users with the most posts. */
  function ActiveUsers(userActivity: Counter): (r: seq<Entry>)
    ensures |r| == Min(50, |userActivity|)
    ensures SortedDesc(r, CountKey)
    ensures multiset(r) <= multiset(userActivity)
    ensures forall i :: 0 <= i < |userActivity| && userActivity[i] !in r ==> |r| == 50 && userActivity[i].count <= r[49].count
    ensures KeyPrefixes(r, userActivity, CountKey) && KeysAboveKept(r, userActivity, CountKey)
  {
    MostCommon(userActivity, 50)
  }

  /** `_analyze_keywords`: the 100 most frequent keywords. */
  function TrendingKeywords(keywords: Counter): (r: seq<Entry>)
    ensures |r| == Min(100, |keywords|)
    ensures SortedDesc(r, CountKey)
    ensures multiset(r) <= multiset(keywords)
    ensures forall i :: 0 <= i < |keywords| && keywords[i] !in r ==> |r| == 100 && keywords[i].count <= r[99].count
    ensures KeyPrefixes(r, keywords, CountKey) && KeysAboveKept(r, keywords, CountKey)
  {
    MostCommon(keywords, 100)
  }

  /** `_analyze_tags`: the 50 most used tags. */
  function PopularTags(tagCounts: Counter): (r: seq<Entry>)
    ensures |r| == Min(50, |tagCounts|)
    ensures SortedDesc(r, CountKey)
    ensures multiset(r) <= multiset(tagCounts)
    ensures forall i :: 0 <= i < |tagCounts| && tagCounts[i] !in r ==> |r| == 50 && tagCounts[i].count <= r[49].count
    ensures KeyPrefixes(r, tagCounts, CountKey) && KeysAboveKept(r, tagCounts, CountKey)
    ensures Distinct(tagCounts) ==> forall i :: 0 <= i < |r| ==> Get(tagCounts, r[i].key) == r[i].count
  {
    var r := MostCommon(tagCounts, 50);
    assert Distinct(tagCounts) ==> forall i :: 0 <= i < |r| ==> Get(tagCounts, r[i].key) == r[i].count by {
      if Distinct(tagCounts) {
        MostCommonCounts(tagCounts, 50);
      }
    }
    r
  }

  datatype Influence = Influence(username: string, mentionCount: nat, postCount: nat, score: int)

  /** Three points per mention plus one per post. */
  function Score(mentions: Counter, userActivity: Counter, u: string): int {
    3 * Get(mentions, u) + Get(userActivity, u)
  }

  function InfluenceOf(mentions: Counter, userActivity: Counter, u: string): (x: Influence)
    ensures x.username == u && x.mentionCount == Get(mentions, u) && x.postCount == Get(userActivity, u)
    ensures x.score == 3 * x.mentionCount + x.postCount
  {
    Influence(u, Get(mentions, u), Get(userActivity, u), Score(mentions, userActivity, u))
  }

  function ScoreKey(x: Influence): real {
    x.score as real
  }

  /** The users of `order` with a positive score, in that order. */
  function ScoringUsers(mentions: Counter, userActivity: Counter, order: seq<string>): (r: seq<string>)
    ensures forall i :: 0 <= i < |r| ==> Score(mentions, userActivity, r[i]) > 0
    ensures forall u :: multiset(r)[u] == if Score(mentions, userActivity, u) > 0 then multiset(order)[u] else 0
  {
    Filter(order, u => Score(mentions, userActivity, u) > 0)
  }

  /** One influence row per user, in order. */
  function InfluenceRows(mentions: Counter, userActivity: Counter, users: seq<string>): (r: seq<Influence>)
    ensures |r| == |users|
    ensures forall i :: 0 <= i < |r| ==> r[i] == InfluenceOf(mentions, userActivity, users[i])
  {
    seq(|users|, i requires 0 <= i < |users| => InfluenceOf(mentions, userActivity, users[i]))
  }

  /**
   `_identify_influential_users`. The names are the union of the mentioned
   and the posting users; Python walks that set in an order it does not
   specify, which is the parameter `order`: each name of the union once.
   Users scoring 0 are dropped, the rest ranked by score, top 50.
   */
  function InfluentialUsers(mentions: Counter, userActivity: Counter, order: seq<string>): (r: seq<Influence>)
    requires NoDup(order) && (set u | u in order) == Keys(mentions) + Keys(userActivity)
    ensures |r| == Min(50, |ScoringUsers(mentions, userActivity, order)|)
    ensures SortedDesc(r, ScoreKey)
    ensures multiset(r) <= multiset(InfluenceRows(mentions, userActivity, ScoringUsers(mentions, userActivity, order)))
  {
    TopN(InfluenceRows(mentions, userActivity, ScoringUsers(mentions, userActivity, order)), ScoreKey, 50)
  }

  /** Every listed row is a user of the union with a positive score, holding that user's counts. */
  lemma InfluentialRowsExact(mentions: Counter, userActivity: Counter, order: seq<string>, k: int)
    requires NoDup(order) && (set u | u in order) == Keys(mentions) + Keys(userActivity)
    requires 0 <= k < |InfluentialUsers(mentions, userActivity, order)|
    ensures var x := InfluentialUsers(mentions, userActivity, order)[k];
      x == InfluenceOf(mentions, userActivity, x.username) && x.score > 0 && x.username in Keys(mentions) + Keys(userActivity)
  {
    var users := ScoringUsers(mentions, userActivity, order);
    var rows := InfluenceRows(mentions, userActivity, users);
    var x := InfluentialUsers(mentions, userActivity, order)[k];
    assert x in multiset(InfluentialUsers(mentions, userActivity, order));
    assert x in multiset(rows);
    var i :| 0 <= i < |rows| && rows[i] == x;
    assert users[i] in multiset(users);
    assert users[i] in order;
  }

  /** Every user the two counters know scores above 0, so with positive counters nobody is dropped. */
  lemma InfluentialCoversAll(mentions: Counter, userActivity: Counter, order: seq<string>)
    requires NoDup(order) && (set u | u in order) == Keys(mentions) + Keys(userActivity)
    requires Positive(mentions) && Positive(userActivity)
    ensures |InfluentialUsers(mentions, userActivity, order)| == Min(50, |Keys(mentions) + Keys(userActivity)|)
  {
    var p := u => Score(mentions, userActivity, u) > 0;
    assert ScoringUsers(mentions, userActivity, order) == Filter(order, p);
    forall u | u in order ensures p(u) {
      KnownUserScores(mentions, userActivity, u);
    }
    FilterAll(order, p);
    NoDupCard(order);
  }

  lemma KnownUserScores(mentions: Counter, userActivity: Counter, u: string)
    requires Positive(mentions) && Positive(userActivity)
    requires u in Keys(mentions) + Keys(userActivity)
    ensures Score(mentions, userActivity, u) > 0
  {
    KeysAt(mentions, u);
    KeysAt(userActivity, u);
    if u in Keys(mentions) {
      var i :| 0 <= i < |mentions| && mentions[i].key == u;
      GetFirst(mentions, i);
    } else {
      var i :| 0 <= i < |userActivity| && userActivity[i].key == u;
      GetFirst(userActivity, i);
    }
  }

  /** A key stored somewhere in a positive counter has a positive `Get`. */
  lemma {:induction false} GetFirst(c: Counter, i: int)
    requires Positive(c) && 0 <= i < |c|
    ensures Get(c, c[i].key) >= 1
  {
    if i > 0 && c[0].key != c[i].key {
      assert c[1..][i - 1] == c[i];
      GetFirst(c[1..], i - 1);
    }
  }

  /** A user left out of the top 50 scores no more than the last one listed. */
  lemma InfluentialOmitted(mentions: Counter, userActivity: Counter, order: seq<string>, u: string)
    requires NoDup(order) && (set u | u in order) == Keys(mentions) + Keys(userActivity)
    requires u in order && Score(mentions, userActivity, u) > 0
    requires InfluenceOf(mentions, userActivity, u) !in InfluentialUsers(mentions, userActivity, order)
    ensures |InfluentialUsers(mentions, userActivity, order)| == 50
    ensures Score(mentions, userActivity, u) <= InfluentialUsers(mentions, userActivity, order)[49].score
  {
    var users := ScoringUsers(mentions, userActivity, order);
    var rows := InfluenceRows(mentions, userActivity, users);
    var x := InfluenceOf(mentions, userActivity, u);
    assert u in multiset(users);
    var i :| 0 <= i < |users| && users[i] == u;
    assert rows[i] == x;
    OmittedBelowLast(rows, ScoreKey, 50, x);
  }

  // ---------------------------------------------------------------------
  // Governance discussions and the report

  function GovernanceKey(g: GovernanceRecord): real {
    (g.views + g.postsCount * 5) as real
  }

  /** `_analyze_governance_discussions`: by views plus five times the post count, largest first, stable. */
  function GovernanceDiscussions(gov: seq<GovernanceRecord>): (r: seq<GovernanceRecord>)
    ensures SortedDesc(r, GovernanceKey)
    ensures multiset(r) == multiset(gov)
    ensures forall k :: WithKey(r, GovernanceKey, k) == WithKey(gov, GovernanceKey, k)
  {
    SortDescStableAll(gov, GovernanceKey);
    SortDesc(gov, GovernanceKey)
  }

  datatype Metrics = Metrics(
    totalCategories: nat,
    totalTopicsAnalyzed: nat,
    totalPostsAnalyzed: nat,
    uniqueUsers: nat,
    uniqueTags: nat,
    uniqueKeywords: nat)

  datatype Report = Report(
    categoryActivity: seq<CategoryRow>,
    hotTopics: seq<HotTopic>,
    activeUsers: seq<Entry>,
    influentialUsers: seq<Influence>,
    trendingKeywords: seq<Entry>,
    popularTags: seq<Entry>,
    governanceDiscussions: seq<GovernanceRecord>,
    activityTimeline: Option<seq<DayCount>>,
    metrics: Metrics)

  /**
   `analyze`: None (the empty dict) unless both topics and posts were
   collected; otherwise every section, with the timeline only when there is
   one.
   */
  function Analyze(st: State, daysSince: string -> Option<real>, parseDay: string -> Option<int>, order: seq<string>): (r: Option<Report>)
    requires NoDup(order) && (set u | u in order) == Keys(st.mentions) + Keys(st.userActivity)
    ensures r.None? <==> |st.topics| == 0 || |st.posts| == 0
    ensures r.Some? ==> r.value.metrics.totalCategories == |st.categories|
    ensures r.Some? ==> r.value.metrics.totalTopicsAnalyzed == |st.topics|
    ensures r.Some? ==> r.value.metrics.totalPostsAnalyzed == |st.posts|
    ensures r.Some? && Valid(st) ==> r.value.metrics.uniqueUsers == |Keys(st.userActivity)|
    ensures r.Some? && Valid(st) ==> r.value.metrics.uniqueTags == |Keys(st.tagCounts)|
    ensures r.Some? && Valid(st) ==> r.value.metrics.uniqueKeywords == |Keys(st.keywords)|
    ensures r.Some? ==> (r.value.activityTimeline.Some? <==> exists i :: 0 <= i < |st.posts| && Parses(st.posts[i], parseDay))
    ensures r.Some? ==> r.value.categoryActivity == CategoryActivity(st.categories, st.categoryTopics)
    ensures r.Some? ==> r.value.hotTopics == HotTopics(st.topics, daysSince)
    ensures r.Some? ==> r.value.activeUsers == ActiveUsers(st.userActivity)
    ensures r.Some? ==> r.value.influentialUsers == InfluentialUsers(st.mentions, st.userActivity, order)
    ensures r.Some? ==> r.value.trendingKeywords == TrendingKeywords(st.keywords)
    ensures r.Some? ==> r.value.popularTags == PopularTags(st.tagCounts)
    ensures r.Some? ==> r.value.governanceDiscussions == GovernanceDiscussions(st.governance)
    ensures r.Some? ==> r.value.activityTimeline == ActivityTimeline(st.posts, parseDay)
  {
    if |st.topics| == 0 || |st.posts| == 0 then
      None
    else
      assert Valid(st) ==> |Keys(st.userActivity)| == |st.userActivity| && |Keys(st.tagCounts)| == |st.tagCounts|
                           && |Keys(st.keywords)| == |st.keywords| by {
        if Valid(st) {
          DistinctSize(st.userActivity);
          DistinctSize(st.tagCounts);
          DistinctSize(st.keywords);
        }
      }
      Some(Report(
        CategoryActivity(st.categories, st.categoryTopics),
        HotTopics(st.topics, daysSince),
        ActiveUsers(st.userActivity),
        InfluentialUsers(st.mentions, st.userActivity, order),
        TrendingKeywords(st.keywords),
        PopularTags(st.tagCounts),
        GovernanceDiscussions(st.governance),
        ActivityTimeline(st.posts, parseDay),
        Metrics(|st.categories|, |st.topics|, |st.posts|, |st.userActivity|, |st.tagCounts|, |st.keywords|)))
  }
}

=== FILE: forum_data.dfy ===
/**
 The records the forum fetch layer hands to the analyzers, with the
 defaults the analyzers apply to missing JSON keys already in place: a
 missing count is 0, a missing timestamp is the empty string, and a missing
 or null id is 0 (Python treats both as false in `if not topic_id`).
 */
module ForumData {
  import opened Common
  import opened Text
  import opened Counters

  const BaseUrl: string := "https://forum.polkadot.network"

  datatype Category = Category(id: int, name: Option<string>, lastPostedAt: string)

  datatype Topic = Topic(
    id: int,
    title: Option<string>,
    views: int,
    postsCount: int,
    createdAt: string,
    lastPostedAt: string,
    pinned: bool)

  /** A truthy `id` (a missing one is 0). */
  predicate HasId(t: Topic) {
    t.id != 0
  }

  /** One entry of a topic's post stream; `cooked` is the rendered HTML body. */
  datatype Post = Post(username: string, cooked: string, createdAt: string)

  /** The `username` field of every post, empty ones included. */
  function Usernames(posts: seq<Post>): (r: seq<string>)
    ensures |r| == |posts|
    ensures forall i :: 0 <= i < |posts| ==> r[i] == posts[i].username
  {
    seq(|posts|, i requires 0 <= i < |posts| => posts[i].username)
  }

  /** The usernames of the posts whose `username` is non-empty, in post order. */
  function Authors(posts: seq<Post>): (r: seq<string>)
    ensures |r| <= |posts|
    ensures forall u :: u != "" ==> multiset(r)[u] == multiset(Usernames(posts))[u]
    ensures "" !in r
  {
    if |posts| == 0 then
      []
    else
      var rest := Authors(posts[1..]);
      assert Usernames(posts) == [posts[0].username] + Usernames(posts[1..]);
      if posts[0].username != "" then [posts[0].username] + rest else rest
  }

  /**
   `user_activity[username] += 1` for each post with a non-empty username:
   every named user gains one per post, the empty name is never counted.
   */
  function CountAuthors(c: Counter, posts: seq<Post>): (r: Counter)
    ensures forall u :: u != "" ==> Get(r, u) == Get(c, u) + multiset(Usernames(posts))[u]
    ensures Get(r, "") == Get(c, "")
    ensures Total(r) == Total(c) + |Authors(posts)|
    ensures Distinct(c) ==> Distinct(r)
    ensures Positive(c) ==> Positive(r)
  {
    var authors := Authors(posts);
    var r := AddAll(c, authors);
    AddAllKeeps(c, authors);
    assert multiset(authors)[""] == 0;
    r
  }

  /** `category.get("name", f"Category {id}")`. */
  function DisplayName(c: Category): (name: string)
    ensures c.name.Some? ==> name == c.name.value
    ensures c.name.None? ==> name == "Category " + IntToDecimal(c.id)
  {
    c.name.GetOr("Category " + IntToDecimal(c.id))
  }

  /** `category_topics.get(id, [])`. */
  function TopicsOf(categoryTopics: map<int, seq<Topic>>, id: int): seq<Topic> {
    if id in categoryTopics then categoryTopics[id] else []
  }
}

=== FILE: integration.dfy ===
/**
 The cross-referencing and selection logic of the governance integration:
 the correlation blocks of the integrated report (keyword lists,
 keyword-to-referendum matching, forum-topic pairing, risk grouping) and the
 item selection of the newsletter (important posts, governance proposals,
 keywords).

 Referenda in the report are typed records: the report indexes
 `ref["data"]["index"]` and `ref["risk_analysis"]["risk_level"]` directly, so
 the records carry those fields. The newsletter reads everything through
 `safe_get`, so its inputs are plain values.
 */
module Integration {
  import opened Common
  import opened Text
  import opened Values
  import opened Ranking

  // ---------------------------------------------------------------------
  // Trending keywords in the report

  /** `kw["word"]`: None where Python raises (not a dict, or no such key). */
  function WordOf(kw: Value): (r: Option<Value>)
    ensures r.Some? <==> kw.Dict? && HasKey(kw.fields, SKey("word"))
    ensures r.Some? ==> r.value == Lookup(kw.fields, SKey("word"))
  {
    if kw.Dict? && HasKey(kw.fields, SKey("word")) then Some(Lookup(kw.fields, SKey("word"))) else None
  }

  /**
   `v[i]` for a non-negative index: an item of a list or tuple, a character of
   a string, or the entry of a dict under the integer key; None where Python
   raises.
   */
  function ItemAt(v: Value, i: nat): (r: Option<Value>)
    ensures (v.List? || v.Tuple?) ==> (r.Some? <==> i < |v.items|) && (r.Some? ==> r.value == v.items[i])
    ensures v.Str? ==> (r.Some? <==> i < |v.s|) && (r.Some? ==> r.value == Str([v.s[i]]))
    ensures v.Dict? ==> (r.Some? <==> HasKey(v.fields, IKey(i)))
    ensures !(v.List? || v.Tuple? || v.Str? || v.Dict?) ==> r.None?
  {
    match v
    case List(items) => if i < |items| then Some(items[i]) else None
    case Tuple(items) => if i < |items| then Some(items[i]) else None
    case Str(s) => if i < |s| then Some(Str([s[i]])) else None
    case Dict(fields) => if HasKey(fields, IKey(i)) then Some(Lookup(fields, IKey(i))) else None
    case _ => None
  }

  /** `kw[0]`. */
  function FirstOf(kw: Value): (r: Option<Value>)
    ensures (kw.List? || kw.Tuple?) ==> (r.Some? <==> |kw.items| > 0) && (r.Some? ==> r.value == kw.items[0])
  {
    ItemAt(kw, 0)
  }

  /** A list comprehension whose element expression may raise: None if any element raises. */
  function MapAll(items: seq<Value>, f: Value -> Option<Value>): (r: Option<seq<Value>>)
    ensures r.Some? <==> forall i :: 0 <= i < |items| ==> f(items[i]).Some?
    ensures r.Some? ==> |r.value| == |items| && forall i :: 0 <= i < |items| ==> r.value[i] == f(items[i]).value
  {
    if |items| == 0 then
      Some([])
    else
      match f(items[0])
      case None => None
      case Some(v) =>
        match MapAll(items[1..], f)
        case None =>
          assert !f(items[1..][0]).Some? || exists i :: 0 <= i < |items[1..]| && f(items[1..][i]).None?;
          None
        case Some(vs) => Some([v] + vs)
  }

  /**
   The keyword list of `generate_integrated_report` as written: words from
   dict-shaped items, element 0 from tuple-shaped items, nothing otherwise.
   The shape is taken from the first item. None: an item raised.
   */
  function ReportKeywords(tk: seq<Value>): (r: Option<seq<Value>>)
    ensures |tk| == 0 ==> r == Some([])
    ensures |tk| > 0 && !tk[0].Dict? && !tk[0].Tuple? ==> r == Some([])
    ensures |tk| > 0 && tk[0].Dict? ==> (r.Some? <==> forall i :: 0 <= i < |tk| ==> WordOf(tk[i]).Some?)
    ensures |tk| > 0 && tk[0].Dict? && r.Some? ==>
              |r.value| == |tk| && forall i :: 0 <= i < |tk| ==> r.value[i] == WordOf(tk[i]).value
    ensures |tk| > 0 && tk[0].Tuple? ==> (r.Some? <==> forall i :: 0 <= i < |tk| ==> FirstOf(tk[i]).Some?)
    ensures |tk| > 0 && tk[0].Tuple? && r.Some? ==>
              |r.value| == |tk| && forall i :: 0 <= i < |tk| ==> r.value[i] == FirstOf(tk[i]).value
  {
    if |tk| == 0 then Some([])
    else if tk[0].Dict? then MapAll(tk, WordOf)
    else if tk[0].Tuple? then MapAll(tk, FirstOf)
    else Some([])
  }

  /**
   The report reads the keywords after `ConvertToLists` has turned every tuple
   into a list, so a pair-shaped keyword list yields no words at all.
   */
  lemma ReportKeywordsLost(tk: seq<Value>)
    requires |tk| > 0 && NoTuple(List(tk)) && !tk[0].Dict?
    ensures ReportKeywords(tk) == Some([])
  {
    assert NoTuple(tk[0]);
  }

  /** The corrected keyword list: a converted pair (a list) is read like a tuple. */
  function ReportKeywordsFixed(tk: seq<Value>): (r: Option<seq<Value>>)
    ensures |tk| > 0 && (tk[0].List? || tk[0].Tuple?) ==> (r.Some? <==> forall i :: 0 <= i < |tk| ==> FirstOf(tk[i]).Some?)
    ensures |tk| > 0 && (tk[0].List? || tk[0].Tuple?) && r.Some? ==>
              |r.value| == |tk| && forall i :: 0 <= i < |tk| ==> r.value[i] == FirstOf(tk[i]).value
    ensures |tk| > 0 && tk[0].Dict? ==> (r.Some? <==> forall i :: 0 <= i < |tk| ==> WordOf(tk[i]).Some?)
    ensures |tk| > 0 && tk[0].Dict? && r.Some? ==>
              |r.value| == |tk| && forall i :: 0 <= i < |tk| ==> r.value[i] == WordOf(tk[i]).value
    ensures |tk| == 0 || !(tk[0].Dict? || tk[0].List? || tk[0].Tuple?) ==> r == Some([])
  {
    if |tk| == 0 then Some([])
    else if tk[0].Dict? then MapAll(tk, WordOf)
    else if tk[0].Tuple? || tk[0].List? then MapAll(tk, FirstOf)
    else Some([])
  }

  /** With the correction, converting the keyword pairs first no longer changes the words. */
  lemma ReportKeywordsFixedSurvivesConversion(tk: seq<Value>)
    requires |tk| > 0 && forall i :: 0 <= i < |tk| ==> tk[i].Tuple? && |tk[i].items| > 0
    ensures ReportKeywordsFixed(ConvertToLists(List(tk)).items).Some?
    ensures |ReportKeywordsFixed(ConvertToLists(List(tk)).items).value| == |tk|
    ensures forall i :: 0 <= i < |tk| ==>
              ReportKeywordsFixed(ConvertToLists(List(tk)).items).value[i] == ConvertToLists(tk[i].items[0])
  {
    var conv := ConvertToLists(List(tk)).items;
    forall i | 0 <= i < |tk| ensures conv[i].List? && |conv[i].items| > 0 && conv[i].items[0] == ConvertToLists(tk[i].items[0]) {
      ConvertToListsElementwise(List(tk), i);
      ConvertToListsElementwise(tk[i], 0);
    }
  }

  /** One concrete keyword pair: the report as written finds no word, the corrected one finds "polkadot". */
  lemma ReportKeywordsExample()
    ensures ReportKeywords(ConvertToLists(List([Tuple([Str("polkadot"), NpInt(7)])])).items) == Some([])
    ensures ReportKeywordsFixed(ConvertToLists(List([Tuple([Str("polkadot"), NpInt(7)])])).items) == Some([Str("polkadot")])
  {
    var conv := ConvertToLists(List([Tuple([Str("polkadot"), NpInt(7)])])).items;
    ConvertToListsElementwise(List([Tuple([Str("polkadot"), NpInt(7)])]), 0);
    ConvertToListsElementwise(Tuple([Str("polkadot"), NpInt(7)]), 0);
    ConvertToListsElementwise(Tuple([Str("polkadot"), NpInt(7)]), 1);
    assert conv[0] == List([Str("polkadot"), Int(7)]);
    assert conv == [List([Str("polkadot"), Int(7)])];
    assert MapAll(conv[1..], FirstOf) == Some([]);
    assert FirstOf(conv[0]) == Some(Str("polkadot"));
    var words := ReportKeywordsFixed(conv);
    assert words.Some?;
    assert words.value[0] == Str("polkadot");
    assert words.value == [Str("polkadot")];
  }

  /** `keyword.lower()` needs a string: None if any word is not one. */
  function KeywordStrings(words: seq<Value>): (r: Option<seq<string>>)
    ensures r.Some? <==> forall i :: 0 <= i < |words| ==> words[i].Str?
    ensures r.Some? ==> |r.value| == |words| && forall i :: 0 <= i < |words| ==> r.value[i] == words[i].s
  {
    if |words| == 0 then Some([])
    else if !words[0].Str? then None
    else match KeywordStrings(words[1..])
      case None =>
        assert exists i :: 0 <= i < |words[1..]| && !words[1..][i].Str?;
        None
      case Some(rest) => Some([words[0].s] + rest)
  }

  // ---------------------------------------------------------------------
  // Referenda

  /** One argument of a decoded call, key and value as `str()` renders them. */
  datatype Arg = Arg(key: string, value: string)

  /**
   `data["proposal"]["decodedCall"]`: missing `section` or `method` is None;
   `args` is None when it is absent or not a dict.
   */
  datatype DecodedCall = DecodedCall(section: Option<string>, methodName: Option<string>, args: Option<seq<Arg>>)

  /** One entry of a referendum's `forum_data` list; missing optional keys are None. */
  datatype ForumLink = ForumLink(title: Value, postsCount: Option<Value>, views: Option<Value>, url: Option<Value>)

  /**
   A referendum of the governance analysis: `data.index`, the decoded call
   when `data.proposal.decodedCall` exists, `risk_analysis.risk_level`, and
   the `forum_data` list when present.
   */
  datatype Referendum = Referendum(index: Value, decoded: Option<DecodedCall>, riskLevel: Value, forumTopics: Option<seq<ForumLink>>)

  /** `" {key} {value}"` for every argument, in order. */
  function ArgsText(args: seq<Arg>): string {
    if |args| == 0 then "" else " " + args[0].key + " " + args[0].value + ArgsText(args[1..])
  }

  /** `f"{section} {method}"` followed by the argument pairs. */
  function ProposalText(d: DecodedCall): (t: string)
    ensures StartsWith(t, d.section.GetOr("") + " " + d.methodName.GetOr(""))
  {
    var head := d.section.GetOr("") + " " + d.methodName.GetOr("");
    var t := head + ArgsText(d.args.GetOr([]));
    assert t[..|head|] == head;
    t
  }

  datatype KeywordMatch = KeywordMatch(keyword: string, referendumId: Value, proposalText: string)

  /** The case-insensitive substring test of the matching loop. */
  predicate Mentioned(keyword: string, text: string) {
    Contains(Lower(keyword), Lower(text))
  }

  /** The matches of one referendum, in keyword order. */
  function RefMatches(ref: Referendum, kws: seq<string>): (r: seq<KeywordMatch>)
    ensures ref.decoded.None? ==> r == []
    ensures |r| <= |kws|
    decreases |kws|
  {
    if ref.decoded.None? || |kws| == 0 then []
    else
      var text := ProposalText(ref.decoded.value);
      (if Mentioned(kws[0], text) then [KeywordMatch(kws[0], ref.index, text)] else []) + RefMatches(ref, kws[1..])
  }

  /** The keyword-to-referendum matches, referendum by referendum. */
  function KeywordMatches(refs: seq<Referendum>, kws: seq<string>): seq<KeywordMatch> {
    if |refs| == 0 then [] else RefMatches(refs[0], kws) + KeywordMatches(refs[1..], kws)
  }

  /**
   A match for a referendum is emitted exactly for the keywords whose
   lower-cased form occurs in its lower-cased proposal text.
   */
  lemma {:induction false} RefMatchesIff(ref: Referendum, kws: seq<string>, m: KeywordMatch)
    ensures m in RefMatches(ref, kws) <==>
      ref.decoded.Some? && m.referendumId == ref.index && m.proposalText == ProposalText(ref.decoded.value)
      && m.keyword in kws && Mentioned(m.keyword, m.proposalText)
    decreases |kws|
  {
    if ref.decoded.Some? && |kws| > 0 {
      RefMatchesIff(ref, kws[1..], m);
      assert kws == [kws[0]] + kws[1..];
    }
  }

  /** A match exists exactly for a decoded referendum and a keyword it mentions. */
  lemma {:induction false} KeywordMatchesIff(refs: seq<Referendum>, kws: seq<string>, m: KeywordMatch)
    ensures m in KeywordMatches(refs, kws) <==>
      exists i :: 0 <= i < |refs| && refs[i].decoded.Some? && m.referendumId == refs[i].index
                  && m.proposalText == ProposalText(refs[i].decoded.value)
                  && m.keyword in kws && Mentioned(m.keyword, m.proposalText)
  {
    if |refs| > 0 {
      RefMatchesIff(refs[0], kws, m);
      KeywordMatchesIff(refs[1..], kws, m);
      assert forall i :: 0 < i < |refs| ==> refs[i] == refs[1..][i - 1];
      if m in KeywordMatches(refs[1..], kws) {
        var i :| 0 <= i < |refs[1..]| && refs[1..][i].decoded.Some? && m.referendumId == refs[1..][i].index
                 && m.proposalText == ProposalText(refs[1..][i].decoded.value)
                 && m.keyword in kws && Mentioned(m.keyword, m.proposalText);
        assert refs[i + 1] == refs[1..][i];
      }
    }
  }

  /** Matches come referendum by referendum: the matches of two runs of referenda are concatenated. */
  lemma {:induction false} KeywordMatchesAppend(a: seq<Referendum>, b: seq<Referendum>, kws: seq<string>)
    ensures KeywordMatches(a + b, kws) == KeywordMatches(a, kws) + KeywordMatches(b, kws)
  {
    if |a| == 0 {
      assert a + b == b;
    } else {
      assert (a + b)[0] == a[0];
      assert (a + b)[1..] == a[1..] + b;
      KeywordMatchesAppend(a[1..], b, kws);
    }
  }

  /** No keywords, no matches. */
  lemma {:induction false} NoKeywordsNoMatches(refs: seq<Referendum>)
    ensures KeywordMatches(refs, []) == []
  {
    if |refs| > 0 {
      NoKeywordsNoMatches(refs[1..]);
    }
  }

  /** Some referendum has a decoded call. */
  predicate HasDecoded(refs: seq<Referendum>) {
    exists i :: 0 <= i < |refs| && refs[i].decoded.Some?
  }

  /**
   The "Trending Keywords found in Proposals" block, with the corrected keyword
   list. `keyword.lower()` runs only once a decoded referendum is reached, so a
   non-string keyword raises only then. None: the block raised, which aborts
   the report.
   */
  function KeywordCorrelations(tk: seq<Value>, refs: seq<Referendum>): (r: Option<seq<KeywordMatch>>)
    ensures ReportKeywordsFixed(tk).None? ==> r.None?
    ensures ReportKeywordsFixed(tk).Some? && !HasDecoded(refs) ==> r == Some([])
    ensures ReportKeywordsFixed(tk).Some? && HasDecoded(refs) ==>
              (r.Some? <==> KeywordStrings(ReportKeywordsFixed(tk).value).Some?)
    ensures r.Some? && HasDecoded(refs) ==>
              r.value == KeywordMatches(refs, KeywordStrings(ReportKeywordsFixed(tk).value).value)
    ensures r.Some? ==> forall m :: m in r.value ==> Str(m.keyword) in ReportKeywordsFixed(tk).value && Mentioned(m.keyword, m.proposalText)
  {
    match ReportKeywordsFixed(tk)
    case None => None
    case Some(words) =>
      if !HasDecoded(refs) then
        Some([])
      else
        match KeywordStrings(words)
        case None => None
        case Some(kws) =>
          var ms := KeywordMatches(refs, kws);
          assert forall m :: m in ms ==> Str(m.keyword) in words && Mentioned(m.keyword, m.proposalText) by {
            forall m | m in ms ensures Str(m.keyword) in words && Mentioned(m.keyword, m.proposalText) {
              KeywordMatchesIff(refs, kws, m);
              var j :| 0 <= j < |kws| && kws[j] == m.keyword;
              assert words[j] == Str(kws[j]);
            }
          }
          Some(ms)
  }

  /** The same block as written: a converted pair-shaped keyword list finds nothing, whatever the referenda say. */
  lemma KeywordCorrelationsAsWritten(tk: seq<Value>, refs: seq<Referendum>)
    requires |tk| > 0 && NoTuple(List(tk)) && !tk[0].Dict?
    ensures ReportKeywords(tk) == Some([]) && KeywordMatches(refs, []) == []
  {
    ReportKeywordsLost(tk);
    NoKeywordsNoMatches(refs);
  }

  // ---------------------------------------------------------------------
  // Forum topics attached to referenda

  datatype ForumPair = ForumPair(referendumId: Value, topicTitle: Value, postsCount: Value, views: Value, url: Value)

  /** One pairing entry; posts_count and views default to 0 and url to "". */
  function PairOf(id: Value, link: ForumLink): (p: ForumPair)
    ensures p.referendumId == id && p.topicTitle == link.title
    ensures p.postsCount == link.postsCount.GetOr(Int(0)) && p.views == link.views.GetOr(Int(0))
    ensures p.url == link.url.GetOr(Str(""))
  {
    ForumPair(id, link.title, link.postsCount.GetOr(Int(0)), link.views.GetOr(Int(0)), link.url.GetOr(Str("")))
  }

  /** The pairs of one referendum, one per attached topic, in order. */
  function RefPairs(ref: Referendum): (r: seq<ForumPair>)
    ensures ref.forumTopics.None? ==> r == []
    ensures ref.forumTopics.Some? ==>
              |r| == |ref.forumTopics.value| && forall j :: 0 <= j < |r| ==> r[j] == PairOf(ref.index, ref.forumTopics.value[j])
  {
    match ref.forumTopics
    case None => []
    case Some(links) => seq(|links|, j requires 0 <= j < |links| => PairOf(ref.index, links[j]))
  }

  /** How many forum topics the referenda carry. */
  function LinkCount(refs: seq<Referendum>): nat {
    if |refs| == 0 then 0
    else (if refs[0].forumTopics.Some? then |refs[0].forumTopics.value| else 0) + LinkCount(refs[1..])
  }

  /** The forum-to-referendum pairs: exactly one per attached topic. */
  function ForumPairs(refs: seq<Referendum>): (r: seq<ForumPair>)
    ensures |r| == LinkCount(refs)
  {
    if |refs| == 0 then [] else RefPairs(refs[0]) + ForumPairs(refs[1..])
  }

  /** Pairs come referendum by referendum. */
  lemma {:induction false} ForumPairsAppend(a: seq<Referendum>, b: seq<Referendum>)
    ensures ForumPairs(a + b) == ForumPairs(a) + ForumPairs(b)
  {
    if |a| == 0 {
      assert a + b == b;
    } else {
      assert (a + b)[0] == a[0];
      assert (a + b)[1..] == a[1..] + b;
      ForumPairsAppend(a[1..], b);
    }
  }

  // ---------------------------------------------------------------------
  // Risk grouping

  datatype Group = Group(level: Value, refs: seq<Referendum>)

  /** `risk_groups.get(level, [])`. */
  function GroupOf(groups: seq<Group>, level: Value): seq<Referendum> {
    if |groups| == 0 then [] else if groups[0].level == level then groups[0].refs else GroupOf(groups[1..], level)
  }

  /** Append a referendum to the group of its level, creating the group at the end when new. */
  function AddToGroup(groups: seq<Group>, ref: Referendum): (r: seq<Group>)
    ensures GroupOf(r, ref.riskLevel) == GroupOf(groups, ref.riskLevel) + [ref]
    ensures forall l :: l != ref.riskLevel ==> GroupOf(r, l) == GroupOf(groups, l)
  {
    if |groups| == 0 then [Group(ref.riskLevel, [ref])]
    else if groups[0].level == ref.riskLevel then [Group(ref.riskLevel, groups[0].refs + [ref])] + groups[1..]
    else
      var rest := AddToGroup(groups[1..], ref);
      var r := [groups[0]] + rest;
      assert r[1..] == rest;
      r
  }

  /** The `risk_groups` dict built by the grouping loop. */
  function RiskGroups(refs: seq<Referendum>): seq<Group> {
    if |refs| == 0 then [] else AddToGroup(RiskGroups(refs[..|refs| - 1]), refs[|refs| - 1])
  }

  predicate AtLevel(level: Value, ref: Referendum) {
    ref.riskLevel == level
  }

  /** The test "this referendum has risk level `level`". */
  function LevelTest(level: Value): Referendum -> bool {
    r => AtLevel(level, r)
  }

  /** Each group holds exactly the referenda of its level, in input order. */
  lemma {:induction false} RiskGroupsExact(refs: seq<Referendum>, level: Value)
    ensures GroupOf(RiskGroups(refs), level) == Filter(refs, LevelTest(level))
  {
    if |refs| > 0 {
      var pre := refs[..|refs| - 1];
      var last := refs[|refs| - 1];
      assert refs == pre + [last];
      var g := RiskGroups(pre);
      assert RiskGroups(refs) == AddToGroup(g, last);
      RiskGroupsExact(pre, level);
      FilterSnoc(pre, last, LevelTest(level));
    }
  }

  const Critical: Value := Str("critical")
  const High: Value := Str("high")
  const Medium: Value := Str("medium")
  const Low: Value := Str("low")

  /** The levels the report lists, in listing order. */
  const ListedLevels: seq<Value> := [Critical, High, Medium, Low]

  /** The levels of a list of groups, in order. */
  function LevelsOf(gs: seq<Group>): (r: seq<Value>)
    ensures |r| == |gs| && forall k :: 0 <= k < |gs| ==> r[k] == gs[k].level
  {
    seq(|gs|, k requires 0 <= k < |gs| => gs[k].level)
  }

  /** The test "`risk_groups.get(level, [])` is non-empty". */
  function NonEmptyLevel(groups: seq<Group>): Value -> bool {
    l => |GroupOf(groups, l)| > 0
  }

  /** The listed group of one level. */
  function GroupFor(groups: seq<Group>): Value -> Group {
    l => Group(l, GroupOf(groups, l))
  }

  /**
   The groups the report lists: for critical, high, medium and low in that
   order, the level's referenda in input order, exactly for the levels that
   some referendum has.
   */
  function ListedGroups(refs: seq<Referendum>): (r: seq<Group>)
    ensures |r| <= 4
    ensures LevelsOf(r) == Filter(ListedLevels, NonEmptyLevel(RiskGroups(refs)))
    ensures forall k :: 0 <= k < |r| ==> r[k].level in ListedLevels && |r[k].refs| > 0
    ensures forall k :: 0 <= k < |r| ==> r[k].refs == Filter(refs, LevelTest(r[k].level))
    ensures forall l :: l in ListedLevels ==> (l in LevelsOf(r) <==> |Filter(refs, LevelTest(l))| > 0)
  {
    var groups := RiskGroups(refs);
    var ls := Filter(ListedLevels, NonEmptyLevel(groups));
    var r := Map(ls, GroupFor(groups));
    assert LevelsOf(r) == ls;
    forall k | 0 <= k < |r| ensures r[k].level in ListedLevels && |r[k].refs| > 0 && r[k].refs == Filter(refs, LevelTest(r[k].level)) {
      FilterIn(ListedLevels, NonEmptyLevel(groups), ls[k]);
      RiskGroupsExact(refs, ls[k]);
    }
    forall l | l in ListedLevels ensures l in LevelsOf(r) <==> |Filter(refs, LevelTest(l))| > 0 {
      RiskGroupsExact(refs, l);
      if NonEmptyLevel(groups)(l) {
        InFilter(ListedLevels, NonEmptyLevel(groups), l);
      }
      if l in ls {
        FilterIn(ListedLevels, NonEmptyLevel(groups), l);
      }
    }
    r
  }

  /** The high-risk referenda: the critical ones, then the high ones. */
  function HighRiskRefs(refs: seq<Referendum>): (r: seq<Referendum>)
    ensures r == Filter(refs, LevelTest(Critical)) + Filter(refs, LevelTest(High))
    ensures forall k :: 0 <= k < |r| ==> r[k].riskLevel == Critical || r[k].riskLevel == High
  {
    RiskGroupsExact(refs, Critical);
    RiskGroupsExact(refs, High);
    GroupOf(RiskGroups(refs), Critical) + GroupOf(RiskGroups(refs), High)
  }

  // ---------------------------------------------------------------------
  // Newsletter: important posts

  datatype PostInfo = PostInfo(title: Value, author: Value, date: Value, views: Value, replies: real, url: Value, summary: Value)

  /**
   `max(0, posts_count - 1)` for the numeric kinds Python can subtract from;
   None where the subtraction raises.
   */
  function Replies(postsCount: Value): (r: Option<real>)
    ensures r.Some? ==> r.value >= 0.0
    ensures (postsCount.Int? || postsCount.NpInt?) ==> r == Some(Max(0, postsCount.i - 1) as real)
    ensures postsCount.Bool? || postsCount.NpBool? ==> r == Some(0.0)
    ensures postsCount.Str? || postsCount.Null? || postsCount.List? || postsCount.Tuple? || postsCount.Dict? ==> r.None?
  {
    match postsCount
    case Int(n) => Some(Max(0, n - 1) as real)
    case NpInt(n) => Some(Max(0, n - 1) as real)
    case Bool(_) => Some(0.0)
    case NpBool(_) => Some(0.0)
    case Float(f) => Some(if f - 1.0 > 0.0 then f - 1.0 else 0.0)
    case NpFloat(f) => Some(if f - 1.0 > 0.0 then f - 1.0 else 0.0)
    case _ => None
  }

  function K(s: string): seq<Key> {
    [SKey(s)]
  }

  /** The newsletter entry of one hot topic, each field through `safe_get` with its default. */
  function PostInfoOf(topic: Value): (r: Option<PostInfo>)
    ensures r.Some? <==> Replies(SafeGet(topic, K("posts_count"), Int(1))).Some?
    ensures r.Some? ==> r.value.title == SafeGet(topic, K("title"), Str("No title"))
                        && r.value.author == SafeGet(topic, K("author"), Str("Unknown"))
                        && r.value.date == SafeGet(topic, K("created_at"), Str(""))
                        && r.value.views == SafeGet(topic, K("views"), Int(0))
                        && r.value.url == SafeGet(topic, K("url"), Str(""))
                        && r.value.summary == SafeGet(topic, K("excerpt"), Str("No summary available"))
                        && r.value.replies == Replies(SafeGet(topic, K("posts_count"), Int(1))).value
                        && r.value.replies >= 0.0
  {
    match Replies(SafeGet(topic, K("posts_count"), Int(1)))
    case None => None
    case Some(replies) =>
      Some(PostInfo(
        SafeGet(topic, K("title"), Str("No title")),
        SafeGet(topic, K("author"), Str("Unknown")),
        SafeGet(topic, K("created_at"), Str("")),
        SafeGet(topic, K("views"), Int(0)),
        replies,
        SafeGet(topic, K("url"), Str("")),
        SafeGet(topic, K("excerpt"), Str("No summary available"))))
  }

  /** The entries of the topics whose entry can be built, in order (failures are logged and skipped). */
  function PostInfos(topics: seq<Value>): (r: seq<PostInfo>)
    ensures |r| == |Filter(topics, Succeeds(PostInfoOf))|
    ensures forall k :: 0 <= k < |r| ==> Some(r[k]) == PostInfoOf(Filter(topics, Succeeds(PostInfoOf))[k])
    ensures |r| <= |topics|
    ensures forall k :: 0 <= k < |r| ==> r[k].replies >= 0.0
    ensures (forall i :: 0 <= i < |topics| ==> PostInfoOf(topics[i]).Some?) ==>
              |r| == |topics| && forall i :: 0 <= i < |topics| ==> r[i] == PostInfoOf(topics[i]).value
  {
    var r := Collect(topics, PostInfoOf);
    assert forall k :: 0 <= k < |r| ==> r[k].replies >= 0.0 by {
      forall k | 0 <= k < |r| ensures r[k].replies >= 0.0 {
        var i :| 0 <= i < |topics| && PostInfoOf(topics[i]) == Some(r[k]);
      }
    }
    r
  }

  /** `_extract_important_posts`: the entries of the first 10 hot topics. */
  function ImportantPosts(hotTopics: seq<Value>): (r: seq<PostInfo>)
    ensures var first := hotTopics[..Min(10, |hotTopics|)];
      |r| == |Filter(first, Succeeds(PostInfoOf))| &&
      forall k :: 0 <= k < |r| ==> Some(r[k]) == PostInfoOf(Filter(first, Succeeds(PostInfoOf))[k])
    ensures |r| <= 10 && |r| <= |hotTopics|
    ensures forall k :: 0 <= k < |r| ==> r[k].replies >= 0.0
    ensures (forall i :: 0 <= i < Min(10, |hotTopics|) ==> PostInfoOf(hotTopics[i]).Some?) ==>
              |r| == Min(10, |hotTopics|) && forall i :: 0 <= i < |r| ==> r[i] == PostInfoOf(hotTopics[i]).value
  {
    var first := hotTopics[..Min(10, |hotTopics|)];
    assert forall i :: 0 <= i < |first| ==> first[i] == hotTopics[i];
    PostInfos(first)
  }

  // ---------------------------------------------------------------------
  // Newsletter: governance proposals

  datatype Item = ReferendumItem(ref: Value) | TreasuryItem(proposal: Value, value: int)

  /** `safe_get(x, "risk_analysis", "risk_level", default="unknown")`. */
  function RiskOf(x: Value): Value {
    SafeGet(x, [SKey("risk_analysis"), SKey("risk_level")], Str("unknown"))
  }

  predicate IsHighRisk(ref: Value) {
    RiskOf(ref) == High || RiskOf(ref) == Critical
  }

  /** Every item is a high-risk referendum. */
  predicate AllHighRisk(items: seq<Item>) {
    forall k :: 0 <= k < |items| ==> items[k].ReferendumItem? && IsHighRisk(items[k].ref)
  }

  /** The high and critical referenda, in input order. */
  function HighRiskItems(refs: seq<Value>): (r: seq<Item>)
    ensures |r| == |Filter(refs, IsHighRisk)|
    ensures forall k :: 0 <= k < |r| ==> r[k] == ReferendumItem(Filter(refs, IsHighRisk)[k])
    ensures |r| <= |refs|
    ensures AllHighRisk(r)
    ensures forall x :: multiset(r)[ReferendumItem(x)] == if IsHighRisk(x) then multiset(refs)[x] else 0
  {
    var hs := Filter(refs, IsHighRisk);
    var r := seq(|hs|, i requires 0 <= i < |hs| => ReferendumItem(hs[i]));
    assert forall x :: multiset(r)[ReferendumItem(x)] == multiset(hs)[x] by {
      WrapCount(hs);
    }
    r
  }

  lemma {:induction false} WrapCount(hs: seq<Value>)
    ensures forall x :: multiset(seq(|hs|, i requires 0 <= i < |hs| => ReferendumItem(hs[i])))[ReferendumItem(x)] == multiset(hs)[x]
  {
    if |hs| > 0 {
      WrapCount(hs[1..]);
      var r := seq(|hs|, i requires 0 <= i < |hs| => ReferendumItem(hs[i]));
      var t := seq(|hs| - 1, i requires 0 <= i < |hs| - 1 => ReferendumItem(hs[1..][i]));
      assert r == [ReferendumItem(hs[0])] + t;
      assert hs == [hs[0]] + hs[1..];
    }
  }

  /** `proposal.get("data", {})` on a dict. */
  function DataOf(p: Value): Value
    requires p.Dict?
  {
    if HasKey(p.fields, SKey("data")) then Lookup(p.fields, SKey("data")) else Dict([])
  }

  /** `int(safe_get(data, "value", default="0"))`, with a failed conversion giving 0. */
  function TreasuryValue(p: Value): int
    requires p.Dict?
  {
    IntOrZero(SafeGet(DataOf(p), K("value"), Str("0")))
  }

  predicate IsDict(v: Value) {
    v.Dict?
  }

  /**
   The `(proposal, value)` pairs, one per dict-shaped proposal in input
   order; `.get` on a proposal that is not a dict raises, so it is skipped.
   */
  function TreasuryCandidates(ts: seq<Value>): (r: seq<Item>)
    ensures |r| == |Filter(ts, IsDict)|
    ensures forall k :: 0 <= k < |r| ==> r[k] == TreasuryItem(Filter(ts, IsDict)[k], TreasuryValue(Filter(ts, IsDict)[k]))
    ensures forall k :: 0 <= k < |r| ==> r[k].TreasuryItem? && r[k].proposal.Dict? && r[k].value == TreasuryValue(r[k].proposal)
    ensures forall k :: 0 <= k < |r| ==> r[k].proposal in ts
  {
    var ds := Filter(ts, IsDict);
    var r := seq(|ds|, k requires 0 <= k < |ds| => TreasuryItem(ds[k], TreasuryValue(ds[k])));
    SubMultisetIn(ds, ts);
    r
  }

  function ValueKey(it: Item): real {
    if it.TreasuryItem? then it.value as real else 0.0
  }

  /** The details step: `risk_level.upper()` raises unless the risk level is a string, and the item is skipped. */
  predicate RenderableRisk(it: Item) {
    it.TreasuryItem? && RiskOf(it.proposal).Str?
  }

  /** A treasury item carrying its proposal's value, the proposal taken from `ts`. */
  predicate FromTreasury(it: Item, ts: seq<Value>) {
    it.TreasuryItem? && it.proposal.Dict? && it.value == TreasuryValue(it.proposal) && it.proposal in ts
  }

  predicate AllFromTreasury(items: seq<Item>, ts: seq<Value>) {
    forall k :: 0 <= k < |items| ==> FromTreasury(items[k], ts)
  }

  /** Items drawn from a list of treasury items are treasury items. */
  lemma DrawnFromTreasury(s: seq<Item>, r: seq<Item>, ts: seq<Value>)
    requires AllFromTreasury(s, ts)
    requires forall k :: 0 <= k < |r| ==> r[k] in s
    ensures AllFromTreasury(r, ts)
  {
    forall k | 0 <= k < |r| ensures FromTreasury(r[k], ts) {
      var i :| 0 <= i < |s| && s[i] == r[k];
    }
  }

  /**
   The three most valuable treasury proposals (stable), less those whose
   details raise. A candidate with a renderable risk level is dropped only
   when more than three candidates compete and its value is no larger than
   every item kept.
   */
  function TreasuryItems(ts: seq<Value>): (r: seq<Item>)
    ensures |r| <= 3
    ensures AllFromTreasury(r, ts)
    ensures SortedDesc(r, ValueKey)
    ensures forall it :: it in TreasuryCandidates(ts) && RenderableRisk(it) && it !in r ==>
              3 < |TreasuryCandidates(ts)| && forall j :: 0 <= j < |r| ==> ValueKey(it) <= ValueKey(r[j])
    ensures forall it :: it in r ==> it in TreasuryCandidates(ts) && RenderableRisk(it)
    ensures multiset(r) <= multiset(TreasuryCandidates(ts))
    ensures KeyPrefixes(r, Filter(TreasuryCandidates(ts), RenderableRisk), ValueKey)
    ensures forall it :: multiset(r)[it] == if RenderableRisk(it) then multiset(TopN(TreasuryCandidates(ts), ValueKey, 3))[it] else 0
  {
    var cands := TreasuryCandidates(ts);
    var r := TopFiltered(cands, ValueKey, 3, RenderableRisk);
    assert AllFromTreasury(cands, ts);
    DrawnFromTreasury(cands, r, ts);
    r
  }

  /** The first five of `h` followed by `t`. */
  function FirstFive(h: seq<Item>, t: seq<Item>): (r: seq<Item>)
    ensures |r| <= |h| + |t| && |r| <= 5
    ensures |r| == Min(5, |h| + |t|)
    ensures forall k :: 0 <= k < |r| && k < |h| ==> r[k] == h[k]
    ensures forall k :: 0 <= k < |r| - |h| ==> r[|h| + k] == t[k]
  {
    var all := h + t;
    all[..Min(5, |all|)]
  }

  /**
   `_extract_governance_proposals`: the high-risk referenda first, then the
   treasury items, five in all.
   */
  function GovernanceProposals(refs: seq<Value>, ts: seq<Value>): (r: seq<Item>)
    ensures |r| <= |HighRiskItems(refs)| + |TreasuryItems(ts)| && |r| <= 5
    ensures |r| == Min(5, |HighRiskItems(refs)| + |TreasuryItems(ts)|)
    ensures forall k :: 0 <= k < |r| && k < |HighRiskItems(refs)| ==> r[k] == HighRiskItems(refs)[k]
    ensures forall k :: 0 <= k < |r| - |HighRiskItems(refs)| ==> r[|HighRiskItems(refs)| + k] == TreasuryItems(ts)[k]
  {
    FirstFive(HighRiskItems(refs), TreasuryItems(ts))
  }

  /** An item of `FirstFive(h, t)` is an item of `h` or of `t`. */
  lemma FirstFiveFrom(h: seq<Item>, t: seq<Item>, ts: seq<Value>, k: int)
    requires AllHighRisk(h) && AllFromTreasury(t, ts)
    requires 0 <= k < |FirstFive(h, t)|
    ensures (FirstFive(h, t)[k].ReferendumItem? && IsHighRisk(FirstFive(h, t)[k].ref)) || FromTreasury(FirstFive(h, t)[k], ts)
  {
    var g := FirstFive(h, t);
    if k < |h| {
      assert g[k] == h[k];
    } else {
      var j := k - |h|;
      assert g[|h| + j] == t[j];
      assert FromTreasury(t[j], ts);
    }
  }

  /** Every selected item is a high-risk referendum or a valued treasury proposal from the input. */
  lemma GovernanceProposalsSources(refs: seq<Value>, ts: seq<Value>, k: int)
    requires 0 <= k < |GovernanceProposals(refs, ts)|
    ensures (GovernanceProposals(refs, ts)[k].ReferendumItem? && IsHighRisk(GovernanceProposals(refs, ts)[k].ref))
            || FromTreasury(GovernanceProposals(refs, ts)[k], ts)
  {
    FirstFiveFrom(HighRiskItems(refs), TreasuryItems(ts), ts, k);
  }

  /** Treasury items reach the newsletter only when fewer than five referenda are high risk. */
  lemma TreasuryCrowdedOut(refs: seq<Value>, ts: seq<Value>)
    requires |HighRiskItems(refs)| >= 5
    ensures forall k :: 0 <= k < |GovernanceProposals(refs, ts)| ==> GovernanceProposals(refs, ts)[k].ReferendumItem?
  {
  }

  // ---------------------------------------------------------------------
  // Newsletter: keywords

  function KeywordEntry(word: Value, count: Value): Value {
    Dict([Field(SKey("word"), word), Field(SKey("count"), count)])
  }

  /** `{"word": kw[0], "count": kw[1]}`: None where indexing raises. */
  function PairEntry(kw: Value): (r: Option<Value>)
    ensures r.Some? <==> ItemAt(kw, 0).Some? && ItemAt(kw, 1).Some?
    ensures r.Some? ==> r.value == KeywordEntry(ItemAt(kw, 0).value, ItemAt(kw, 1).value)
  {
    if ItemAt(kw, 0).Some? && ItemAt(kw, 1).Some? then Some(KeywordEntry(ItemAt(kw, 0).value, ItemAt(kw, 1).value)) else None
  }

  /**
   The pair branch of the newsletter: every one of the first 15 items gives
   its `{word, count}` entry, or, when some item cannot be indexed, the
   exception leaves the list empty.
   */
  ghost predicate PairsNormalised(tk: seq<Value>, r: seq<Value>) {
    ((forall i :: 0 <= i < Min(15, |tk|) ==> PairEntry(tk[i]).Some?) ==>
       |r| == Min(15, |tk|) && forall i :: 0 <= i < |r| ==> r[i] == PairEntry(tk[i]).value)
    && ((exists i :: 0 <= i < Min(15, |tk|) && PairEntry(tk[i]).None?) ==> r == [])
  }

  /** A dict with both a `word` and a `count` key. */
  predicate IsKeywordDict(v: Value) {
    v.Dict? && HasKey(v.fields, SKey("word")) && HasKey(v.fields, SKey("count"))
  }

  /**
   The keyword normalisation of `create_newsletter` as written, on the first
   15 items: dicts are kept, tuples become `{word, count}` dicts, and any
   other shape becomes `{word: str(kw), count: 1}`, where `render` is `str`.
   An exception gives the empty list.
   */
  function NewsletterKeywords(tk: seq<Value>, render: Value -> string): (r: seq<Value>)
    ensures |r| <= 15 && |r| <= |tk|
    ensures |tk| > 0 && !IsKeywordDict(tk[0]) && !(tk[0].Tuple? && |tk[0].items| >= 2) ==>
              |r| == Min(15, |tk|) && forall i :: 0 <= i < |r| ==> r[i] == KeywordEntry(Str(render(tk[i])), Int(1))
    ensures |tk| > 0 && IsKeywordDict(tk[0]) ==> r == tk[..Min(15, |tk|)]
    ensures |tk| > 0 && !IsKeywordDict(tk[0]) && tk[0].Tuple? && |tk[0].items| >= 2 ==> PairsNormalised(tk, r)
  {
    var first := tk[..Min(15, |tk|)];
    if |tk| == 0 then []
    else if IsKeywordDict(tk[0]) then first
    else if tk[0].Tuple? && |tk[0].items| >= 2 then MapAll(first, PairEntry).GetOr([])
    else seq(|first|, i requires 0 <= i < |first| => KeywordEntry(Str(render(first[i])), Int(1)))
  }

  /** The corrected normalisation: a converted pair (a list) is read like a tuple. */
  function NewsletterKeywordsFixed(tk: seq<Value>, render: Value -> string): (r: seq<Value>)
    ensures |r| <= 15 && |r| <= |tk|
    ensures |tk| > 0 && (tk[0].List? || tk[0].Tuple?) && (forall i :: 0 <= i < Min(15, |tk|) ==> PairEntry(tk[i]).Some?) ==>
              |r| == Min(15, |tk|) && forall i :: 0 <= i < |r| ==> r[i] == PairEntry(tk[i]).value
    ensures |tk| > 0 && IsKeywordDict(tk[0]) ==> r == tk[..Min(15, |tk|)]
    ensures |tk| > 0 && !IsKeywordDict(tk[0]) && (tk[0].List? || tk[0].Tuple?) && |tk[0].items| >= 2 ==> PairsNormalised(tk, r)
    ensures |tk| > 0 && !IsKeywordDict(tk[0]) && !((tk[0].List? || tk[0].Tuple?) && |tk[0].items| >= 2) ==>
              |r| == Min(15, |tk|) && forall i :: 0 <= i < |r| ==> r[i] == KeywordEntry(Str(render(tk[i])), Int(1))
  {
    var first := tk[..Min(15, |tk|)];
    if |tk| == 0 then []
    else if IsKeywordDict(tk[0]) then first
    else if (tk[0].Tuple? || tk[0].List?) && |tk[0].items| >= 2 then MapAll(first, PairEntry).GetOr([])
    else seq(|first|, i requires 0 <= i < |first| => KeywordEntry(Str(render(first[i])), Int(1)))
  }

  /**
   What the newsletter receives: the forum report has been through
   `ConvertToLists`, so each `(word, count)` pair arrives as a list and is
   rendered whole as the word, with count 1.
   */
  lemma NewsletterKeywordsExample(render: Value -> string)
    ensures NewsletterKeywords(ConvertToLists(List([Tuple([Str("polkadot"), NpInt(7)])])).items, render)
            == [KeywordEntry(Str(render(List([Str("polkadot"), Int(7)]))), Int(1))]
    ensures NewsletterKeywordsFixed(ConvertToLists(List([Tuple([Str("polkadot"), NpInt(7)])])).items, render)
            == [KeywordEntry(Str("polkadot"), Int(7))]
  {
    var conv := ConvertToLists(List([Tuple([Str("polkadot"), NpInt(7)])])).items;
    ConvertToListsElementwise(List([Tuple([Str("polkadot"), NpInt(7)])]), 0);
    ConvertToListsElementwise(Tuple([Str("polkadot"), NpInt(7)]), 0);
    ConvertToListsElementwise(Tuple([Str("polkadot"), NpInt(7)]), 1);
    assert conv[0] == List([Str("polkadot"), Int(7)]);
    assert !IsKeywordDict(conv[0]);
    assert conv[..1] == conv;
  }

  /**
   The newsletter always receives converted keywords, which hold no tuple, so
   as written every non-dict list is rendered whole with count 1; the
   corrected version turns list pairs into `{word, count}` entries instead.
   */
  lemma NewsletterKeywordsLost(tk: seq<Value>, render: Value -> string)
    requires |tk| > 0 && NoTuple(List(tk)) && !IsKeywordDict(tk[0])
    ensures |NewsletterKeywords(tk, render)| == Min(15, |tk|)
    ensures forall i :: 0 <= i < Min(15, |tk|) ==> NewsletterKeywords(tk, render)[i] == KeywordEntry(Str(render(tk[i])), Int(1))
    ensures tk[0].List? && |tk[0].items| >= 2 ==> PairsNormalised(tk, NewsletterKeywordsFixed(tk, render))
  {
  }
}

=== FILE: ranking.dfy ===
/**
 Stable descending sort and top-N truncation, as Python's
 `sorted(xs, key=f, reverse=True)[:n]` (which keeps equal-key elements in
 input order) and `Counter.most_common(n)`. Keys are `real`, so integer keys
 are compared through `as real`.
 */
module Ranking {
  import opened Common
  import opened Counters

  /** Keys never increase from left to right. */
  ghost predicate SortedDesc<T>(s: seq<T>, key: T -> real) {
    forall i, j :: 0 <= i < j < |s| ==> key(s[i]) >= key(s[j])
  }

  /** The elements of `s` whose key is `k`, in their order in `s`. */
  function WithKey<T>(s: seq<T>, key: T -> real, k: real): seq<T> {
    if |s| == 0 then []
    else (if key(s[0]) == k then [s[0]] else []) + WithKey(s[1..], key, k)
  }

  /** For every key value, the elements of `r` with that key are a prefix of those of `s`. */
  ghost predicate KeyPrefixes<T>(r: seq<T>, s: seq<T>, key: T -> real) {
    forall k :: WithKey(r, key, k) <= WithKey(s, key, k)
  }

  /**
   For every key value above the last element of `r`, and for every key when
   `r` is as long as `s`, `r` holds all of the elements of `s` with that key.
   */
  ghost predicate KeysAboveKept<T>(r: seq<T>, s: seq<T>, key: T -> real) {
    forall k :: |r| == |s| || (|r| > 0 && k > key(r[|r| - 1])) ==> WithKey(r, key, k) == WithKey(s, key, k)
  }

  /** Every element of a sequence with the elements of `s` and `x` is bounded when those are. */
  lemma BoundedBy<T>(t: seq<T>, s: seq<T>, x: T, key: T -> real, b: real)
    requires multiset(t) == multiset(s) + multiset{x}
    requires key(x) <= b && forall i :: 0 <= i < |s| ==> key(s[i]) <= b
    ensures forall j :: 0 <= j < |t| ==> key(t[j]) <= b
  {
    forall j | 0 <= j < |t| ensures key(t[j]) <= b {
      assert t[j] in multiset(t);
      if t[j] != x {
        assert t[j] in multiset(s);
        var m :| 0 <= m < |s| && s[m] == t[j];
      }
    }
  }

  /** A head no smaller than every later element, followed by a sorted tail, is sorted. */
  lemma SortedCons<T>(h: T, t: seq<T>, key: T -> real)
    requires SortedDesc(t, key) && forall j :: 0 <= j < |t| ==> key(t[j]) <= key(h)
    ensures SortedDesc([h] + t, key)
  {
    var r := [h] + t;
    forall i, j | 0 <= i < j < |r| ensures key(r[i]) >= key(r[j]) {
      assert r[j] == t[j - 1];
      if i > 0 {
        assert r[i] == t[i - 1];
      }
    }
  }

  /** Insert `x` before the first element whose key is not larger than `x`'s. */
  function Insert<T>(x: T, s: seq<T>, key: T -> real): (r: seq<T>)
    ensures multiset(r) == multiset(s) + multiset{x}
    ensures SortedDesc(s, key) ==> SortedDesc(r, key)
  {
    if |s| == 0 || key(s[0]) <= key(x) then
      assert SortedDesc(s, key) ==> SortedDesc([x] + s, key) by {
        if SortedDesc(s, key) {
          SortedCons(x, s, key);
        }
      }
      [x] + s
    else
      var t := Insert(x, s[1..], key);
      assert s == [s[0]] + s[1..];
      assert SortedDesc(s, key) ==> SortedDesc([s[0]] + t, key) by {
        if SortedDesc(s, key) {
          BoundedBy(t, s[1..], x, key, key(s[0]));
          SortedCons(s[0], t, key);
        }
      }
      [s[0]] + t
  }

  /** Stable insertion sort, largest key first. */
  function SortDesc<T>(s: seq<T>, key: T -> real): (r: seq<T>)
    ensures SortedDesc(r, key)
    ensures multiset(r) == multiset(s)
    ensures |r| == |s|
  {
    if |s| == 0 then
      []
    else
      var r := Insert(s[0], SortDesc(s[1..], key), key);
      assert s == [s[0]] + s[1..];
      assert |r| == |multiset(r)|;
      r
  }

  lemma {:induction false} InsertWithKey<T>(x: T, s: seq<T>, key: T -> real, k: real)
    ensures WithKey(Insert(x, s, key), key, k) == WithKey([x] + s, key, k)
  {
    if |s| == 0 || key(s[0]) <= key(x) {
    } else {
      var t := Insert(x, s[1..], key);
      assert Insert(x, s, key) == [s[0]] + t;
      assert ([s[0]] + t)[1..] == t;
      InsertWithKey(x, s[1..], key, k);
      assert ([x] + s)[1..] == s;
      assert ([x] + s[1..])[1..] == s[1..];
    }
  }

  /**
   The sort is stable: for every key value, the elements with that key keep
   their relative input order.
   */
  lemma {:induction false} SortDescStable<T>(s: seq<T>, key: T -> real, k: real)
    ensures WithKey(SortDesc(s, key), key, k) == WithKey(s, key, k)
  {
    if |s| > 0 {
      InsertWithKey(s[0], SortDesc(s[1..], key), key, k);
      SortDescStable(s[1..], key, k);
      assert ([s[0]] + SortDesc(s[1..], key))[1..] == SortDesc(s[1..], key);
    }
  }

  /** Sorting keeps the input order of every group of equal keys. */
  lemma SortDescStableAll<T>(s: seq<T>, key: T -> real)
    ensures forall k :: WithKey(SortDesc(s, key), key, k) == WithKey(s, key, k)
  {
    forall k ensures WithKey(SortDesc(s, key), key, k) == WithKey(s, key, k) {
      SortDescStable(s, key, k);
    }
  }

  /**
   The first `m` elements of a descending rearrangement `t` of `s`. Every
   element of `s` left out has a key no larger than the last one kept.
   */
  function TakeSorted<T>(s: seq<T>, t: seq<T>, key: T -> real, m: nat): (r: seq<T>)
    requires SortedDesc(t, key) && multiset(t) == multiset(s) && m <= |t|
    ensures |r| == m
    ensures SortedDesc(r, key)
    ensures multiset(r) <= multiset(s)
    ensures m == |s| ==> multiset(r) == multiset(s)
    ensures m > 0 ==> forall x :: x in s && multiset(r)[x] < multiset(s)[x] ==> key(x) <= key(r[m - 1])
    ensures r == t[..m]
  {
    var r := t[..m];
    assert t == r + t[m..];
    assert multiset(t) == multiset(r) + multiset(t[m..]);
    assert m > 0 ==> forall x :: x in s && multiset(r)[x] < multiset(s)[x] ==> key(x) <= key(r[m - 1]) by {
      forall x | m > 0 && x in s && multiset(r)[x] < multiset(s)[x] ensures key(x) <= key(r[m - 1]) {
        assert x in multiset(t[m..]);
        var j :| 0 <= j < |t[m..]| && t[m..][j] == x;
        assert t[m + j] == x;
      }
    }
    r
  }

  lemma {:induction false} WithKeyAppend<T>(a: seq<T>, b: seq<T>, key: T -> real, k: real)
    ensures WithKey(a + b, key, k) == WithKey(a, key, k) + WithKey(b, key, k)
  {
    if |a| > 0 {
      assert (a + b)[1..] == a[1..] + b;
      WithKeyAppend(a[1..], b, key, k);
    } else {
      assert a + b == b;
    }
  }

  /** No element has key `k` when all keys lie below it. */
  lemma {:induction false} WithKeyBelow<T>(s: seq<T>, key: T -> real, k: real, b: real)
    requires b < k && forall i :: 0 <= i < |s| ==> key(s[i]) <= b
    ensures WithKey(s, key, k) == []
  {
    if |s| > 0 {
      assert forall i :: 0 <= i < |s[1..]| ==> s[1..][i] == s[i + 1];
      WithKeyBelow(s[1..], key, k, b);
    }
  }

  /**
   The first `m` elements of the stable sort take, for every key, a prefix of
   that key's elements in input order; all of them when nothing is cut or the
   key lies above the last kept one.
   */
  lemma {:induction false} TakeStable<T>(s: seq<T>, key: T -> real, m: nat, k: real)
    requires m <= |s|
    ensures WithKey(SortDesc(s, key)[..m], key, k) <= WithKey(s, key, k)
    ensures m == |s| || (m > 0 && k > key(SortDesc(s, key)[m - 1])) ==>
              WithKey(SortDesc(s, key)[..m], key, k) == WithKey(s, key, k)
  {
    var t := SortDesc(s, key);
    var u := t[m..];
    assert t == t[..m] + u;
    WithKeyAppend(t[..m], u, key, k);
    SortDescStable(s, key, k);
    if m == |s| {
      assert u == [];
    } else if m > 0 && k > key(t[m - 1]) {
      forall i | 0 <= i < |u| ensures key(u[i]) <= key(t[m - 1]) {
        assert u[i] == t[m + i];
      }
      WithKeyBelow(u, key, k, key(t[m - 1]));
    }
  }

  /**
   The first `n` elements of the stable descending sort: Python's
   `sorted(s, key=key, reverse=True)[:n]`. For each key value the kept
   elements are the first ones of that key in input order, and every one of
   them is kept when the key is above the cut.
   */
  function TopN<T>(s: seq<T>, key: T -> real, n: nat): (r: seq<T>)
    ensures |r| == Min(n, |s|)
    ensures SortedDesc(r, key)
    ensures multiset(r) <= multiset(s)
    ensures |r| == |s| ==> multiset(r) == multiset(s)
    ensures |r| > 0 ==> forall x :: x in s && multiset(r)[x] < multiset(s)[x] ==> key(x) <= key(r[|r| - 1])
    ensures KeyPrefixes(r, s, key)
    ensures KeysAboveKept(r, s, key)
  {
    var m := Min(n, |s|);
    var r := TakeSorted(s, SortDesc(s, key), key, m);
    TakeStableAll(s, key, m);
    r
  }

  /** `TakeStable` for every key value at once. */
  lemma {:induction false} TakeStableAll<T>(s: seq<T>, key: T -> real, m: nat)
    requires m <= |s|
    ensures KeyPrefixes(SortDesc(s, key)[..m], s, key)
    ensures KeysAboveKept(SortDesc(s, key)[..m], s, key)
  {
    var t := SortDesc(s, key)[..m];
    assert |t| == m;
    forall k ensures WithKey(t, key, k) <= WithKey(s, key, k)
      && (m == |s| || (m > 0 && k > key(t[m - 1])) ==> WithKey(t, key, k) == WithKey(s, key, k)) {
      TakeStable(s, key, m, k);
    }
  }

  /** Filtering keeps a descending order. */
  lemma {:induction false} FilterSorted<T(!new)>(s: seq<T>, p: T -> bool, key: T -> real)
    requires SortedDesc(s, key)
    ensures SortedDesc(Filter(s, p), key)
  {
    if |s| > 0 {
      var rest := Filter(s[1..], p);
      FilterSorted(s[1..], p, key);
      if p(s[0]) {
        var r := [s[0]] + rest;
        assert Filter(s, p) == r;
        forall j | 0 < j < |r| ensures key(r[0]) >= key(r[j]) {
          assert r[j] == rest[j - 1];
          assert r[j] in multiset(rest);
          var m :| 0 <= m < |s[1..]| && s[1..][m] == r[j];
          assert s[m + 1] == r[j];
        }
      }
    }
  }

  /**
   The top `n` of `s`, then only the elements satisfying `p`: each passing
   element as often as it is among the top `n`. An element satisfying `p`
   is left out only when the top was full and its key is no larger than
   every kept one.
   */
  function TopFiltered<T(!new)>(s: seq<T>, key: T -> real, n: nat, p: T -> bool): (r: seq<T>)
    ensures |r| <= n && |r| <= |s|
    ensures forall i :: 0 <= i < |r| ==> p(r[i]) && r[i] in s
    ensures SortedDesc(r, key)
    ensures forall x :: x in s && p(x) && x !in r ==> n < |s| && forall j :: 0 <= j < |r| ==> key(x) <= key(r[j])
    ensures multiset(r) <= multiset(s)
    ensures KeyPrefixes(r, Filter(s, p), key)
    ensures forall x :: multiset(r)[x] == if p(x) then multiset(TopN(s, key, n))[x] else 0
  {
    var top := TopN(s, key, n);
    var r := Filter(top, p);
    FilterSorted(top, p, key);
    assert multiset(r) <= multiset(s) by {
      forall x ensures multiset(r)[x] <= multiset(s)[x] {
        assert multiset(r)[x] <= multiset(top)[x];
      }
    }
    SubMultisetIn(r, s);
    FilteredPrefixes(top, s, key, p);
    forall x | x in s && p(x) && x !in r ensures n < |s| && forall j :: 0 <= j < |r| ==> key(x) <= key(r[j]) {
      FilteredOmitted(top, s, key, n, p, x);
    }
    r
  }

  /** Filtering commutes with selecting one key value. */
  lemma {:induction false} WithKeyFilter<T(!new)>(t: seq<T>, key: T -> real, k: real, p: T -> bool)
    ensures WithKey(Filter(t, p), key, k) == Filter(WithKey(t, key, k), p)
  {
    if |t| > 0 {
      WithKeyFilter(t[1..], key, k, p);
      var rest := Filter(t[1..], p);
      if p(t[0]) {
        assert Filter(t, p) == [t[0]] + rest;
        assert ([t[0]] + rest)[1..] == rest;
      }
      if key(t[0]) == k {
        FilterAppend([t[0]], WithKey(t[1..], key, k), p);
        FilterSingle(t[0], p);
      } else {
        assert WithKey(t, key, k) == WithKey(t[1..], key, k);
      }
    }
  }

  /** Filtering keeps a prefix a prefix. */
  lemma FilterPrefix<T(!new)>(a: seq<T>, b: seq<T>, p: T -> bool)
    requires a <= b
    ensures Filter(a, p) <= Filter(b, p)
  {
    assert b == a + b[|a|..];
    FilterAppend(a, b[|a|..], p);
  }

  /** Key prefixes survive filtering both sides. */
  lemma FilteredPrefixes<T(!new)>(top: seq<T>, s: seq<T>, key: T -> real, p: T -> bool)
    requires KeyPrefixes(top, s, key)
    ensures KeyPrefixes(Filter(top, p), Filter(s, p), key)
  {
    forall k ensures WithKey(Filter(top, p), key, k) <= WithKey(Filter(s, p), key, k) {
      WithKeyFilter(top, key, k, p);
      WithKeyFilter(s, key, k, p);
      assert WithKey(top, key, k) <= WithKey(s, key, k);
      FilterPrefix(WithKey(top, key, k), WithKey(s, key, k), p);
    }
  }

  /** An element of a descending list is at least as large as the last one. */
  lemma AtLeastLast<T>(t: seq<T>, key: T -> real, y: T)
    requires SortedDesc(t, key) && y in t
    ensures key(y) >= key(t[|t| - 1])
  {
    var i :| 0 <= i < |t| && t[i] == y;
    assert i == |t| - 1 || key(t[i]) >= key(t[|t| - 1]);
  }

  lemma FilteredOmitted<T(!new)>(top: seq<T>, s: seq<T>, key: T -> real, n: nat, p: T -> bool, x: T)
    requires top == TopN(s, key, n)
    requires x in s && p(x) && x !in Filter(top, p)
    ensures n < |s|
    ensures forall j :: 0 <= j < |Filter(top, p)| ==> key(x) <= key(Filter(top, p)[j])
  {
    var r := Filter(top, p);
    assert x in multiset(s);
    assert multiset(top)[x] == 0 by {
      assert x !in multiset(r);
    }
    forall j | 0 <= j < |r| ensures key(x) <= key(r[j]) {
      assert r[j] in multiset(r);
      assert r[j] in multiset(top);
      AtLeastLast(top, key, r[j]);
    }
  }

  /**
   An element of `s` missing from the top `n` means the top is full, and the
   element's key is at most the key of the last one kept.
   */
  lemma OmittedBelowLast<T>(s: seq<T>, key: T -> real, n: nat, x: T)
    requires x in s && x !in TopN(s, key, n) && n > 0
    ensures |TopN(s, key, n)| == n
    ensures key(x) <= key(TopN(s, key, n)[n - 1])
  {
    var r := TopN(s, key, n);
    assert x in multiset(s);
    assert multiset(r)[x] == 0;
  }

  /** `OmittedBelowLast` for the element at index `i`. */
  lemma OmittedAt<T>(s: seq<T>, key: T -> real, n: nat, i: int)
    requires 0 <= i < |s| && s[i] !in TopN(s, key, n) && n > 0
    ensures |TopN(s, key, n)| == n && key(s[i]) <= key(TopN(s, key, n)[n - 1])
  {
    OmittedBelowLast(s, key, n, s[i]);
  }

  function CountKey(e: Entry): real {
    e.count as real
  }

  /**
   `Counter.most_common(n)`, and `sorted(d.items(), key=count, reverse=True)[:n]`:
   the `n` largest counts, ties in insertion order (`KeyPrefixes`).
   */
  function MostCommon(c: Counter, n: nat): (r: seq<Entry>)
    ensures |r| == Min(n, |c|)
    ensures SortedDesc(r, CountKey)
    ensures multiset(r) <= multiset(c)
    ensures forall i :: 0 <= i < |c| && c[i] !in r && n > 0 ==> |r| == n && c[i].count <= r[n - 1].count
    ensures KeyPrefixes(r, c, CountKey) && KeysAboveKept(r, c, CountKey)
  {
    var r := TopN(c, CountKey, n);
    forall i | 0 <= i < |c| && c[i] !in r && n > 0 ensures |r| == n && c[i].count <= r[n - 1].count {
      OmittedAt(c, CountKey, n, i);
    }
    r
  }

  /** In a counter without repeated keys, every reported pair is the key's count. */
  lemma MostCommonCounts(c: Counter, n: nat)
    requires Distinct(c)
    ensures forall i :: 0 <= i < |MostCommon(c, n)| ==> Get(c, MostCommon(c, n)[i].key) == MostCommon(c, n)[i].count
  {
    var r := MostCommon(c, n);
    forall i | 0 <= i < |r| ensures Get(c, r[i].key) == r[i].count {
      assert r[i] in multiset(c);
      var j :| 0 <= j < |c| && c[j] == r[i];
      GetAtIndex(c, j);
    }
  }

  /** An entry left out has a count no larger than the last one reported. */
  lemma MostCommonOmitted(c: Counter, n: nat, i: int)
    requires 0 <= i < |c| && c[i] !in MostCommon(c, n) && n > 0
    ensures |MostCommon(c, n)| == n
    ensures c[i].count <= MostCommon(c, n)[|MostCommon(c, n)| - 1].count
  {
    assert c[i] in c;
    OmittedBelowLast(c, CountKey, n, c[i]);
  }
}

=== FILE: simple.dfy ===
/**
 The simplified forum analyzer: per-user post counting while topic details
 are fetched, the choice of topics to fetch, and `analyze_data`'s totals and
 top-10 rankings of users and categories.
 */
module SimpleAnalyzer {
  import opened Common
  import opened Counters
  import opened Ranking
  import opened ForumData

  /** The analyzer's collected data. */
  datatype State = State(
    categories: seq<Category>,
    topics: seq<Topic>,
    categoryTopics: map<int, seq<Topic>>,
    posts: seq<Post>,
    userActivity: Counter)

  /** How many posts carry a non-empty username. */
  function NamedPosts(posts: seq<Post>): nat {
    if |posts| == 0 then 0 else (if posts[0].username != "" then 1 else 0) + NamedPosts(posts[1..])
  }

  lemma {:induction false} NamedPostsAppend(a: seq<Post>, b: seq<Post>)
    ensures NamedPosts(a + b) == NamedPosts(a) + NamedPosts(b)
  {
    if |a| == 0 {
      assert a + b == b;
    } else {
      assert (a + b)[0] == a[0];
      assert (a + b)[1..] == a[1..] + b;
      NamedPostsAppend(a[1..], b);
    }
  }

  lemma {:induction false} AuthorsCount(posts: seq<Post>)
    ensures |Authors(posts)| == NamedPosts(posts)
  {
    if |posts| > 0 {
      AuthorsCount(posts[1..]);
    }
  }

  /**
   The user-activity counter holds distinct, positive entries and its total is
   the number of collected posts with a username.
   */
  ghost predicate Consistent(st: State) {
    Distinct(st.userActivity) && Positive(st.userActivity) && Total(st.userActivity) == NamedPosts(st.posts)
  }

  /** The empty analyzer. */
  function Fresh(): (st: State)
    ensures Consistent(st)
  {
    State([], [], map[], [], [])
  }

  /**
   The bookkeeping half of `fetch_topic_details`: when the topic has posts,
   append them and add 1 to the activity of each post's non-empty username.
   */
  function RecordPosts(st: State, posts: seq<Post>): (r: State)
    ensures |posts| == 0 ==> r == st
    ensures r.posts == st.posts + posts
    ensures forall u :: u != "" ==> Get(r.userActivity, u) == Get(st.userActivity, u) + multiset(Usernames(posts))[u]
    ensures Get(r.userActivity, "") == Get(st.userActivity, "")
    ensures Total(r.userActivity) == Total(st.userActivity) + NamedPosts(posts)
    ensures r.categories == st.categories && r.topics == st.topics && r.categoryTopics == st.categoryTopics
  {
    if |posts| == 0 then
      assert st.posts + posts == st.posts;
      st
    else
      AuthorsCount(posts);
      st.(posts := st.posts + posts, userActivity := CountAuthors(st.userActivity, posts))
  }

  /** Recording posts keeps the activity total equal to the number of named posts. */
  lemma RecordPostsConsistent(st: State, posts: seq<Post>)
    requires Consistent(st)
    ensures Consistent(RecordPosts(st, posts))
  {
    NamedPostsAppend(st.posts, posts);
  }

  /** `self.topics[:max_topics_details]`: the first topics in fetch order, not re-ranked. */
  function DetailTopics(topics: seq<Topic>, maxDetails: nat): (r: seq<Topic>)
    ensures |r| == Min(maxDetails, |topics|)
    ensures forall i :: 0 <= i < |r| ==> r[i] == topics[i]
  {
    topics[..Min(maxDetails, |topics|)]
  }

  /** The ids whose details are fetched: those of the leading topics, falsy ones skipped. */
  function DetailIds(topics: seq<Topic>, maxDetails: nat): (r: seq<int>)
    ensures |r| == |Filter(DetailTopics(topics, maxDetails), HasId)|
    ensures forall k :: 0 <= k < |r| ==> r[k] == Filter(DetailTopics(topics, maxDetails), HasId)[k].id
    ensures |r| <= maxDetails && |r| <= |topics|
    ensures forall k :: 0 <= k < |r| ==> r[k] != 0
    ensures forall i :: 0 <= i < Min(maxDetails, |topics|) && topics[i].id != 0 ==> topics[i].id in r
    ensures forall k :: 0 <= k < |r| ==> exists i :: 0 <= i < Min(maxDetails, |topics|) && topics[i].id == r[k]
  {
    var ts := DetailTopics(topics, maxDetails);
    IdsOf(ts)
  }

  function IdOf(t: Topic): int {
    t.id
  }

  /** The truthy ids of `ts`, one per topic, in order (the loop's `continue` on a falsy id). */
  function IdsOf(ts: seq<Topic>): (r: seq<int>)
    ensures |r| == |Filter(ts, HasId)|
    ensures forall k :: 0 <= k < |r| ==> r[k] == Filter(ts, HasId)[k].id
    ensures |r| <= |ts|
    ensures forall k :: 0 <= k < |r| ==> r[k] != 0
    ensures forall i :: 0 <= i < |ts| && ts[i].id != 0 ==> ts[i].id in r
    ensures forall k :: 0 <= k < |r| ==> exists i :: 0 <= i < |ts| && ts[i].id == r[k]
  {
    var kept := Filter(ts, HasId);
    var r := Map(kept, IdOf);
    assert forall i :: 0 <= i < |ts| && ts[i].id != 0 ==> ts[i].id in r by {
      forall i | 0 <= i < |ts| && ts[i].id != 0 ensures ts[i].id in r {
        InFilter(ts, HasId, ts[i]);
        KeptIdIn(kept, ts[i]);
      }
    }
    assert forall k :: 0 <= k < |r| ==> exists i :: 0 <= i < |ts| && ts[i].id == r[k] by {
      forall k | 0 <= k < |r| ensures exists i :: 0 <= i < |ts| && ts[i].id == r[k] {
        FilterIn(ts, HasId, kept[k]);
        var i :| 0 <= i < |ts| && ts[i] == kept[k];
      }
    }
    r
  }

  lemma KeptIdIn(kept: seq<Topic>, t: Topic)
    requires t in kept
    ensures t.id in Map(kept, IdOf)
  {
    var j :| 0 <= j < |kept| && kept[j] == t;
    assert Map(kept, IdOf)[j] == t.id;
  }

  /** The last category with a truthy id whose display name is `name`. */
  function LastNamed(cats: seq<Category>, name: string): Option<Category> {
    if |cats| == 0 then None
    else
      var c := cats[|cats| - 1];
      if c.id != 0 && DisplayName(c) == name then Some(c) else LastNamed(cats[..|cats| - 1], name)
  }

  /**
   The `category_activity` dict: for each category with a truthy id, its
   display name maps to the number of topics fetched for its id; a repeated
   name overwrites the earlier value in place.
   */
  function CategoryCounts(cats: seq<Category>, categoryTopics: map<int, seq<Topic>>): (r: Counter)
    ensures Distinct(r)
    ensures forall name :: name in Keys(r) <==> LastNamed(cats, name).Some?
  {
    if |cats| == 0 then []
    else
      var pre := CategoryCounts(cats[..|cats| - 1], categoryTopics);
      var c := cats[|cats| - 1];
      if c.id != 0 then Put(pre, DisplayName(c), |TopicsOf(categoryTopics, c.id)|) else pre
  }

  /** A name's value is the topic count of the last truthy category carrying that name, and 0 for other names. */
  lemma {:induction false} CategoryCountsLast(cats: seq<Category>, categoryTopics: map<int, seq<Topic>>, name: string)
    ensures Get(CategoryCounts(cats, categoryTopics), name) ==
            match LastNamed(cats, name)
            case None => 0
            case Some(c) => |TopicsOf(categoryTopics, c.id)|
  {
    if |cats| > 0 {
      CategoryCountsLast(cats[..|cats| - 1], categoryTopics, name);
      var c := cats[|cats| - 1];
      if c.id != 0 {
        var pre := CategoryCounts(cats[..|cats| - 1], categoryTopics);
        assert CategoryCounts(cats, categoryTopics) == Put(pre, DisplayName(c), |TopicsOf(categoryTopics, c.id)|);
      }
    } else {
      assert CategoryCounts(cats, categoryTopics) == [];
    }
  }

  /** The 10 most active users, by post count. */
  function TopUsers(activity: Counter): (r: seq<Entry>)
    requires Distinct(activity)
    ensures |r| == Min(10, |activity|)
    ensures SortedDesc(r, CountKey)
    ensures multiset(r) <= multiset(activity)
    ensures KeyPrefixes(r, activity, CountKey)
    ensures forall i :: 0 <= i < |activity| && activity[i] !in r ==> |r| == 10 && activity[i].count <= r[9].count
    ensures forall i :: 0 <= i < |r| ==> Get(activity, r[i].key) == r[i].count
  {
    MostCommonCounts(activity, 10);
    MostCommon(activity, 10)
  }

  /** The 10 categories with the most fetched topics. */
  function TopCategories(cats: seq<Category>, categoryTopics: map<int, seq<Topic>>): (r: seq<Entry>)
    ensures |r| == Min(10, |CategoryCounts(cats, categoryTopics)|)
    ensures multiset(r) <= multiset(CategoryCounts(cats, categoryTopics))
    ensures KeyPrefixes(r, CategoryCounts(cats, categoryTopics), CountKey)
    ensures SortedDesc(r, CountKey)
    ensures forall i :: 0 <= i < |CategoryCounts(cats, categoryTopics)| && CategoryCounts(cats, categoryTopics)[i] !in r ==>
              |r| == 10 && CategoryCounts(cats, categoryTopics)[i].count <= r[9].count
    ensures forall i :: 0 <= i < |r| ==> Get(CategoryCounts(cats, categoryTopics), r[i].key) == r[i].count
  {
    var counts := CategoryCounts(cats, categoryTopics);
    MostCommonCounts(counts, 10);
    MostCommon(counts, 10)
  }

  datatype Report = Report(
    totalCategories: nat,
    totalTopics: nat,
    totalPosts: nat,
    totalUsers: nat,
    topUsers: seq<Entry>,
    topCategories: seq<Entry>)

  /** `analyze_data`: None without topics or posts, otherwise the totals and the two rankings. */
  function AnalyzeData(st: State): (r: Option<Report>)
    requires Consistent(st)
    ensures r.None? <==> |st.topics| == 0 || |st.posts| == 0
    ensures r.Some? ==> r.value.totalCategories == |st.categories| && r.value.totalTopics == |st.topics|
                        && r.value.totalPosts == |st.posts| && r.value.totalUsers == |Keys(st.userActivity)|
    ensures r.Some? ==> |r.value.topUsers| <= 10 && SortedDesc(r.value.topUsers, CountKey)
    ensures r.Some? ==> forall i :: 0 <= i < |r.value.topUsers| ==> Get(st.userActivity, r.value.topUsers[i].key) == r.value.topUsers[i].count
    ensures r.Some? ==> |r.value.topCategories| <= 10 && SortedDesc(r.value.topCategories, CountKey)
    ensures r.Some? ==> r.value.topUsers == TopUsers(st.userActivity)
    ensures r.Some? ==> r.value.topCategories == TopCategories(st.categories, st.categoryTopics)
  {
    if |st.topics| == 0 || |st.posts| == 0 then
      None
    else
      DistinctSize(st.userActivity);
      Some(Report(|st.categories|, |st.topics|, |st.posts|, |st.userActivity|,
                  TopUsers(st.userActivity), TopCategories(st.categories, st.categoryTopics)))
  }
}

=== FILE: text.dfy ===
/**
 Character classes and string helpers shared by the analyzers.
 Python's `\w`, `\s`, `str.lower` and `str.upper` are Unicode-aware; here they
 are restricted to ASCII.
 */
module Text {
  import opened Common

  predicate IsDigit(c: char) {
    '0' <= c <= '9'
  }

  predicate IsLetter(c: char) {
    ('a' <= c <= 'z') || ('A' <= c <= 'Z')
  }

  /** The regular-expression class `\w`: letters, digits and underscore. */
  predicate IsWordChar(c: char) {
    IsLetter(c) || IsDigit(c) || c == '_'
  }

  /** The regular-expression class `\s`: space, tab, newline, vertical tab, form feed, return. */
  predicate IsSpaceChar(c: char) {
    c == ' ' || (9 <= c as int <= 13)
  }

  function LowerChar(c: char): (d: char)
    ensures 'A' <= c <= 'Z' ==> 'a' <= d <= 'z'
    ensures !('A' <= c <= 'Z') ==> d == c
  {
    if 'A' <= c <= 'Z' then (c as int + 32) as char else c
  }

  /** `s.lower()`. */
  function Lower(s: string): (r: string)
    ensures |r| == |s|
    ensures forall i :: 0 <= i < |s| ==> r[i] == LowerChar(s[i])
  {
    seq(|s|, i requires 0 <= i < |s| => LowerChar(s[i]))
  }

  predicate StartsWith(t: string, p: string) {
    |p| <= |t| && t[..|p|] == p
  }

  /** Python's `p in t` on strings: `p` occurs somewhere in `t` (the empty string occurs everywhere). */
  predicate Contains(p: string, t: string)
    decreases |t|
  {
    StartsWith(t, p) || (|t| > 0 && Contains(p, t[1..]))
  }

  /** `p` occurs in `t` at position `i`. */
  ghost predicate OccursAt(p: string, t: string, i: int) {
    0 <= i && i + |p| <= |t| && t[i..i + |p|] == p
  }

  /** A containment found by `Contains` is an occurrence at some position. */
  lemma {:induction false} ContainsOccurs(p: string, t: string)
    requires Contains(p, t)
    ensures exists i :: OccursAt(p, t, i)
    decreases |t|
  {
    if StartsWith(t, p) {
      assert OccursAt(p, t, 0);
    } else {
      ContainsOccurs(p, t[1..]);
      var j :| OccursAt(p, t[1..], j);
      assert t[1..][j..j + |p|] == t[j + 1..j + 1 + |p|];
      assert OccursAt(p, t, j + 1);
    }
  }

  /** An occurrence at any position is found by `Contains`. */
  lemma {:induction false} OccursContains(p: string, t: string, i: int)
    requires OccursAt(p, t, i)
    ensures Contains(p, t)
    decreases |t|
  {
    if i == 0 {
      assert StartsWith(t, p);
    } else {
      assert t[1..][i - 1..i - 1 + |p|] == t[i..i + |p|];
      OccursContains(p, t[1..], i - 1);
    }
  }

  /** `Contains` is substring containment. */
  lemma ContainsIffOccurs(p: string, t: string)
    ensures Contains(p, t) <==> exists i :: OccursAt(p, t, i)
  {
    if Contains(p, t) {
      ContainsOccurs(p, t);
    }
    if exists i :: OccursAt(p, t, i) {
      var i :| OccursAt(p, t, i);
      OccursContains(p, t, i);
    }
  }

  /** Any one of `ps` occurs in `t` (Python's `any(p in t for p in ps)`). */
  predicate ContainsAny(ps: seq<string>, t: string) {
    exists k :: 0 <= k < |ps| && Contains(ps[k], t)
  }

  function DigitChar(d: int): (c: char)
    requires 0 <= d < 10
    ensures IsDigit(c)
  {
    ('0' as int + d) as char
  }

  function DigitValue(c: char): int
    requires IsDigit(c)
  {
    c as int - '0' as int
  }

  predicate AllDigits(s: string) {
    forall i :: 0 <= i < |s| ==> IsDigit(s[i])
  }

  /** Decimal rendering of a natural number, as Python's `str(n)`. */
  function NatToDecimal(n: nat): (s: string)
    ensures |s| >= 1 && AllDigits(s)
    decreases n
  {
    if n < 10 then [DigitChar(n)] else NatToDecimal(n / 10) + [DigitChar(n % 10)]
  }

  /** Decimal rendering of an integer, as Python's `str(n)` or `f"{n}"`. */
  function IntToDecimal(n: int): (s: string)
    ensures |s| >= 1
    ensures n >= 0 <==> AllDigits(s)
    ensures n < 0 <==> s[0] == '-'
  {
    if n < 0 then
      var s := "-" + NatToDecimal(-n);
      assert !IsDigit(s[0]);
      s
    else
      NatToDecimal(n)
  }

  /** The value of a run of decimal digits. */
  function DigitsValue(s: string): nat
    requires AllDigits(s)
  {
    if |s| == 0 then 0 else DigitsValue(s[..|s| - 1]) * 10 + DigitValue(s[|s| - 1])
  }

  lemma {:induction false} DigitsValueOfDecimal(n: nat)
    ensures DigitsValue(NatToDecimal(n)) == n
    decreases n
  {
    if n >= 10 {
      var s := NatToDecimal(n);
      assert s[..|s| - 1] == NatToDecimal(n / 10);
      DigitsValueOfDecimal(n / 10);
    }
  }

  /** Leading and trailing whitespace removed, as Python's `str.strip()`. */
  function Strip(s: string): (r: string)
    ensures |r| <= |s|
    ensures |r| > 0 ==> !IsSpaceChar(r[0]) && !IsSpaceChar(r[|r| - 1])
    ensures (|s| == 0 || (!IsSpaceChar(s[0]) && !IsSpaceChar(s[|s| - 1]))) ==> r == s
    decreases |s|
  {
    if |s| == 0 then s
    else if IsSpaceChar(s[0]) then Strip(s[1..])
    else if IsSpaceChar(s[|s| - 1]) then Strip(s[..|s| - 1])
    else s
  }

  /**
   A run of digits in Python's integer-literal grouping: at least one digit,
   starting and ending with a digit, single underscores allowed between
   digits (`"1_000"`).
   */
  predicate DigitGroups(s: string) {
    |s| > 0 && IsDigit(s[0]) && IsDigit(s[|s| - 1])
    && (forall i :: 0 <= i < |s| ==> IsDigit(s[i]) || s[i] == '_')
    && forall i, j :: 0 <= i < j < |s| && j <= i + 1 ==> IsDigit(s[i]) || IsDigit(s[j])
  }

  /** The characters of `s` other than underscores, in order. */
  function Ungrouped(s: string): (r: string)
    ensures (forall i :: 0 <= i < |s| ==> IsDigit(s[i]) || s[i] == '_') ==> AllDigits(r)
    ensures AllDigits(s) ==> r == s
  {
    if |s| == 0 then []
    else (if s[0] == '_' then [] else [s[0]]) + Ungrouped(s[1..])
  }

  /**
   Python's `int(s)` on a string: optional surrounding whitespace, an optional
   sign and decimal digits, grouped by single underscores; anything else is a
   `ValueError` (None).
   */
  function ParseInt(s: string): Option<int> {
    var t := Strip(s);
    if |t| > 1 && (t[0] == '-' || t[0] == '+') && DigitGroups(t[1..]) then
      var v: int := GroupedValue(t[1..]);
      Some(if t[0] == '-' then -v else v)
    else if DigitGroups(t) then
      Some(GroupedValue(t))
    else
      None
  }

  /** The value of a grouped literal: its digits with the underscores dropped. */
  function GroupedValue(s: string): (v: nat)
    requires DigitGroups(s)
    ensures AllDigits(s) ==> v == DigitsValue(s)
  {
    GroupsDigits(s);
    assert AllDigits(s) ==> Ungrouped(s) == s;
    DigitsValue(Ungrouped(s))
  }

  lemma GroupsDigits(s: string)
    requires DigitGroups(s)
    ensures AllDigits(Ungrouped(s))
  {
  }

  /** A plain run of digits is a grouped literal standing for itself. */
  lemma PlainGroups(d: string)
    requires |d| > 0 && AllDigits(d)
    ensures DigitGroups(d) && Ungrouped(d) == d
  {
  }

  /** A grouped literal reads as its digits with the underscores dropped: `int("1_0") == 10`. */
  lemma ParseIntGrouped()
    ensures ParseInt("1_0") == Some(10)
  {
    assert Strip("1_0") == "1_0";
    assert DigitGroups("1_0");
    assert Ungrouped("1_0") == "10" by {
      assert "1_0"[1..] == "_0";
      assert "_0"[1..] == "0";
    }
    assert DigitsValue("10") == 10 by {
      assert "10"[..1] == "1";
    }
  }

  /** Doubled, leading and trailing underscores are rejected. */
  lemma ParseIntBadGroups()
    ensures ParseInt("1__0").None? && ParseInt("_1").None? && ParseInt("1_").None?
  {
    assert Strip("1__0") == "1__0";
    assert !DigitGroups("1__0") by {
      assert !IsDigit("1__0"[1]) && !IsDigit("1__0"[2]);
    }
    assert Strip("_1") == "_1";
    assert Strip("1_") == "1_";
  }

  /** A plain run of digits parses as its value. */
  lemma ParseIntPlain(d: string)
    requires |d| > 0 && AllDigits(d)
    ensures ParseInt(d) == Some(DigitsValue(d))
  {
    PlainGroups(d);
    ParseIntUnsigned(d);
  }

  /** A plain run of digits with a minus sign in front parses as its negation. */
  lemma ParseIntNegative(d: string)
    requires |d| > 0 && AllDigits(d)
    ensures ParseInt("-" + d) == Some(-(DigitsValue(d) as int))
  {
    PlainGroups(d);
    ParseIntSigned(d);
  }

  /** A grouped literal parses as its value. */
  lemma ParseIntUnsigned(d: string)
    requires DigitGroups(d)
    ensures ParseInt(d) == Some(GroupedValue(d))
  {
    assert !IsSpaceChar(d[0]) && !IsSpaceChar(d[|d| - 1]);
    assert Strip(d) == d;
    assert d[0] != '-' && d[0] != '+';
  }

  /** A minus sign in front of a grouped literal negates its value. */
  lemma ParseIntSigned(d: string)
    requires DigitGroups(d)
    ensures ParseInt("-" + d) == Some(-(GroupedValue(d) as int))
  {
    var m := "-" + d;
    assert m[0] == '-' && m[1..] == d;
    assert Strip(m) == m;
  }

  /** Rendering an integer and parsing it back gives the integer. */
  lemma ParseIntOfDecimal(n: int)
    ensures ParseInt(IntToDecimal(n)) == Some(n)
  {
    var d := NatToDecimal(if n < 0 then -n else n);
    DigitsValueOfDecimal(if n < 0 then -n else n);
    if n < 0 {
      ParseIntNegative(d);
      assert IntToDecimal(n) == "-" + d;
    } else {
      ParseIntPlain(d);
      assert IntToDecimal(n) == d;
    }
  }
}

=== FILE: text_signals.dfy ===
/**
 The per-post text signals of the community analyzer: HTML tag removal,
 `@username` mentions and keyword extraction.
 */
module TextSignals {
  import opened Common
  import opened Text
  import opened Counters

  // ---------------------------------------------------------------------
  // Tag removal: `re.sub(r'<[^>]+>', ' ', content)`

  /** The position of the first `>` in `s`, if any. */
  function FirstClose(s: string): (r: Option<nat>)
    ensures r.Some? ==> r.value < |s| && s[r.value] == '>'
    ensures r.Some? ==> forall k :: 0 <= k < r.value ==> s[k] != '>'
    ensures r.None? <==> forall k :: 0 <= k < |s| ==> s[k] != '>'
  {
    if |s| == 0 then None
    else if s[0] == '>' then Some(0)
    else
      var t := FirstClose(s[1..]);
      assert forall k :: 0 < k < |s| ==> s[k] == s[1..][k - 1];
      if t.Some? then Some(t.value + 1) else None
  }

  /**
   A tag `<[^>]+>` starts at the front of `s`: a `<`, at least one character
   other than `>`, then `>`. The regular expression's greedy `[^>]+` always
   stops at the first `>`.
   */
  predicate StartsTag(s: string) {
    |s| > 0 && s[0] == '<' && FirstClose(s[1..]).Some? && FirstClose(s[1..]).value >= 1
  }

  /** The length of the tag at the front of `s`. */
  function TagLength(s: string): (n: nat)
    requires StartsTag(s)
    ensures 3 <= n <= |s| && s[n - 1] == '>'
  {
    FirstClose(s[1..]).value + 2
  }

  /** Every tag replaced by one space, scanning left to right. */
  function StripTags(s: string): (r: string)
    ensures |r| <= |s|
    decreases |s|
  {
    if |s| == 0 then []
    else if StartsTag(s) then " " + StripTags(s[TagLength(s)..])
    else [s[0]] + StripTags(s[1..])
  }

  /** No tag starts anywhere in `s`. */
  predicate NoTag(s: string)
    decreases |s|
  {
    |s| == 0 || (!StartsTag(s) && NoTag(s[1..]))
  }

  lemma {:induction false} StripKeepsNoClose(s: string)
    requires forall k :: 0 <= k < |s| ==> s[k] != '>'
    ensures forall k :: 0 <= k < |StripTags(s)| ==> StripTags(s)[k] != '>'
    decreases |s|
  {
    if |s| > 0 {
      assert !StartsTag(s) by {
        assert forall k :: 0 <= k < |s[1..]| ==> s[1..][k] != '>';
      }
      StripKeepsNoClose(s[1..]);
      assert StripTags(s) == [s[0]] + StripTags(s[1..]);
    }
  }

  /** The output of `StripTags` contains no tag: one substitution pass leaves nothing to match. */
  lemma {:induction false} StripTagsClean(s: string)
    ensures NoTag(StripTags(s))
    decreases |s|
  {
    if |s| == 0 {
    } else if StartsTag(s) {
      var rest := StripTags(s[TagLength(s)..]);
      StripTagsClean(s[TagLength(s)..]);
      assert (" " + rest)[1..] == rest;
    } else {
      var rest := StripTags(s[1..]);
      var r := [s[0]] + rest;
      StripTagsClean(s[1..]);
      assert r[1..] == rest;
      if s[0] == '<' {
        if FirstClose(s[1..]).None? {
          StripKeepsNoClose(s[1..]);
          assert FirstClose(r[1..]).None?;
        } else {
          assert s[1] == '>';
          assert !StartsTag(s[1..]);
          assert rest == [s[1]] + StripTags(s[2..]);
          assert FirstClose(r[1..]) == Some(0);
        }
      }
    }
  }

  /** Text without tags passes through unchanged. */
  lemma {:induction false} StripTagsFixed(s: string)
    requires NoTag(s)
    ensures StripTags(s) == s
    decreases |s|
  {
    if |s| > 0 {
      StripTagsFixed(s[1..]);
      assert s == [s[0]] + s[1..];
    }
  }

  /** Removing tags twice is the same as removing them once. */
  lemma StripTagsIdempotent(s: string)
    ensures StripTags(StripTags(s)) == StripTags(s)
  {
    StripTagsClean(s);
    StripTagsFixed(StripTags(s));
  }

  // ---------------------------------------------------------------------
  // Mentions: `re.findall(r'@(\w+)', clean_content)`

  /** The length of the longest prefix of `s` made of word characters. */
  function WordRun(s: string): (n: nat)
    ensures n <= |s|
    ensures forall k :: 0 <= k < n ==> IsWordChar(s[k])
    ensures n < |s| ==> !IsWordChar(s[n])
  {
    if |s| == 0 || !IsWordChar(s[0]) then 0
    else
      var n := WordRun(s[1..]) + 1;
      assert forall k :: 0 < k < |s| ==> s[k] == s[1..][k - 1];
      n
  }

  /** A mention starts at the front of `s`: `@` followed by a word character. */
  predicate StartsMention(s: string) {
    |s| >= 2 && s[0] == '@' && IsWordChar(s[1])
  }

  /** The captured name of the mention at the front of `s`. */
  function MentionName(s: string): (m: string)
    requires StartsMention(s)
    ensures |m| >= 1 && forall k :: 0 <= k < |m| ==> IsWordChar(m[k])
  {
    s[1..1 + WordRun(s[1..])]
  }

  /**
   The non-overlapping scan of `findall`: after a match the search resumes
   right after the captured name, otherwise one character further on.
   */
  function Mentions(s: string): (r: seq<string>)
    decreases |s|
  {
    if |s| == 0 then []
    else if StartsMention(s) then [MentionName(s)] + Mentions(s[1 + |MentionName(s)|..])
    else Mentions(s[1..])
  }

  /** Reference definition: one captured name for every position where `@` is followed by a word character. */
  function MentionsAt(s: string): seq<string>
    decreases |s|
  {
    if |s| == 0 then []
    else (if StartsMention(s) then [MentionName(s)] else []) + MentionsAt(s[1..])
  }

  lemma {:induction false} SkipWord(s: string, k: nat)
    requires k <= |s| && forall i :: 0 <= i < k ==> IsWordChar(s[i])
    ensures MentionsAt(s) == MentionsAt(s[k..])
    decreases k
  {
    if k > 0 {
      assert !StartsMention(s);
      assert s[1..][k - 1..] == s[k..];
      SkipWord(s[1..], k - 1);
    }
  }

  /**
   The scan finds exactly the mentions at every `@`: a name can never contain
   another `@`, so skipping over it loses nothing.
   */
  lemma {:induction false} MentionsComplete(s: string)
    ensures Mentions(s) == MentionsAt(s)
    decreases |s|
  {
    if |s| > 0 {
      if StartsMention(s) {
        var n := |MentionName(s)|;
        MentionsComplete(s[1 + n..]);
        assert s[1..][n..] == s[1 + n..];
        SkipWord(s[1..], n);
      } else {
        MentionsComplete(s[1..]);
      }
    }
  }

  /** The mentions of a post: tags removed first, then every `@name` counted once. */
  function PostMentions(cooked: string): (r: seq<string>)
    ensures r == MentionsAt(StripTags(cooked))
    ensures forall i :: 0 <= i < |r| ==> |r[i]| >= 1 && forall k :: 0 <= k < |r[i]| ==> IsWordChar(r[i][k])
  {
    var m := Mentions(StripTags(cooked));
    MentionsComplete(StripTags(cooked));
    assert forall i :: 0 <= i < |m| ==> |m[i]| >= 1 && forall k :: 0 <= k < |m[i]| ==> IsWordChar(m[i][k]) by {
      NamesAreWords(StripTags(cooked));
    }
    m
  }

  lemma {:induction false} NamesAreWords(s: string)
    ensures forall i :: 0 <= i < |MentionsAt(s)| ==>
      |MentionsAt(s)[i]| >= 1 && forall k :: 0 <= k < |MentionsAt(s)[i]| ==> IsWordChar(MentionsAt(s)[i][k])
    decreases |s|
  {
    if |s| > 0 {
      NamesAreWords(s[1..]);
    }
  }

  // ---------------------------------------------------------------------
  // Keywords

  /** Lower-case, then every character that is neither `\w` nor `\s` becomes a space. */
  function Normalise(text: string): (r: string)
    ensures |r| == |text|
    ensures forall i :: 0 <= i < |r| ==> IsWordChar(r[i]) || IsSpaceChar(r[i])
    ensures forall i :: 0 <= i < |r| ==> !IsLetter(text[i]) || r[i] == LowerChar(text[i])
    ensures forall i :: 0 <= i < |r| ==> !('A' <= r[i] <= 'Z')
  {
    var low := Lower(text);
    seq(|low|, i requires 0 <= i < |low| => if IsWordChar(low[i]) || IsSpaceChar(low[i]) then low[i] else ' ')
  }

  /** Words always counted when they survive the stopword and length filter. */
  const TechnicalTerms: seq<string> := [
    "polkadot", "kusama", "parachain", "parathread", "substrate", "governance",
    "referendum", "proposal", "validator", "nominator", "collator", "staking",
    "xcm", "opengl", "relay", "ausd", "chain", "wallet", "token", "dotsama",
    "web3", "blockchain"]

  /**
   A token is counted when it passes both filters in turn: not a stopword and
   longer than 3 characters, then a technical term or longer than 4.
   */
  predicate Counted(w: string, stop: set<string>) {
    w !in stop && |w| > 3 && (w in TechnicalTerms || |w| > 4)
  }

  /** The tokens that survive both filters, in order. */
  function KeywordTokens(tokens: seq<string>, stop: set<string>): (r: seq<string>)
    ensures forall i :: 0 <= i < |r| ==> Counted(r[i], stop)
    ensures forall w :: multiset(r)[w] == if Counted(w, stop) then multiset(tokens)[w] else 0
  {
    Filter(tokens, w => Counted(w, stop))
  }

  /**
   `extract_keywords`: normalise, tokenize (the tokenizer is a parameter),
   filter, and add each surviving token to the keyword counter.
   */
  function ExtractKeywords(keywords: Counter, text: string, tokenize: string -> seq<string>, stop: set<string>): (r: Counter)
    ensures forall w :: Get(r, w) == Get(keywords, w) + if Counted(w, stop) then multiset(tokenize(Normalise(text)))[w] else 0
    ensures Distinct(keywords) ==> Distinct(r)
    ensures forall w :: w in Keys(r) - Keys(keywords) ==> Counted(w, stop)
  {
    var ks := KeywordTokens(tokenize(Normalise(text)), stop);
    var r := AddAll(keywords, ks);
    AddAllKeeps(keywords, ks);
    AddAllKeys(keywords, ks);
    assert forall w :: w in Keys(r) - Keys(keywords) ==> Counted(w, stop) by {
      forall w | w in Keys(r) - Keys(keywords) ensures Counted(w, stop) {
        var i :| 0 <= i < |ks| && ks[i] == w;
      }
    }
    r
  }

  /** A kept token has more than 3 characters: "xcm" is listed as a technical term but is never counted. */
  lemma ShortTokensDropped(w: string, stop: set<string>)
    requires |w| <= 3
    ensures !Counted(w, stop)
  {
  }

  /** The only 4-character tokens that can be counted are the technical terms "ausd" and "web3". */
  lemma FourCharTerms(w: string, stop: set<string>)
    requires |w| == 4 && Counted(w, stop)
    ensures w == "ausd" || w == "web3"
  {
    assert w in TechnicalTerms;
  }

  /** The counts after several posts do not depend on the order the posts are read in. */
  lemma KeywordsCommute(c: Counter, a: string, b: string, tokenize: string -> seq<string>, stop: set<string>)
    ensures forall w ::
              Get(ExtractKeywords(ExtractKeywords(c, a, tokenize, stop), b, tokenize, stop), w)
              == Get(ExtractKeywords(ExtractKeywords(c, b, tokenize, stop), a, tokenize, stop), w)
  {
  }

  // ---------------------------------------------------------------------
  // A post

  /** The signals of one post: its mentions and its keywords, added to the running counters. */
  datatype Signals = Signals(mentions: Counter, keywords: Counter)

  /** `analyze_post_content`: strip tags, count mentions, then extract keywords from the stripped text. */
  function AnalyzePost(sig: Signals, cooked: string, tokenize: string -> seq<string>, stop: set<string>): (r: Signals)
    ensures forall u :: Get(r.mentions, u) == Get(sig.mentions, u) + multiset(MentionsAt(StripTags(cooked)))[u]
    ensures forall w :: Get(r.keywords, w) == Get(sig.keywords, w) + if Counted(w, stop) then multiset(tokenize(Normalise(StripTags(cooked))))[w] else 0
    ensures Distinct(sig.mentions) ==> Distinct(r.mentions)
    ensures Distinct(sig.keywords) ==> Distinct(r.keywords)
  {
    var clean := StripTags(cooked);
    AddAllKeeps(sig.mentions, PostMentions(cooked));
    Signals(AddAll(sig.mentions, PostMentions(cooked)), ExtractKeywords(sig.keywords, clean, tokenize, stop))
  }
}

=== FILE: timeline.dfy ===
/**
 The daily activity timeline: post timestamps floored to the day, counted per
 day and listed in ascending day order (pandas `floor('D').value_counts()
 .sort_index()`). A day is an integer day number; parsing an ISO timestamp and
 flooring it is the parameter `parseDay`, which gives None where
 `fromisoformat` raises.
 */
module Timeline {
  import opened Common
  import opened ForumData

  datatype DayCount = DayCount(day: int, count: nat)

  /** Day numbers strictly increase along the list. */
  ghost predicate Ascending(t: seq<DayCount>) {
    forall i, j :: 0 <= i < j < |t| ==> t[i].day < t[j].day
  }

  /** Every listed day has at least one timestamp. */
  ghost predicate CountsPositive(t: seq<DayCount>) {
    forall i :: 0 <= i < |t| ==> t[i].count >= 1
  }

  /** The count listed for day `d`, or 0. */
  function CountOn(t: seq<DayCount>, d: int): nat {
    if |t| == 0 then 0 else if t[0].day == d then t[0].count else CountOn(t[1..], d)
  }

  function Days(t: seq<DayCount>): set<int> {
    if |t| == 0 then {} else {t[0].day} + Days(t[1..])
  }

  function TotalCount(t: seq<DayCount>): int {
    if |t| == 0 then 0 else t[0].count + TotalCount(t[1..])
  }

  /** In an ascending list, a day smaller than the first listed day has count 0. */
  lemma {:induction false} CountBelow(t: seq<DayCount>, d: int)
    requires Ascending(t) && (|t| == 0 || d < t[0].day)
    ensures CountOn(t, d) == 0 && d !in Days(t)
  {
    if |t| > 0 {
      CountBelow(t[1..], d);
    }
  }

  /** Count one more timestamp on day `d`, keeping the list ascending. */
  function Bump(t: seq<DayCount>, d: int): (r: seq<DayCount>)
    requires Ascending(t)
    ensures Ascending(r)
    ensures CountOn(r, d) == CountOn(t, d) + 1
    ensures forall e :: e != d ==> CountOn(r, e) == CountOn(t, e)
    ensures Days(r) == Days(t) + {d}
    ensures TotalCount(r) == TotalCount(t) + 1
    ensures CountsPositive(t) ==> CountsPositive(r)
    ensures |r| > 0 && (|t| == 0 || r[0].day == Min(d, t[0].day))
  {
    if |t| == 0 then
      [DayCount(d, 1)]
    else if d < t[0].day then
      CountBelow(t, d);
      AscendingCons(DayCount(d, 1), t);
      [DayCount(d, 1)] + t
    else if d == t[0].day then
      var r := [DayCount(d, t[0].count + 1)] + t[1..];
      assert r[1..] == t[1..];
      r
    else
      var rest := Bump(t[1..], d);
      var r := [t[0]] + rest;
      assert r[1..] == rest;
      assert t[0].day < rest[0].day;
      AscendingCons(t[0], rest);
      r
  }

  /** A day before the first of an ascending list can be put in front. */
  lemma AscendingCons(h: DayCount, t: seq<DayCount>)
    requires Ascending(t) && (|t| == 0 || h.day < t[0].day)
    ensures Ascending([h] + t)
  {
    var r := [h] + t;
    forall i, j | 0 <= i < j < |r| ensures r[i].day < r[j].day {
      assert r[j] == t[j - 1];
      if i > 0 {
        assert r[i] == t[i - 1];
      } else if j > 1 {
        assert t[0].day < t[j - 1].day;
      }
    }
  }

  /** The per-day counts of a list of day numbers. */
  function DailyCounts(days: seq<int>): (r: seq<DayCount>)
    ensures Ascending(r)
    ensures CountsPositive(r)
    ensures forall d :: CountOn(r, d) == multiset(days)[d]
    ensures Days(r) == set x | x in days
    ensures TotalCount(r) == |days|
  {
    if |days| == 0 then
      []
    else
      var pre := days[..|days| - 1];
      var x := days[|days| - 1];
      assert days == pre + [x];
      assert multiset(days) == multiset(pre) + multiset{x};
      assert (set y | y in days) == (set y | y in pre) + {x};
      var prev := DailyCounts(pre);
      var r := Bump(prev, x);
      assert TotalCount(r) == TotalCount(prev) + 1;
      assert forall d :: CountOn(r, d) == multiset(days)[d] by {
        forall d ensures CountOn(r, d) == multiset(days)[d] {
          assert CountOn(prev, d) == multiset(pre)[d];
        }
      }
      r
  }

  /** The post's `created_at` is non-empty and parses. */
  predicate Parses(p: Post, parseDay: string -> Option<int>) {
    p.createdAt != "" && parseDay(p.createdAt).Some?
  }

  /** `Parses` as a function value, for filtering. */
  function ParsesWith(parseDay: string -> Option<int>): Post -> bool {
    p => Parses(p, parseDay)
  }

  /** The post's `created_at` parses and falls on day `d`. */
  function OnDay(parseDay: string -> Option<int>, d: int): Post -> bool {
    (p: Post) => Parses(p, parseDay) && parseDay(p.createdAt).value == d
  }

  /** The day of a post, for posts that parse. */
  function DayOf(parseDay: string -> Option<int>): Post -> int {
    (p: Post) => parseDay(p.createdAt).GetOr(0)
  }

  /**
   The day numbers of the posts whose `created_at` is non-empty and parses, in
   post order: one per parsed post, each day as often as posts fall on it.
   */
  function ParsedDays(posts: seq<Post>, parseDay: string -> Option<int>): (r: seq<int>)
    ensures |r| == |Filter(posts, ParsesWith(parseDay))|
    ensures forall d :: multiset(r)[d] == |Filter(posts, OnDay(parseDay, d))|
  {
    var r := Map(Filter(posts, ParsesWith(parseDay)), DayOf(parseDay));
    forall d ensures multiset(r)[d] == |Filter(posts, OnDay(parseDay, d))| {
      DaysOn(posts, parseDay, d);
    }
    r
  }

  /** The parsed days hold day `d` once per post falling on it. */
  lemma {:induction false} DaysOn(posts: seq<Post>, parseDay: string -> Option<int>, d: int)
    ensures multiset(Map(Filter(posts, ParsesWith(parseDay)), DayOf(parseDay)))[d] == |Filter(posts, OnDay(parseDay, d))|
  {
    if |posts| > 0 {
      var p := posts[0];
      var rest := Filter(posts[1..], ParsesWith(parseDay));
      DaysOn(posts[1..], parseDay, d);
      if Parses(p, parseDay) {
        var kept := [p] + rest;
        assert Filter(posts, ParsesWith(parseDay)) == kept;
        assert kept[1..] == rest;
        assert Map(kept, DayOf(parseDay)) == [DayOf(parseDay)(p)] + Map(rest, DayOf(parseDay));
      } else {
        assert Filter(posts, ParsesWith(parseDay)) == rest;
      }
    }
  }

  /** Some post parses exactly when the filtered list is non-empty. */
  lemma SomeParses(posts: seq<Post>, parseDay: string -> Option<int>)
    ensures |Filter(posts, ParsesWith(parseDay))| == 0 <==> forall i :: 0 <= i < |posts| ==> !Parses(posts[i], parseDay)
  {
    var kept := Filter(posts, ParsesWith(parseDay));
    if i :| 0 <= i < |posts| && Parses(posts[i], parseDay) {
      assert posts[i] in multiset(posts);
      assert multiset(kept)[posts[i]] > 0;
    }
    if |kept| > 0 {
      assert kept[0] in multiset(kept);
      assert kept[0] in multiset(posts);
      var i :| 0 <= i < |posts| && posts[i] == kept[0];
      assert Parses(posts[i], parseDay);
    }
  }

  /**
   `_analyze_activity_timeline`: None when there are no posts or no post has
   a parsable timestamp, otherwise the per-day counts of the parsed ones.
   */
  function ActivityTimeline(posts: seq<Post>, parseDay: string -> Option<int>): (r: Option<seq<DayCount>>)
    ensures r.None? <==> forall i :: 0 <= i < |posts| ==> !Parses(posts[i], parseDay)
    ensures r.Some? ==> |r.value| >= 1 && Ascending(r.value)
    ensures r.Some? ==> CountsPositive(r.value)
    ensures r.Some? ==> TotalCount(r.value) == |Filter(posts, ParsesWith(parseDay))|
    ensures r.Some? ==> forall d :: CountOn(r.value, d) == |Filter(posts, OnDay(parseDay, d))|
  {
    if |posts| == 0 then
      None
    else
      var days := ParsedDays(posts, parseDay);
      SomeParses(posts, parseDay);
      if |days| == 0 then
        None
      else
        var t := DailyCounts(days);
        assert |t| >= 1 by {
          assert days[0] in days;
          assert days[0] in Days(t);
        }
        forall d ensures CountOn(t, d) == |Filter(posts, OnDay(parseDay, d))| {
          assert CountOn(t, d) == multiset(days)[d];
        }
        Some(t)
  }
}

=== FILE: values.dfy ===
/**
 JSON-like values as the integration layer sees them: the plain Python
 values `json` produces, plus the NumPy scalars and arrays pandas leaves in
 analysis results. Dict entries keep insertion order.
 */
module Values {
  import opened Common
  import opened Text

  /** A dict key: a string or an integer. */
  datatype Key = SKey(s: string) | IKey(i: int)

  /** One cell of a NumPy array: a number, a boolean, or a nested row. */
  datatype Cell = CInt(i: int) | CFloat(f: real) | CBool(b: bool) | CRow(cells: seq<Cell>)

  datatype Value =
    | Null
    | Bool(b: bool)
    | Int(i: int)
    | Float(f: real)
    | Str(s: string)
    | List(items: seq<Value>)
    | Tuple(items: seq<Value>)
    | Dict(fields: seq<Field>)
    | NpInt(i: int)
    | NpFloat(f: real)
    | NpBool(b: bool)
    | NpArray(cells: seq<Cell>)

  datatype Field = Field(key: Key, value: Value)

  // ---------------------------------------------------------------------
  // Dict lookup and `safe_get`

  /** `key in d` on the fields of a dict. */
  predicate HasKey(fields: seq<Field>, k: Key) {
    exists i :: 0 <= i < |fields| && fields[i].key == k
  }

  /** `d[key]`: the value of the first field with that key. */
  function Lookup(fields: seq<Field>, k: Key): (v: Value)
    requires HasKey(fields, k)
    ensures exists i :: 0 <= i < |fields| && fields[i].key == k && fields[i].value == v
                        && forall j :: 0 <= j < i ==> fields[j].key != k
  {
    if fields[0].key == k then
      fields[0].value
    else
      assert HasKey(fields[1..], k) by {
        var i :| 0 <= i < |fields| && fields[i].key == k;
        assert fields[1..][i - 1].key == k;
      }
      var v := Lookup(fields[1..], k);
      assert exists i :: 0 <= i < |fields| && fields[i].key == k && fields[i].value == v
                         && forall j :: 0 <= j < i ==> fields[j].key != k by {
        var i :| 0 <= i < |fields[1..]| && fields[1..][i].key == k && fields[1..][i].value == v
                 && forall j :: 0 <= j < i ==> fields[1..][j].key != k;
        assert fields[i + 1] == fields[1..][i];
        assert forall j :: 1 <= j < i + 1 ==> fields[j] == fields[1..][j - 1];
      }
      v
  }

  /**
   One step of `safe_get`: a present dict key, or an integer index with
   `0 <= key < len` into a list or tuple. Anything else fails (None).
   */
  function Step(cur: Value, k: Key): (r: Option<Value>)
    ensures r.Some? <==> (cur.Dict? && HasKey(cur.fields, k))
                         || ((cur.List? || cur.Tuple?) && k.IKey? && 0 <= k.i < |cur.items|)
    ensures r.Some? && cur.Dict? ==> r.value == Lookup(cur.fields, k)
    ensures r.Some? && (cur.List? || cur.Tuple?) ==> r.value == cur.items[k.i]
  {
    if cur.Dict? && HasKey(cur.fields, k) then Some(Lookup(cur.fields, k))
    else if (cur.List? || cur.Tuple?) && k.IKey? && 0 <= k.i < |cur.items| then Some(cur.items[k.i])
    else None
  }

  /** Following every key in turn; None as soon as one step fails. */
  function Resolve(data: Value, keys: seq<Key>): Option<Value>
    decreases |keys|
  {
    if |keys| == 0 then Some(data)
    else match Step(data, keys[0])
      case None => None
      case Some(child) => Resolve(child, keys[1..])
  }

  /** `safe_get(data, *keys, default=default)`. */
  function SafeGet(data: Value, keys: seq<Key>, default: Value): (r: Value)
    ensures |keys| == 0 ==> r == data
    ensures |keys| > 0 && Step(data, keys[0]).None? ==> r == default
    ensures |keys| > 0 && Step(data, keys[0]).Some? ==> r == SafeGet(Step(data, keys[0]).value, keys[1..], default)
  {
    match Resolve(data, keys)
    case None => default
    case Some(v) => v
  }

  /** Looking up a path in two parts is looking up the first part, then the second from there. */
  lemma {:induction false} ResolveAppend(data: Value, a: seq<Key>, b: seq<Key>)
    ensures Resolve(data, a + b) == match Resolve(data, a) case None => None case Some(c) => Resolve(c, b)
    decreases |a|
  {
    if |a| == 0 {
      assert a + b == b;
    } else {
      assert (a + b)[0] == a[0];
      assert (a + b)[1..] == a[1..] + b;
      match Step(data, a[0]) {
        case None =>
        case Some(child) => ResolveAppend(child, a[1..], b);
      }
    }
  }

  /** `safe_get` over a path splits the same way. */
  lemma SafeGetAppend(data: Value, a: seq<Key>, b: seq<Key>, default: Value)
    ensures SafeGet(data, a + b, default) == match Resolve(data, a) case None => default case Some(c) => SafeGet(c, b, default)
  {
    ResolveAppend(data, a, b);
  }

  /** A negative index never reaches an element: `safe_get` does not do Python's from-the-end indexing. */
  lemma NoNegativeIndex(items: seq<Value>, i: int, rest: seq<Key>, default: Value)
    requires i < 0
    ensures SafeGet(List(items), [IKey(i)] + rest, default) == default
    ensures SafeGet(Tuple(items), [IKey(i)] + rest, default) == default
  {
  }

  /** A string key never indexes a list. */
  lemma NoStringIndex(items: seq<Value>, s: string, rest: seq<Key>, default: Value)
    ensures SafeGet(List(items), [SKey(s)] + rest, default) == default
  {
  }

  // ---------------------------------------------------------------------
  // NumPy conversion

  /** `ndarray.tolist()` on a cell: numbers and booleans become plain values, rows become lists. */
  function CellToValue(c: Cell): (v: Value)
    ensures NoNumpy(v) && NoTuple(v) && OnlyNumpyBools(v)
  {
    match c
    case CInt(i) => Int(i)
    case CFloat(f) => Float(f)
    case CBool(b) => Bool(b)
    case CRow(cells) => List(seq(|cells|, i requires 0 <= i < |cells| => CellToValue(cells[i])))
  }

  /** `ndarray.tolist()`. */
  function ArrayToList(cells: seq<Cell>): (v: Value)
    ensures v.List? && |v.items| == |cells|
    ensures NoNumpy(v) && NoTuple(v) && OnlyNumpyBools(v)
  {
    List(seq(|cells|, i requires 0 <= i < |cells| => CellToValue(cells[i])))
  }

  /** No NumPy scalar or array anywhere inside. */
  predicate NoNumpy(v: Value) {
    match v
    case NpInt(_) => false
    case NpFloat(_) => false
    case NpBool(_) => false
    case NpArray(_) => false
    case List(items) => forall i :: 0 <= i < |items| ==> NoNumpy(items[i])
    case Tuple(items) => forall i :: 0 <= i < |items| ==> NoNumpy(items[i])
    case Dict(fields) => forall i :: 0 <= i < |fields| ==> NoNumpy(fields[i].value)
    case _ => true
  }

  /** No tuple anywhere inside. */
  predicate NoTuple(v: Value) {
    match v
    case Tuple(_) => false
    case List(items) => forall i :: 0 <= i < |items| ==> NoTuple(items[i])
    case Dict(fields) => forall i :: 0 <= i < |fields| ==> NoTuple(fields[i].value)
    case _ => true
  }

  /** No NumPy value inside except `np.bool_` scalars. */
  predicate OnlyNumpyBools(v: Value) {
    match v
    case NpInt(_) => false
    case NpFloat(_) => false
    case NpArray(_) => false
    case List(items) => forall i :: 0 <= i < |items| ==> OnlyNumpyBools(items[i])
    case Tuple(items) => forall i :: 0 <= i < |items| ==> OnlyNumpyBools(items[i])
    case Dict(fields) => forall i :: 0 <= i < |fields| ==> OnlyNumpyBools(fields[i].value)
    case _ => true
  }

  /**
   `convert_numpy_types` of the shared utility module: dicts, lists and tuples
   keep their kind and are converted element by element; NumPy integers,
   floats and booleans become the equal plain values; arrays become lists;
   everything else is returned unchanged.
   */
  function Convert(v: Value): (r: Value)
    ensures NoNumpy(r)
    ensures v.Dict? ==> r.Dict? && |r.fields| == |v.fields|
                        && forall i :: 0 <= i < |v.fields| ==> r.fields[i].key == v.fields[i].key
    ensures v.List? ==> r.List? && |r.items| == |v.items|
    ensures v.Tuple? ==> r.Tuple? && |r.items| == |v.items|
    ensures v.NpInt? ==> r == Int(v.i)
    ensures v.NpFloat? ==> r == Float(v.f)
    ensures v.NpBool? ==> r == Bool(v.b)
    ensures v.NpArray? ==> r == ArrayToList(v.cells)
    ensures v.Null? || v.Bool? || v.Int? || v.Float? || v.Str? ==> r == v
  {
    match v
    case Dict(fields) =>
      Dict(seq(|fields|, i requires 0 <= i < |fields| => Field(fields[i].key, Convert(fields[i].value))))
    case List(items) => List(seq(|items|, i requires 0 <= i < |items| => Convert(items[i])))
    case Tuple(items) => Tuple(seq(|items|, i requires 0 <= i < |items| => Convert(items[i])))
    case NpInt(i) => Int(i)
    case NpFloat(f) => Float(f)
    case NpArray(cells) => ArrayToList(cells)
    case NpBool(b) => Bool(b)
    case _ => v
  }

  /** Containers are converted element by element: each item, and each dict value under its own key. */
  lemma ConvertElementwise(v: Value, i: int)
    ensures (v.List? || v.Tuple?) && 0 <= i < |v.items| ==> Convert(v).items[i] == Convert(v.items[i])
    ensures v.Dict? && 0 <= i < |v.fields| ==> Convert(v).fields[i] == Field(v.fields[i].key, Convert(v.fields[i].value))
  {
  }

  /** A value without NumPy parts is left as it is, so converting twice is converting once. */
  lemma {:induction false} ConvertFixed(v: Value)
    requires NoNumpy(v)
    ensures Convert(v) == v
    decreases v
  {
    match v
    case Dict(fields) =>
      forall i | 0 <= i < |fields| ensures Convert(fields[i].value) == fields[i].value {
        ConvertFixed(fields[i].value);
      }
      assert Convert(v).fields == fields;
    case List(items) =>
      forall i | 0 <= i < |items| ensures Convert(items[i]) == items[i] {
        ConvertFixed(items[i]);
      }
      assert Convert(v).items == items;
    case Tuple(items) =>
      forall i | 0 <= i < |items| ensures Convert(items[i]) == items[i] {
        ConvertFixed(items[i]);
      }
      assert Convert(v).items == items;
    case _ =>
  }

  lemma ConvertIdempotent(v: Value)
    ensures Convert(Convert(v)) == Convert(v)
  {
    ConvertFixed(Convert(v));
  }

  /**
   The `convert_numpy_types` helper inside the integration module: like
   `Convert`, except that tuples become lists and `np.bool_` is not handled,
   so it passes through unchanged.
   */
  function ConvertToLists(v: Value): (r: Value)
    ensures NoTuple(r) && OnlyNumpyBools(r)
    ensures v.Dict? ==> r.Dict? && |r.fields| == |v.fields|
                        && forall i :: 0 <= i < |v.fields| ==> r.fields[i].key == v.fields[i].key
    ensures v.List? || v.Tuple? ==> r.List? && |r.items| == |v.items|
    ensures v.NpInt? ==> r == Int(v.i)
    ensures v.NpFloat? ==> r == Float(v.f)
    ensures v.NpArray? ==> r == ArrayToList(v.cells)
    ensures v.NpBool? || v.Null? || v.Bool? || v.Int? || v.Float? || v.Str? ==> r == v
  {
    match v
    case NpInt(i) => Int(i)
    case NpFloat(f) => Float(f)
    case NpArray(cells) => ArrayToList(cells)
    case Dict(fields) =>
      Dict(seq(|fields|, i requires 0 <= i < |fields| => Field(fields[i].key, ConvertToLists(fields[i].value))))
    case List(items) => List(seq(|items|, i requires 0 <= i < |items| => ConvertToLists(items[i])))
    case Tuple(items) => List(seq(|items|, i requires 0 <= i < |items| => ConvertToLists(items[i])))
    case _ => v
  }

  /** Containers are converted element by element; a tuple's items land in a list in the same positions. */
  lemma ConvertToListsElementwise(v: Value, i: int)
    ensures (v.List? || v.Tuple?) && 0 <= i < |v.items| ==> ConvertToLists(v).items[i] == ConvertToLists(v.items[i])
    ensures v.Dict? && 0 <= i < |v.fields| ==> ConvertToLists(v).fields[i] == Field(v.fields[i].key, ConvertToLists(v.fields[i].value))
  {
  }

  /** A value with no tuple and no NumPy part other than booleans is left as it is. */
  lemma {:induction false} ConvertToListsFixed(v: Value)
    requires NoTuple(v) && OnlyNumpyBools(v)
    ensures ConvertToLists(v) == v
    decreases v
  {
    match v
    case Dict(fields) =>
      forall i | 0 <= i < |fields| ensures ConvertToLists(fields[i].value) == fields[i].value {
        ConvertToListsFixed(fields[i].value);
      }
      assert ConvertToLists(v).fields == fields;
    case List(items) =>
      forall i | 0 <= i < |items| ensures ConvertToLists(items[i]) == items[i] {
        ConvertToListsFixed(items[i]);
      }
      assert ConvertToLists(v).items == items;
    case _ =>
  }

  lemma ConvertToListsIdempotent(v: Value)
    ensures ConvertToLists(ConvertToLists(v)) == ConvertToLists(v)
  {
    ConvertToListsFixed(ConvertToLists(v));
  }

  /** The two converters disagree on a NumPy boolean: only the shared utility turns it into a plain bool. */
  lemma ConvertersDifferOnBool(b: bool)
    ensures Convert(NpBool(b)) == Bool(b)
    ensures ConvertToLists(NpBool(b)) == NpBool(b)
  {
  }

  // ---------------------------------------------------------------------
  // `int(value)` with `ValueError` and `TypeError` mapped to 0

  /**
   Python's `int(value)`: a decimal string, an integer, a float (truncated
   toward zero) or a boolean; every other value raises, which the caller
   turns into 0.
   */
  function IntOrZero(v: Value): (n: int)
    ensures v.Int? || v.NpInt? ==> n == v.i
    ensures v.Bool? || v.NpBool? ==> n == if v.b then 1 else 0
    ensures v.Float? || v.NpFloat? ==> n == Truncate(v.f)
    ensures v.Str? ==> n == ParseInt(v.s).GetOr(0)
    ensures v.Null? || v.List? || v.Tuple? || v.Dict? || v.NpArray? ==> n == 0
  {
    match v
    case Int(i) => i
    case NpInt(i) => i
    case Bool(b) => if b then 1 else 0
    case NpBool(b) => if b then 1 else 0
    case Float(f) => Truncate(f)
    case NpFloat(f) => Truncate(f)
    case Str(s) => ParseInt(s).GetOr(0)
    case _ => 0
  }

  /** A rendered integer reads back as itself. */
  lemma IntOrZeroOfDecimal(n: int)
    ensures IntOrZero(Str(IntToDecimal(n))) == n
  {
    ParseIntOfDecimal(n);
  }
}
